=== FILE: README.md ===
# A verified model of the tax assistant's core

This project models, in Dafny, the deterministic core of the AI tax
assistant's backend: the text routines that clean document text, cut keyword
excerpts and recognise suggested actions in a model reply; the prompt
rendering and reply parsing of the chat client; the prompt builder; the
retrieval service's token-budgeted snippet loop and keyword search; document
text dispatch by file extension; the in-memory database and file drive used
for local development; the project, task, document and action services over
that database; and the shared helpers of the cloud functions.

Every operation is a pure function over immutable values. The stores are
values passed in and returned: a service call takes the store and gives back
the new store with its result. Python dicts whose order can be observed are
`PyDict.Dict` values, which keep insertion order. Python strings are
`seq<char>`.

What the program gets from outside becomes a parameter:

- `uid`: the hex digits of a fresh uuid.
- `now` / `timestamp`: the ISO text of the current time.
- `env`: the process environment.
- `call`: the HTTP call to an action's cloud function, with its reply or exception.
- `samples`: the sample-text table of the document parser.
- `driveClient`: whether the Drive client could be made.
- `extract`: document text extraction, as the prompt builder and the retrieval service call it.
- `chunksOf`: the chunks of a document.

The modules follow the program's files. Three modules are shared:

- `Strings`: Python `str` operations.
- `Seqs`: list slicing, filters, first-occurrence de-duplication and the stable sort.
- `PyDict`: the ordered dict.

## Model

| member | source | states |
|---|---|---|
| ActionService.FindAction | backend/app/services/action_service.py:29-58 | the table entry for an action id is the one carrying that id, and there is none exactly when no entry has it |
| ActionService.AvailableActions | backend/app/services/action_service.py:160-172 | whatever the task, all four table entries, each found again under its own id, with no id twice |
| ActionService.FirstMissing | backend/app/services/action_service.py:93-94 | the index of the first required parameter that is absent: every name before it is present |
| ActionService.Validate | backend/app/services/action_service.py:78-100 | an unknown id fails with "Action <id> not found"; a known one succeeds exactly when every required parameter is present (a missing `params` counts as `{}`), and otherwise fails naming the first required parameter that is absent |
| ActionService.RiskReviewAlwaysValid | backend/app/services/action_service.py:37-43 | `trigger_risk_review` has no required parameters, so it validates whatever `params` holds |
| ActionService.MakePayload | backend/app/services/action_service.py:107-116 | the payload carries the task's id, client and tax form and the parameters; `documentIds` is present exactly when there are documents, holding their ids in order |
| ActionService.ExecuteAction | backend/app/services/action_service.py:60-158 | a validation failure is the result without any call; success exactly when the action validates and the function answers 200 with a JSON body, with the message "Action <name> executed successfully"; every failure carries no result |
| ActionService.ValidationBeforeCall | backend/app/services/action_service.py:78-100 | when validation fails the result does not depend on the function call at all |
| ActionService.AbsentParamsAreEmpty | backend/app/services/action_service.py:90-91 | a missing `params` gives the same result as an empty one |
| DocumentParser.RFind | backend/app/utils/document_parser.py:227 | the last index holding the character, or -1 when none does |
| DocumentParser.Splitext | backend/app/utils/document_parser.py:227 | `os.path.splitext`: the two parts glue back to the name, and a non-empty extension is one dot followed by neither dots nor slashes |
| DocumentParser.SplitextOfSuffix | backend/app/utils/document_parser.py:227 | a name ending in `.ext` after an ordinary character splits right before that dot |
| DocumentParser.SplitextNoDot | backend/app/utils/document_parser.py:227 | a name without a dot has an empty extension |
| DocumentParser.SplitextHiddenName | backend/app/utils/document_parser.py:227 | a name like `.env` (leading dots, no other dot) has an empty extension |
| DocumentParser.ExtractDocumentText | backend/app/utils/document_parser.py:202-244 | a name in the sample table gets its sample text; otherwise a failing Drive client gives "[Error extracting content: …]", and else the lower-cased name's extension picks the PDF, DOCX, XLSX or plain-text placeholder, or "[Content extraction not supported for <ext> files]" |
| DocumentParser.ExtractionIgnoresCase | backend/app/utils/document_parser.py:227 | outside the sample table, names that lower-case alike are extracted alike |
| DocumentParser.UpperCasePdf | backend/app/utils/document_parser.py:227-231 | a `.PDF` name outside the table gets the PDF placeholder |
| DocumentParser.NoExtensionUnsupported | backend/app/utils/document_parser.py:238-240 | a name without a dot is reported unsupported with an empty extension |
| DocumentParser.Preview | backend/app/utils/document_parser.py:326-330 | a text within the limit is kept whole; a longer one becomes its `[:max_length]` slice (Python's negative-index rule included) followed by "..." |
| DocumentParser.PreviewBounded | backend/app/utils/document_parser.py:326-330 | with a non-negative limit a preview is at most three characters over it, and is over it exactly when the text is |
| DocumentParser.GetDocumentPreview | backend/app/utils/document_parser.py:310-332 | the preview of the extracted text: the whole text when it fits, else the first `max_length` characters and three more |
| DocumentService.UpdateDocument | backend/app/services/document_service.py:65-84 | a missing document gives None and leaves the store alone; otherwise the record becomes the old one with only the set fields replaced, it is read back by its id, and no other record of any container changes |
| DocumentService.Conditions | backend/app/services/document_service.py:115 | one condition `c.doc_id = @id<i>` per id, in id order |
| DocumentService.DocumentsQuery | backend/app/services/document_service.py:110-118 | no query for an empty id list; otherwise the conditions joined by " OR " after "SELECT * FROM c WHERE ", and parameter `i` binds `@id<i>` to the `i`-th id |
| DocumentService.QueryHasOneConditionPerId | backend/app/services/document_service.py:115-116 | splitting the query text after its prefix at " OR " gives back exactly one condition per id |
| DocumentService.ParamNamesDistinct | backend/app/services/document_service.py:118 | different positions get different parameter names |
| DocumentService.GetDocumentsByIds | backend/app/services/document_service.py:100-119 | `[]` for no ids; otherwise what the mock store's `query` returns, which is every stored document in insertion order |
| DocumentService.GetDocumentsForTask | backend/app/services/document_service.py:121-135 | `[]` for a missing task; otherwise the lookup of exactly that task's `documents` list |
| DocumentService.AddDocumentToTask | backend/app/services/document_service.py:137-153 | true exactly when both the document and the task exist; a missing document changes nothing; otherwise the store is the one the task service's append gives |
| DocumentService.LinkedDocumentListedOnce | backend/app/services/document_service.py:137-153 | after linking an existing document to an existing task, the task lists it, appended at the end if it was not there before |
| FunctionUtils.FormatResponse | functions/shared/utils.py:10-32 | `success`, `message` and the time stamp are carried through, the status code comes back unchanged, and `data` is present exactly when the given dict is present and non-empty, and then it is that dict |
| FunctionUtils.EmptyDataDropped | functions/shared/utils.py:29-30 | an empty `data` dict gives the same response as none |
| FunctionUtils.GetEnvVariable | functions/shared/utils.py:34-53 | fails, with "Required environment variable <name> not found", exactly when the variable is required and neither it nor a default is there; otherwise the variable's value when set, else the default |
| FunctionUtils.SetVariableIgnoresDefault | functions/shared/utils.py:46 | when the variable is set, the default and the flag make no difference |
| FunctionUtils.SafeParams | functions/shared/utils.py:67 | the logged dict has no key whose lower-case form is password, key, secret or token, and every other key keeps its value |
| FunctionUtils.LoggedParams | functions/shared/utils.py:63-68 | a parameter line is logged exactly when `params` is present and non-empty, and it shows the filtered dict |
| FunctionUtils.SensitiveIsWholeKey | functions/shared/utils.py:67 | only whole-key matches are dropped: a sensitive name with anything before or after it, such as `api_key` or `token_type`, is not sensitive and is logged |
| Models.StatusValueInjective | backend/app/models/task.py:12-18 | distinct statuses have distinct string values |
| Models.TaskWithSetFieldsOnly | backend/app/models/task.py:42-50 | merging a task update replaces exactly the fields the update sets and keeps the others |
| Models.TaskWithIdempotent | backend/app/models/task.py:42-50 | merging the same update twice is merging it once, and an update that sets nothing changes nothing |
| Models.StatusOnlyChangesStatus | backend/app/models/task.py:48 | an update that sets only the status changes the status and nothing else |
| Models.ProjectWithSetFieldsOnly | backend/app/models/project.py:24-30 | merging a project update replaces exactly the set fields; merging twice is merging once; the empty update changes nothing |
| Models.DocumentWithSetFieldsOnly | backend/app/models/document.py:35-40 | merging a document update replaces exactly the set fields; merging twice is merging once; the empty update changes nothing |
| MockDatabase.GetContainer | backend/app/core/mock/mock_database.py:27-41 | the named container is returned and is the one stored under that name; an existing one is returned as is and nothing changes, an absent one is added empty; no other container changes |
| MockDatabase.GetContainerTwice | backend/app/core/mock/mock_database.py:37-41 | asking twice for a container is asking once |
| MockDatabase.FirstPresent | backend/app/core/mock/mock_database.py:75-78 | the index of the first name the record has: none before it is present |
| MockDatabase.ItemId | backend/app/core/mock/mock_database.py:73-84 | no key exactly when the record has none of id, user_id, project_id, task_id, document_id; otherwise the value of the first of them, in that order, that it has |
| MockDatabase.Create | backend/app/core/mock/mock_database.py:60-87 | fails with "Item has no ID field" exactly when the record has no id field; otherwise the record is stored under its key and every other key is unchanged |
| MockDatabase.GetById | backend/app/core/mock/mock_database.py:89-102 | None exactly when the id is absent, else the stored record |
| MockDatabase.ListAll | backend/app/core/mock/mock_database.py:104-111 | every stored record once, in insertion order |
| MockDatabase.Query | backend/app/core/mock/mock_database.py:113-129 | every stored record, in insertion order, whatever the query |
| MockDatabase.Update | backend/app/core/mock/mock_database.py:131-146 | fails with "Item with ID <id> not found" exactly when the id is absent; otherwise only that entry is replaced and the order is kept |
| MockDatabase.Delete | backend/app/core/mock/mock_database.py:148-156 | the id is absent afterwards, every other key is unchanged, and deleting an absent id changes nothing |
| MockDatabase.DeleteIdempotent | backend/app/core/mock/mock_database.py:155-156 | deleting twice is deleting once |
| MockDatabase.QueryIgnoresArguments | backend/app/core/mock/mock_database.py:127-129 | any two queries give the same list, which is `list_all` |
| MockDatabase.ProjectKey | backend/app/core/mock/mock_database.py:75 | a project is stored under its project id |
| MockDatabase.TaskKey | backend/app/core/mock/mock_database.py:75 | a task is stored under its project id, because `project_id` comes before `task_id` in the priority list |
| MockDatabase.DocumentKey | backend/app/core/mock/mock_database.py:75 | a document (which has `doc_id`, not `document_id`) is stored under its project id |
| MockDrive.ListFiles | backend/app/core/mock/mock_drive.py:141-154 | exactly the stored files whose parent is the folder |
| MockDrive.ListFolders | backend/app/core/mock/mock_drive.py:156-169 | exactly the stored folders whose parent is the given id |
| MockDrive.GetFile | backend/app/core/mock/mock_drive.py:171-181 | None exactly for an unknown id, else the stored file |
| MockDrive.GetFolder | backend/app/core/mock/mock_drive.py:183-193 | None exactly for an unknown id, else the stored folder |
| MockDrive.DownloadFile | backend/app/core/mock/mock_drive.py:195-209 | fails with "File with ID <id> not found" exactly for an unknown id; otherwise the stored content |
| MockDrive.NextNumberedKey | backend/app/core/mock/mock_drive.py:221-246 | while no numbered key exceeds the count, `<prefix><count+1>` is fresh, and adding it keeps that so |
| MockDrive.CreateFolder | backend/app/core/mock/mock_drive.py:211-232 | the new folder is `folder-<n+1>` for `n` folders, that id was not in use, the count grows by one, the folder is read back by its id, and no other folder or any file changes |
| MockDrive.UploadFile | backend/app/core/mock/mock_drive.py:234-259 | the new file is `file-<n+1>` for `n` files with the given name, type, parent and content, that id was not in use, the count grows by one, and no other file or any folder changes |
| MockDrive.DownloadAfterUpload | backend/app/core/mock/mock_drive.py:195-259 | downloading an uploaded file gives back exactly its bytes, and it is listed under its parent |
| MockDrive.CreatedFolderListed | backend/app/core/mock/mock_drive.py:156-232 | a created folder is listed under its parent |
| MockDrive.Utf8Char | backend/app/core/mock/mock_drive.py:127 | a character encodes to one to four bytes, to one byte exactly when it is ASCII, and then to its own code |
| MockDrive.Utf8 | backend/app/core/mock/mock_drive.py:127 | an encoding is at least as long as the text and at most four times as long |
| MockDrive.Utf8Append | backend/app/core/mock/mock_drive.py:126-127 | encoding distributes over concatenation |
| MockDrive.Utf8Ascii | backend/app/core/mock/mock_drive.py:126-127 | an ASCII text encodes to its own character codes, one byte each |
| MockDrive.MockContentBytes | backend/app/core/mock/mock_drive.py:122-139 | a mock file's bytes are its encoded heading line followed by its encoded body, and for ASCII parts they are the text's own character codes, one byte each |
| MockDrive.NoNumberedKey | backend/app/core/mock/mock_drive.py:18-119 | ids that do not start like the prefix never collide with a numbered key |
| MockDrive.InitialFolders | backend/app/core/mock/mock_drive.py:18-61 | the six sample folders, none of them a numbered `folder-` key |
| MockDrive.InitialFiles | backend/app/core/mock/mock_drive.py:64-119 | the six sample files, none of them a numbered `file-` key |
| MockDrive.InitialDrive | backend/app/core/mock/mock_drive.py:15-121 | the initial drive is well formed with six folders and six files |
| ProjectService.AppendOnce | backend/app/services/project_service.py:89-90 | the id is in the result; an id already listed leaves the list alone, a new one is appended at the end, and nothing else is added |
| ProjectService.AppendOnceIdempotent | backend/app/services/project_service.py:89-93 | appending the same id twice is appending it once, and a list without repeats stays without repeats |
| ProjectService.CreateProject | backend/app/services/project_service.py:27-50 | the new project has id `proj-<uid>`, the given name, clients and services and empty document and task lists; it is read back by its id and nothing else changes |
| ProjectService.UpdateProject | backend/app/services/project_service.py:52-71 | a missing project gives None and changes nothing; otherwise the project becomes the merge of the set fields, is read back so, and nothing else changes |
| ProjectService.AddDocumentToProject | backend/app/services/project_service.py:73-93 | a missing project gives None and changes nothing; otherwise its `documents` gets the id appended once, and no other record changes |
| ProjectService.AddTaskToProject | backend/app/services/project_service.py:95-115 | a missing project gives None and changes nothing; otherwise its `tasks` gets the id appended once, and no other record changes |
| ProjectService.AddDocumentToProjectIdempotent | backend/app/services/project_service.py:88-93 | adding the same document twice is adding it once, and the task list is untouched |
| ProjectService.AddTaskToProjectIdempotent | backend/app/services/project_service.py:110-115 | adding the same task twice is adding it once, and the document list is untouched |
| TaskService.CreateTask | backend/app/services/task_service.py:28-60 | the new task has id `task-<uid>`, status Not Started and every field of the create data; it is stored under its project id (the store's key rule) with no other task changed, and an existing project gets the task id appended once |
| TaskService.CreatedTaskNotFoundById | backend/app/services/task_service.py:55 | a freshly created task cannot be read back by its own task id, since it was stored under its project id |
| TaskService.UpdateTask | backend/app/services/task_service.py:62-81 | a missing task gives None and changes nothing; otherwise the task becomes the merge of the set fields, is read back so, and nothing else changes |
| TaskService.AddDocumentToTask | backend/app/services/task_service.py:129-149 | a missing task gives None and changes nothing; otherwise its `documents` gets the id appended once, and nothing else changes |
| TaskService.AddDocumentToTaskIdempotent | backend/app/services/task_service.py:144-149 | adding the same document twice is adding it once |
| TaskService.UpdateTaskStatus | backend/app/services/task_service.py:151-167 | a missing task gives None; otherwise only the status changes and nothing else in the store |
| TaskService.StatusIsPartialUpdate | backend/app/services/task_service.py:151-167 | changing the status is the same as the partial update that sets only the status |
| OpenAIClient.MarkerShape | backend/app/core/openai_client.py:142-143 | the marker holds no space and no ';', and its last character occurs nowhere else in it |
| OpenAIClient.ParseAction | backend/app/core/openai_client.py:148-154 | a segment yields an action exactly when it holds a ';' |
| OpenAIClient.ParseResponse | backend/app/core/openai_client.py:127-156 | a reply without the marker comes back unchanged with no actions; with it, the cleaned reply is the stripped text before the first marker; there are never more actions than markers |
| OpenAIClient.ActionSegments | backend/app/core/openai_client.py:102 | one segment `" type;description"` per action, in order |
| OpenAIClient.StrippedAll | backend/app/core/openai_client.py:152-153 | each action with its type and description stripped, in order |
| OpenAIClient.ParseActionSegment | backend/app/core/openai_client.py:148-154 | a segment made from an action whose type has no ';' parses back to that action with both parts stripped, the description keeping any ';' of its own |
| OpenAIClient.ParseActionSegments | backend/app/core/openai_client.py:147-154 | the segments of such actions parse back, in order, to the stripped actions |
| OpenAIClient.SegmentHasNoMarker | backend/app/core/openai_client.py:143 | a segment made from parts without the marker holds no marker, even across the glue |
| OpenAIClient.ParseRender | backend/app/core/openai_client.py:142-154 | round trip: a body without the marker followed by one marked line per action parses to the body (stripped when there are actions) and the actions with type and description stripped |
| OpenAIClient.QuotedNames | backend/app/core/openai_client.py:103 | each action type in single quotes, in order |
| OpenAIClient.ContextLineList | backend/app/core/openai_client.py:91-92 | one `key: value` line per task-context entry, in iteration order |
| OpenAIClient.LayoutShape | backend/app/core/openai_client.py:83-106 | the prompt starts with its fixed head followed by the context lines and the snippet header, ends with its fixed tail and always holds the snippet header |
| OpenAIClient.BuildSystemPrompt | backend/app/core/openai_client.py:71-106 | the prompt starts with the preamble and "### Task Information", followed right away by the context's `key: value` lines (one per entry in iteration order, see ContextLinesSplit) and then "### Document Snippets"; it ends with the Action Format block, and holds the snippet header even with no snippets |
| OpenAIClient.ContextLinesJoin | backend/app/core/openai_client.py:90-92 | the task lines are the `key: value` lines, each ended by a line break |
| OpenAIClient.ContextLineOneLine | backend/app/core/openai_client.py:92 | a key and value without line breaks make one line |
| OpenAIClient.ContextLinesSplit | backend/app/core/openai_client.py:90-92 | splitting the task lines at line breaks gives back one `key: value` line per entry, in order |
| OpenAIClient.SnippetNumbered | backend/app/core/openai_client.py:95-96 | in blocks numbered from `n`, the snippet at index `k` appears as block `n + k` |
| OpenAIClient.PromptHoldsSnippet | backend/app/core/openai_client.py:94-96 | the snippet at index `k` appears in the prompt as "Snippet <k+1>:" followed by its text |
| OpenAIClient.ActionFormatNamesActions | backend/app/core/openai_client.py:99-104 | the Action Format block names every action type |
| PromptBuilder.BulletsHoldItems | backend/app/utils/prompt_builder.py:53-56 | every item gets its own `- item` line |
| PromptBuilder.ActionNames | backend/app/utils/prompt_builder.py:52-56 | the listed actions are the names of the action table's entries, in its order |
| PromptBuilder.ContextLines | backend/app/utils/prompt_builder.py:39-43 | the context block holds the line `- Client: <client>` |
| PromptBuilder.SystemPrompt | backend/app/utils/prompt_builder.py:35-59 | the system prompt holds the client line and one `- <name>` line for every action of the action table |
| PromptBuilder.SystemPromptFields | backend/app/utils/prompt_builder.py:35-59 | the system prompt depends only on the task's id, status, client, tax form and assignee, not on the message or the documents |
| PromptBuilder.Keywords | backend/app/utils/prompt_builder.py:72 | seven keywords, the first the task's client and the second its tax form |
| PromptBuilder.ExcerptLines | backend/app/utils/prompt_builder.py:77-82 | exactly the no-information line when there is no key information; otherwise the "Key excerpts:" heading, then one bullet for each of the first (at most) three excerpts |
| PromptBuilder.ExcerptLinesFirstThree | backend/app/utils/prompt_builder.py:79 | excerpts past the third never reach the prompt |
| PromptBuilder.Entries | backend/app/utils/prompt_builder.py:67-73 | one entry per document, in order, named by its file name, with the key information of the text extracted under that name |
| PromptBuilder.NoKeywordNoExcerpts | backend/app/utils/prompt_builder.py:72-82 | a document whose text matches none of the keywords gets its header and the line "- No key information found in this document." |
| PromptBuilder.KeywordGivesExcerpts | backend/app/utils/prompt_builder.py:72-78 | a document whose text matches some keyword gets its header followed by the "Key excerpts:" heading |
| PromptBuilder.NoMatchNoExcerpts | backend/app/utils/text_utils.py:131-151 | with no keyword matching anywhere, `extract_key_info` finds nothing |
| PromptBuilder.NoMatchNoneFound | backend/app/utils/text_utils.py:131-145 | with no keyword matching anywhere, no excerpt is produced |
| PromptBuilder.FirstPositionMatches | backend/app/utils/text_utils.py:133-134 | the first position the keyword scan reports is a match |
| PromptBuilder.SectionShowsHeader | backend/app/utils/prompt_builder.py:76 | a document section holds its `[Document <n>: <name>]` header |
| PromptBuilder.SectionsHoldSections | backend/app/utils/prompt_builder.py:67-82 | the `k`-th entry's whole section, numbered `k + 1`, is in the sections |
| PromptBuilder.SectionsHoldHeaders | backend/app/utils/prompt_builder.py:67-76 | the `k`-th entry's header, numbered `k + 1`, is in the sections |
| PromptBuilder.Context | backend/app/utils/prompt_builder.py:62-82 | the document context is empty exactly when there are no entries, and otherwise holds every entry's numbered header and its whole section |
| PromptBuilder.DocumentContext | backend/app/utils/prompt_builder.py:62-82 | empty exactly when there are no documents (so no "Relevant Document Information" heading); otherwise it holds the header of each of the first five documents, numbered from 1 in input order, and each one's section: its key excerpts ("Key excerpts:" and at most three bullets, by ExcerptLines) or the no-key-information line |
| PromptBuilder.DocumentContextFirstFive | backend/app/utils/prompt_builder.py:67 | documents past the fifth never reach the prompt |
| PromptBuilder.UserPrompt | backend/app/utils/prompt_builder.py:85-91 | the user prompt starts with "User Question: " and the message verbatim, holds the document context, and ends with the closing request |
| PromptBuilder.UserPromptFor | backend/app/utils/prompt_builder.py:61-91 | the message verbatim after "User Question: "; with no documents, the prompt with an empty context; otherwise the header and the section of each of the first five documents, the section holding the document's key excerpts (at most three) or exactly the no-key-information line, as ExcerptLines states |
| PromptBuilder.UserPromptAsWritten | backend/app/utils/prompt_builder.py:64-76 | as written, the user prompt fails with the `AttributeError` for `filename` exactly when there are documents |
| PromptBuilder.AsWrittenAgreesWithoutDocuments | backend/app/utils/prompt_builder.py:64-76 | as written and corrected agree exactly when there are no documents |
| RagService.Extractions | backend/app/services/rag_service.py:204-207 | each document is paired with its own extraction outcome, in order |
| RagService.ChargeSpec | backend/app/services/rag_service.py:209-220 | a text is charged the smaller of its `len // 4` estimate and the remaining budget; a text over the budget is cut to its first `(max_tokens - current) * 4` characters plus the truncation marker and brings the count exactly to the budget; a text that fits is kept whole; a failed extraction is charged nothing |
| RagService.CutStops | backend/app/services/rag_service.py:213-235 | a document whose text is cut always ends the loop |
| RagService.SnippetsCons | backend/app/services/rag_service.py:222-235 | past a document that does not reach the budget, the loop goes on over the rest with the count raised by its charge |
| RagService.SnippetsStop | backend/app/services/rag_service.py:233-235 | a document that reaches the budget gets the last snippet |
| RagService.CounterWithinBudget | backend/app/services/rag_service.py:201-235 | starting within the budget, the token count never decreases and never passes the budget |
| RagService.SnippetsAtMostDocuments | backend/app/services/rag_service.py:204-245 | there is at most one snippet per document |
| RagService.SnippetFollowsDocument | backend/app/services/rag_service.py:223-228 | the `i`-th snippet carries the `i`-th document's id, file name and type |
| RagService.StopsOnlyAtBudget | backend/app/services/rag_service.py:233-235 | documents are left out only once the count has reached the budget |
| RagService.OnlyLastIsCut | backend/app/services/rag_service.py:213-235 | a snippet that is not its document's whole text is the last snippet, is a leading part of the extracted text plus the marker, and leaves the count at the budget |
| RagService.CutKeepsRemainder | backend/app/services/rag_service.py:209-220 | the cut snippet keeps four characters for each token left after the documents before it, then the marker |
| RagService.AllFit | backend/app/services/rag_service.py:204-235 | when the whole estimate stays under the budget, every document gets a snippet and the count grows by exactly that estimate |
| RagService.AllFitWhole | backend/app/services/rag_service.py:222-228 | ... and then every snippet is its document's whole text or error text |
| RagService.FailuresSpendNothing | backend/app/services/rag_service.py:237-245 | when every extraction fails, each document gets its `[Error extracting content: ...]` snippet whatever the budget, and the count does not move |
| RagService.GetDocumentSnippets | backend/app/services/rag_service.py:187-247 | at most one snippet per document; with a non-negative budget the final count stays within it; documents are dropped only once the budget is reached |
| RagService.ScorePositiveIff | backend/app/services/rag_service.py:163-171 | a chunk's score is positive exactly when its lower-cased text contains one of the query terms |
| RagService.DocumentHits | backend/app/services/rag_service.py:161-181 | the hits of a document are exactly its chunks of positive score, each with its chunk index |
| RagService.AllHitsRelevant | backend/app/services/rag_service.py:153-181 | every hit has a positive score and is a scored chunk of one of the documents |
| RagService.AllHitsComplete | backend/app/services/rag_service.py:153-181 | every chunk of positive score of every document is a hit |
| RagService.Rank | backend/app/services/rag_service.py:184-185 | `max_results` hits (or all of them when fewer), drawn from the hits, in non-increasing score order |
| RagService.RankIsTopK | backend/app/services/rag_service.py:184-185 | every hit left out scores no higher than every hit kept |
| RagService.RankKeepsTieOrder | backend/app/services/rag_service.py:184 | the sort is stable: the kept hits of one score are the first hits of that score in the order found |
| RagService.SearchDocuments | backend/app/services/rag_service.py:130-185 | no ids give no results; every result is a relevant chunk of one of the looked-up documents for the lower-cased, whitespace-split query; the results are the `max_results` best, by non-increasing score, ties in the order found (the ranking of Rank, RankIsTopK and RankKeepsTieOrder) |
| RagService.FileNameExtract | backend/app/utils/document_parser.py:202-244 | extraction by file name never fails, and gives the sample text for a name in the table |
| RagService.AsWrittenSnippetsAreErrors | backend/app/services/rag_service.py:207 | as written, every document's snippet is the error text of the missing `filename` argument, whatever the budget |
| RagService.FileNameSnippetsAreTexts | backend/app/services/rag_service.py:204-228 | with the file name passed, every snippet is its document's extracted text, whole or cut |
| RagService.GetTaskContextAsWritten | backend/app/services/rag_service.py:39-77 | "Task not found" for a missing task, "Project not found" for a missing project, and otherwise the `AttributeError` for `task.title` |
| RagService.GetTaskContext | backend/app/services/rag_service.py:39-77 | never raises; a context only for a stored task whose project is stored, holding that task's and project's fields and at most one snippet per task document, in the task's document order |
| RagService.NotFoundAgrees | backend/app/services/rag_service.py:39-61 | as written and corrected report "not found" for the same ids with the same message, and the corrected one builds a context exactly where the written one raises |
| TextUtils.Collapse | backend/app/utils/text_utils.py:28 | the substitution never lengthens the text, empties only the empty text, and turns leading whitespace into one space |
| TextUtils.CollapseIsCollapsed | backend/app/utils/text_utils.py:28 | after the substitution, the only whitespace left is single spaces |
| TextUtils.CollapseFixpoint | backend/app/utils/text_utils.py:28 | a text whose only whitespace is single spaces is left unchanged |
| TextUtils.CollapseIdempotent | backend/app/utils/text_utils.py:28 | collapsing twice gives the same as collapsing once |
| TextUtils.CollapseWord | backend/app/utils/text_utils.py:28 | a leading run of non-space characters is copied unchanged |
| TextUtils.CollapseKeepsWords | backend/app/utils/text_utils.py:28 | collapsing whitespace keeps exactly the words `str.split()` finds |
| TextUtils.CutCollapsed | backend/app/utils/text_utils.py:31-32 | cutting a collapsed text and adding "..." keeps it collapsed |
| TextUtils.ExtractTextFromContent | backend/app/utils/text_utils.py:13-34 | empty exactly for empty content; whitespace only single spaces; a text within `max_length` is the collapsed text, with the same words; a longer one is a leading part of it followed by "...", of length `max_length + 3` |
| TextUtils.ExtractTextIdempotent | backend/app/utils/text_utils.py:13-34 | cleaning an already cleaned text again changes nothing |
| TextUtils.AllActionIdsComplete | backend/app/utils/text_utils.py:61-69 | the classification knows exactly four actions |
| TextUtils.FirstMentioned | backend/app/utils/text_utils.py:61-69 | the action chosen is in the list and its keyword test passes; none is chosen exactly when every test fails |
| TextUtils.Classify | backend/app/utils/text_utils.py:61-69 | the action chosen has its keywords in the lower-cased phrase; no action exactly when none of the four tests passes |
| TextUtils.FirstMentionedIsFirst | backend/app/utils/text_utils.py:61-69 | an action is chosen only when no earlier action in the `if/elif` order passes its test |
| TextUtils.ClassifyIgnoresCase | backend/app/utils/text_utils.py:62-68 | lower-casing the phrase first changes nothing |
| TextUtils.TaxReviewShadowed | backend/app/utils/text_utils.py:64-69 | "send to tax review" is chosen only for a phrase mentioning "tax review" but neither "risk" nor "summary" (a risk mention turns it into a risk review) |
| TextUtils.RecommendationExclusive | backend/app/utils/text_utils.py:53 | no two alternatives of one group of the recommendation pattern can match at the same place, so the pattern never backtracks |
| TextUtils.FirstAlternativeSound | backend/app/utils/text_utils.py:53 | the alternative found is present, ignoring case, and no earlier one is; none found means none is present |
| TextUtils.WordStepComplete | backend/app/utils/text_utils.py:53 | an alternative present at a place and followed by a space is the one the scanner takes there |
| TextUtils.WordsSound | backend/app/utils/text_utils.py:53 | a match of the word groups is a choice of one alternative per group, each followed by a space |
| TextUtils.WordsComplete | backend/app/utils/text_utils.py:53 | every such choice is found |
| TextUtils.TerminatorSound | backend/app/utils/text_utils.py:53 | the lazy object ends at the first full stop or line break; none found means there is none ahead |
| TextUtils.TerminatorComplete | backend/app/utils/text_utils.py:53 | the first full stop or line break ahead is found |
| TextUtils.RecommendAt | backend/app/utils/text_utils.py:53 | a match at a place starts there, and its object lies inside the text |
| TextUtils.RecommendAtSound | backend/app/utils/text_utils.py:53 | whatever is found at a place matches the pattern |
| TextUtils.RecommendAtComplete | backend/app/utils/text_utils.py:53 | every match of the pattern is found at its start |
| TextUtils.RecommendMatches | backend/app/utils/text_utils.py:54 | the matches are left to right and do not overlap |
| TextUtils.RecommendMatchesSound | backend/app/utils/text_utils.py:54 | every match reported matches the pattern |
| TextUtils.RecommendMatchesLeftmost | backend/app/utils/text_utils.py:54 | no match of the pattern starts before the first one reported |
| TextUtils.RecommendCandidatesClassified | backend/app/utils/text_utils.py:56-77 | every action from a recommendation is named by an object that classifies as that action, and is described as "AI suggested: " with the matched sentence |
| TextUtils.SkipSpaceSound | backend/app/utils/text_utils.py:80 | `\s*` takes every whitespace character up to the first other one |
| TextUtils.LineEndSound | backend/app/utils/text_utils.py:80 | the lazy `.*?` ends at the first line break, or at the end of the text |
| TextUtils.ActionLines | backend/app/utils/text_utils.py:80-81 | every match starts at an occurrence of "Action:" and is that occurrence's action line; the matches are left to right and do not overlap |
| TextUtils.ActionLinesSound | backend/app/utils/text_utils.py:80-81 | every line reported matches the "Action:" pattern |
| TextUtils.ActionLineAtSound | backend/app/utils/text_utils.py:80 | the line read at an occurrence of "Action:" matches the pattern |
| TextUtils.ActionLinesLeftmost | backend/app/utils/text_utils.py:81 | no "Action:" occurs before the first line reported |
| TextUtils.LineCandidatesClassified | backend/app/utils/text_utils.py:83-103 | every action from an action line is named by the stripped line text, which classifies as that action, and is described as "AI suggested: " with that text |
| TextUtils.DedupActions | backend/app/utils/text_utils.py:105-114 | the loop with the set of seen ids keeps exactly the first action of each id, in order |
| TextUtils.ExtractActionsFromResponse | backend/app/utils/text_utils.py:36-114 | the recommendation actions, then the action-line actions, with each id kept once at its first occurrence; so at most four actions, all of different ids, each one found in the response |
| TextUtils.HitsSound | backend/app/utils/text_utils.py:134 | every reported position is a match in the scanned range |
| TextUtils.HitsOrdered | backend/app/utils/text_utils.py:134 | reported positions increase and do not overlap |
| TextUtils.HitsFirst | backend/app/utils/text_utils.py:134 | there is no match before the first reported one |
| TextUtils.HitsGap | backend/app/utils/text_utils.py:134 | there is no match between the end of one reported match and the next |
| TextUtils.HitsAfterLast | backend/app/utils/text_utils.py:134 | there is no match after the end of the last reported one |
| TextUtils.KeywordPositions | backend/app/utils/text_utils.py:133-134 | every position is a case-insensitive match of the keyword; positions do not overlap; none is skipped before the first |
| TextUtils.KeywordPositionsComplete | backend/app/utils/text_utils.py:133-134 | no match is skipped anywhere: every match not reported overlaps a reported one |
| TextUtils.Excerpt | backend/app/utils/text_utils.py:135-143 | the text from `context_size` before the match to `context_size` after it, clipped to the text, with "..." on each side that was clipped |
| TextUtils.ExcerptHoldsMatch | backend/app/utils/text_utils.py:135-143 | every excerpt contains the matched text |
| TextUtils.KeywordExcerpts | backend/app/utils/text_utils.py:134-145 | one excerpt per match, in order |
| TextUtils.AllExcerptsCover | backend/app/utils/text_utils.py:132-145 | an excerpt is produced for every match of every keyword |
| TextUtils.ExtractKeyInfo | backend/app/utils/text_utils.py:116-151 | no result for an empty text or no keywords; otherwise exactly the distinct excerpts of all matches, each once, ordered by where they first occur in the text |
| TextUtils.KeyInfoFound | backend/app/utils/text_utils.py:128-145 | a non-empty text in which some keyword occurs always gives at least one excerpt |
| Strings.Lower | backend/app/utils/text_utils.py:62 | `str.lower()` keeps the length and lowers each ASCII capital, leaving every other character |
| Strings.FindIndex | backend/app/utils/text_utils.py:149 | `str.find`: -1 exactly when the substring occurs nowhere, and otherwise the lowest index where it occurs |
| Strings.Count | backend/app/services/rag_service.py:167 | `str.count` is positive exactly when the substring occurs, is one more than the length for the empty substring, and otherwise fits that many copies in the text |
| Strings.CountFits | backend/app/services/rag_service.py:167 | for a non-empty substring, the count times its length is at most the text's length |
| Strings.Occurrences | backend/app/services/rag_service.py:167 | the count is the number of positions found left to right, each an occurrence, none overlapping the one before, with no occurrence skipped that would not overlap a counted one |
| Strings.LStrip | backend/app/utils/text_utils.py:58 | a suffix that starts with a non-space, with only whitespace dropped |
| Strings.RStrip | backend/app/utils/text_utils.py:58 | a prefix that ends with a non-space, with only whitespace dropped |
| Strings.Split | backend/app/core/openai_client.py:143 | `str.split(sep)` gives at least one piece, no piece holds the separator, the pieces join back into the text, and each separator is the first one after its piece |
| Strings.SplitUnique | backend/app/core/openai_client.py:143 | any pieces with those properties are the split, so they fix it even for a separator that overlaps itself |
| Strings.SplitCountsSeparators | backend/app/core/openai_client.py:143 | there is one more piece than there are separators |
| Strings.SplitJoin | backend/app/services/document_service.py:115-116 | splitting a join on a two-character separator gives back the parts, when no part contains its second character or ends in its first |
| Strings.SplitWhitespace | backend/app/services/rag_service.py:151 | `str.split()` gives non-empty words without whitespace |
| Strings.SplitWhitespaceInterleave | backend/app/services/rag_service.py:151 | a text built from words separated by non-empty whitespace, with any whitespace around them, splits back into exactly those words |
| Strings.WhitespaceGaps | backend/app/services/rag_service.py:151 | every text is its `split()` words between whitespace gaps, the inner gaps non-empty, so the previous row covers every text |
| Strings.SplitWhitespaceLStrip | backend/app/services/rag_service.py:151 | leading whitespace does not change the words |
| Seqs.PyPrefix | backend/app/utils/text_utils.py:32 | `xs[:n]` is a prefix of `xs`: `n` elements (at most all) for non-negative `n`, and `-n` fewer than all for negative `n` |
| Seqs.KeepFirst | backend/app/utils/text_utils.py:105-114 | a loop with a `seen` set keeps elements of distinct keys, all from the input, covering every key of the input |
| Seqs.KeepFirstPicksFirst | backend/app/utils/text_utils.py:105-114 | each element kept is the first of the input with its key, and they come in the order of those first positions |
| Seqs.SortBy | backend/app/services/rag_service.py:184 | the sort gives a permutation of the input, ordered by key |
| Seqs.SortByStable | backend/app/services/rag_service.py:184 | the sort is stable: the elements sharing a key keep their order |
| Strings.Strip | backend/app/utils/text_utils.py:58 | `str.strip()` is the part of the text after its leading whitespace and before its trailing whitespace: an infix, with only whitespace outside it, that neither starts nor ends with whitespace |
| Strings.SplitJoinUnique | backend/app/core/openai_client.py:143 | splitting a join gives back the parts, when no part holds the separator and the separator's last character occurs nowhere else in it |
| Strings.SplitOnce | backend/app/core/openai_client.py:150 | `t.split(c, 1)` splits exactly when `c` occurs, into the text before its first occurrence and the text after it, which glue back to `t` |
| Strings.SplitOnceGlue | backend/app/core/openai_client.py:150 | a `c`-free part, `c` and any rest split back into the part and the rest |
| Strings.NatToString | backend/app/core/mock/mock_drive.py:221 | `str(n)` is a non-empty string of decimal digits |
| Strings.ParseNatToString | backend/app/core/mock/mock_drive.py:221 | reading the digits of `str(n)` back gives `n` |
| Strings.PrefixedNatInjective | backend/app/core/mock/mock_drive.py:221 | `folder-<a>` and `folder-<b>` (any prefix) are equal only when `a` and `b` are |
| PyDict.ValuesAreEntries | backend/app/core/mock/mock_database.py:111 | `values()` holds exactly the stored values |

## Left out

- Strings.Lower: lowers only the ASCII capitals. Python's `str.lower()` and `re.IGNORECASE` also fold non-ASCII letters, so the model differs on non-ASCII text. For example, `extract_key_info` finds the keyword "José" in "JOSÉ", and the model does not. Likewise "RIS\u212A REVIEW", written with the Kelvin sign, lowers to "risk review" in Python but not in the model.
- Strings.LowerChar: ASCII-only, for the same reason as `Strings.Lower`.
- TextUtils.MatchesAt: compares case-insensitively on ASCII letters only. Python's `re.IGNORECASE` also folds non-ASCII letters.
- TextUtils.LowerAt: ignores case on ASCII letters only, as `TextUtils.MatchesAt` does.
- TextUtils.Classify: works on the ASCII-lowered phrase, so it inherits the difference described under `Strings.Lower`.
- TextUtils.ExtractKeyInfo: Python's `list(set(chunks))` leaves excerpts in hash order, and the stable sort at text_utils.py:149 keeps that order among excerpts whose `text.find` positions are equal. The model keeps the first-produced excerpt first. Its contract claims only what holds for every hash order: distinct excerpts, the exact set of excerpts, and ordering by position.
- TextUtils.ExtractActionsFromResponse: a suggested action has no `params` field. The source always sets `params` to the empty dict `{}`.
- TextUtils.ExtractActionsFromResponse: the two regular expressions are written out as scanners. The contracts tie the scanners to declarative match predicates, not to a general regex engine.
- OpenAIClient.BuildSystemPrompt: the task context is a sequence of already-rendered `(key, value)` strings. The `str(value)` call at openai_client.py:92 is not modelled, so the rendering of values is left out. The sequence order stands for the dict's iteration order.
- OpenAIClient: `generate_chat_response` and `_call_openai_api` are left out. They are the network call to the language model. The parser takes the reply text as its input.
- PromptBuilder.Keywords: the contract fixes the number of keywords and the first two. The five fixed terms after them are visible only in the body.
- PromptBuilder.BuildPrompt: only pairs the two prompts, so it has no contract of its own. `SystemPrompt` and `UserPromptFor` carry the properties.
- PromptBuilder.SystemPrompt: shows the task status by its value, such as "Not Started". Python 3.10 and earlier format a `str`-mixed enum member this way in an f-string. From 3.11 on, `Enum.__format__` replaces the inherited `str.__format__`, so the f-string shows the member's name instead, such as `TaskStatus.NOT_STARTED`. The model does not track the Python version.
- DocumentParser.ExtractDocumentText: the only failure modelled is `get_drive_client()` raising. The per-type extractors (document_parser.py:246-308) only log and return placeholder text, so they cannot fail here. Logging is left out.
- DocumentParser.GetDocumentPreview: the `except` branch at document_parser.py:334-336 is left out. `extract_document_text` catches every exception itself, so that branch cannot be reached. The `doc_id` argument is only logged, so it is not a parameter of the model.
- RagService.SearchDocuments: chunking is the parameter `chunksOf`. `get_document_chunks`, imported at rag_service.py:12, is not defined in the parser module. The unused `extract_document_text(doc.doc_id)` call at rag_service.py:156 is left out. The `try` at rag_service.py:154 has no `except`, so the module does not compile as written. The model states the evident scoring and ranking.
- RagService.GetTaskContext: the retrieval service module cannot be imported as written, because of the undefined import at rag_service.py:12 and the `try` without `except` at rag_service.py:154. The model gives each function the behaviour of its body.
- RagService: `get_project_context` (rag_service.py:79-128) is not modelled. It calls `get_documents_by_project` and `get_tasks_by_project`, which are not part of this model.
- DocumentService: `create_document` and `get_documents_by_project` are not modelled. They are not among the operations this model covers, and `get_documents_by_project`'s query is ignored by the mock store in the same way `MockDatabase.QueryIgnoresArguments` shows.
- TaskService: `get_tasks_by_project`, `get_tasks_by_user` and `get_tasks_by_project_and_user` are not modelled. The mock store answers each of them with every stored task, as `MockDatabase.QueryIgnoresArguments` shows.
- MockDatabase.Create: the store keeps the record itself, not its `model_dump()` dict. The model does not separate an explicit `None` from a missing field, and it does not model the `users` container.
- TaskService.UpdateTask: a `TaskUpdate` field is either unset or a value, so an explicit JSON `null` on `assigned_to`, `client`, `tax_form`, `documents` or `status` cannot be expressed. In the source, `model_dump(exclude_unset=True)` keeps such a null and `model_copy(update=...)` writes it without validation (task_service.py:77-78), so the stored task would hold `None` in a field the `Task` record requires. The model's stored records have no such state, and the contract covers only updates whose set fields carry values.
- ProjectService.UpdateProject: likewise, an explicit `null` on `name`, `clients`, `services`, `documents` or `tasks` cannot be expressed. The source writes it into the project through `model_copy` (project_service.py:67-68), which the model's `Project` record cannot hold.
- DocumentService.UpdateDocument: likewise, an explicit `null` on `file_name` or `last_modified` cannot be expressed. The source writes it into the document through `model_copy` (document_service.py:81-82), which the model's `Document` record cannot hold. The optional fields `description` and `web_view_link` do model an explicit `null`.
- MockDrive.ListFiles: the contract states which files are listed, not their order.
- MockDrive.ListFolders: the contract states which folders are listed, not their order.
- MockDrive.CreateFolder: `created_time` and `modified_time` are the parameter `now`. The second `datetime.now()` call may differ from the first by a few microseconds, and the model does not reflect that.
- ActionService.ExecuteAction: the HTTP request is the parameter `call`. The function's reply is modelled by its status code and parsed JSON body. Logging and the `httpx.AsyncClient` session are left out.
- FunctionUtils.LoggedParams: states which parameters are logged. The log line itself is left out.
- Async/await, logging, and the FastAPI, Cosmos DB, Drive and OpenAI clients are left out. They are I/O or framework code around the modelled logic.

## Findings

| source | as written | input that shows it | evidently intended | confidence | as-written member | corrected member |
|---|---|---|---|---|---|---|
| backend/app/services/rag_service.py:61 | `get_task_context` builds its result with `task.title`, but a `Task` has no `title` field (backend/app/models/task.py:20-30), so assembling the context raises `AttributeError` | any task id whose task and project are both stored | the context without a title: the task's remaining fields, its project and its snippets | not executed | RagService.GetTaskContextAsWritten | RagService.GetTaskContext |
| backend/app/services/rag_service.py:207 | `_get_document_snippets` calls `extract_document_text(doc.doc_id)` without the required `filename` argument. The resulting `TypeError` is caught, so every snippet is the error text | any non-empty document list | `extract_document_text(doc.doc_id, doc.file_name)`, which gives each document's text | not executed | RagService.AsWrittenSnippetsAreErrors | RagService.FileNameSnippetsAreTexts |
| backend/app/utils/prompt_builder.py:69 | `build_prompt` reads `doc.filename`, but documents carry `file_name` (backend/app/models/document.py:13), so any document makes it raise `AttributeError` | a chat about a task with at least one document | use `doc.file_name` for extraction and for the `[Document i: ...]` header | not executed | PromptBuilder.UserPromptAsWritten | PromptBuilder.UserPromptFor |

=== FILE: action_service.dfy ===
/** The actions an assistant reply can trigger: the fixed table of four
    actions, validation of an action request, the request sent to the
    action's cloud function, and how its reply becomes the result.

    The HTTP call is the parameter `call`: it maps the request to the reply
    (or the exception) the function endpoint produces. */
module ActionService {
  import opened Wrappers
  import opened Strings
  import opened Models

  datatype ActionDef = ActionDef(
    actionId: string,
    actionName: string,
    description: string,
    functionPath: string,
    requiredParams: seq<string>)

  /** The action table, in its declared order. */
  const Actions: seq<ActionDef> := [
    ActionDef("generate_missing_info", "Generate Missing Information Letter",
              "Create a letter to request missing information from the client",
              "generateMissingInfoLetter", ["client_name"]),
    ActionDef("trigger_risk_review", "Trigger Risk Review",
              "Send task for risk assessment review",
              "triggerRiskReviewAPI", []),
    ActionDef("generate_client_summary", "Generate Client Summary",
              "Create a summary report for the client",
              "generateClientSummary", ["project_id"]),
    ActionDef("send_to_tax_review", "Send to Tax Review",
              "Submit documents for tax review",
              "sendDocumentToTaxReview", ["document_ids"])
  ]

  /** The table entry for an action id. */
  function FindAction(actionId: string): (r: Option<ActionDef>)
    ensures r.None? <==> forall i :: 0 <= i < |Actions| ==> Actions[i].actionId != actionId
    ensures r.Some? ==> r.value in Actions && r.value.actionId == actionId
  {
    if actionId == "generate_missing_info" then Some(Actions[0])
    else if actionId == "trigger_risk_review" then Some(Actions[1])
    else if actionId == "generate_client_summary" then Some(Actions[2])
    else if actionId == "send_to_tax_review" then Some(Actions[3])
    else None
  }

  /** `get_available_actions`: the whole table, whatever the task. */
  function AvailableActions(task: Task): (r: seq<ActionDef>)
    ensures |r| == 4
    ensures forall i :: 0 <= i < |r| ==> FindAction(r[i].actionId) == Some(r[i])
    ensures forall i, j :: 0 <= i < j < |r| ==> r[i].actionId != r[j].actionId
  {
    Actions
  }

  // ---------------------------------------------------------------------------
  // Validation
  // ---------------------------------------------------------------------------

  /** The position of the first of `names` that is not a key of `params`,
      or `|names|` when all are. */
  function FirstMissing<P>(names: seq<string>, params: map<string, P>): (i: nat)
    ensures i <= |names|
    ensures forall j :: 0 <= j < i ==> names[j] in params
    ensures i < |names| ==> names[i] !in params
    decreases |names|
  {
    if |names| == 0 then 0
    else if names[0] !in params then 0
    else 1 + FirstMissing(names[1..], params)
  }

  /** The action to run, or the failure message: an unknown id first, then
      the first required parameter, in declared order, that `params`
      lacks; an absent `params` counts as an empty mapping. */
  function Validate<P>(actionId: string, params: Option<map<string, P>>): (r: Result<ActionDef, string>)
    ensures FindAction(actionId).None? ==> r == Failure("Action " + actionId + " not found")
    ensures r.Success? ==> FindAction(actionId) == Some(r.value)
    ensures r.Success? <==>
      && FindAction(actionId).Some?
      && forall p :: p in FindAction(actionId).value.requiredParams ==> p in params.GetOr(map[])
    ensures FindAction(actionId).Some? && r.Failure? ==>
      var required := FindAction(actionId).value.requiredParams;
      exists i :: 0 <= i < |required| && r.error == "Missing required parameter: " + required[i] &&
        required[i] !in params.GetOr(map[]) &&
        forall j :: 0 <= j < i ==> required[j] in params.GetOr(map[])
  {
    match FindAction(actionId)
    case None => Failure("Action " + actionId + " not found")
    case Some(action) =>
      var given := if params.None? then map[] else params.value;
      var i := FirstMissing(action.requiredParams, given);
      if i < |action.requiredParams| then
        assert action.requiredParams[i] in action.requiredParams;
        Failure("Missing required parameter: " + action.requiredParams[i])
      else Success(action)
  }

  /** `trigger_risk_review` needs no parameters, so it always validates. */
  lemma RiskReviewAlwaysValid<P>(params: Option<map<string, P>>)
    ensures Validate("trigger_risk_review", params) == Success(Actions[1])
  {
  }

  // ---------------------------------------------------------------------------
  // The request and its outcome
  // ---------------------------------------------------------------------------

  /** The JSON body sent to the function; `documentIds` is left out when
      there are no documents. */
  datatype Payload<P> = Payload(
    taskId: string,
    client: string,
    taxForm: string,
    params: map<string, P>,
    documentIds: Option<seq<string>>)

  datatype Request<P> = Request(url: string, functionKey: string, payload: Payload<P>)

  /** What the HTTP call produced: an exception's message, or a status code
      with the parsed body (or the message of the parse exception). */
  datatype Reply<J> = Raised(error: string) | Responded(status: nat, body: Result<J, string>)

  datatype ActionResult<J> = ActionResult(success: bool, message: string, result: Option<J>)

  /** The payload for a task, its documents and the (defaulted) parameters. */
  function MakePayload<P>(task: Task, documents: seq<Document>, params: map<string, P>): (r: Payload<P>)
    ensures r.taskId == task.taskId && r.client == task.client && r.taxForm == task.taxForm
    ensures r.params == params
    ensures r.documentIds.None? <==> documents == []
    ensures r.documentIds.Some? ==> |r.documentIds.value| == |documents|
    ensures r.documentIds.Some? ==> forall i :: 0 <= i < |documents| ==> r.documentIds.value[i] == documents[i].docId
  {
    Payload(task.taskId, task.client, task.taxForm, params,
            if documents == [] then None
            else Some(seq(|documents|, i requires 0 <= i < |documents| => documents[i].docId)))
  }

  /** The request for a validated action. */
  function MakeRequest<P>(baseUrl: string, functionKey: string, action: ActionDef, task: Task,
                          documents: seq<Document>, params: Option<map<string, P>>): Request<P>
  {
    Request(baseUrl + "/" + action.functionPath, functionKey,
            MakePayload(task, documents, if params.None? then map[] else params.value))
  }

  /** `execute_action`. */
  function ExecuteAction<P, J>(baseUrl: string, functionKey: string, actionId: string,
                               params: Option<map<string, P>>, task: Task, documents: seq<Document>,
                               call: Request<P> -> Reply<J>): (r: ActionResult<J>)
    ensures Validate(actionId, params).Failure? ==>
      r == ActionResult(false, Validate(actionId, params).error, None)
    ensures !r.success ==> r.result.None?
    ensures r.success <==>
      && Validate(actionId, params).Success?
      && var reply := call(MakeRequest(baseUrl, functionKey, Validate(actionId, params).value, task, documents, params));
         reply.Responded? && reply.status == 200 && reply.body.Success?
    ensures r.success ==>
      && r.message == "Action " + FindAction(actionId).value.actionName + " executed successfully"
      && r.result == Some(call(MakeRequest(baseUrl, functionKey, FindAction(actionId).value, task, documents, params)).body.value)
  {
    match Validate(actionId, params)
    case Failure(message) => ActionResult(false, message, None)
    case Success(action) =>
      match call(MakeRequest(baseUrl, functionKey, action, task, documents, params))
      case Raised(e) => ActionResult(false, "Error executing action: " + e, None)
      case Responded(status, body) =>
        if status != 200 then ActionResult(false, "Error from Azure Function: " + NatToString(status), None)
        else
          match body
          case Failure(e) => ActionResult(false, "Error executing action: " + e, None)
          case Success(json) => ActionResult(true, "Action " + action.actionName + " executed successfully", Some(json))
  }

  /** A request that fails validation never reaches the function: the
      outcome is the same whatever the call would have done. */
  lemma ValidationBeforeCall<P, J>(baseUrl: string, functionKey: string, actionId: string,
                                   params: Option<map<string, P>>, task: Task, documents: seq<Document>,
                                   call1: Request<P> -> Reply<J>, call2: Request<P> -> Reply<J>)
    requires Validate(actionId, params).Failure?
    ensures ExecuteAction(baseUrl, functionKey, actionId, params, task, documents, call1) ==
            ExecuteAction(baseUrl, functionKey, actionId, params, task, documents, call2)
  {
  }

  /** An absent `params` behaves exactly like an empty one. */
  lemma AbsentParamsAreEmpty<P, J>(baseUrl: string, functionKey: string, actionId: string,
                                   task: Task, documents: seq<Document>, call: Request<P> -> Reply<J>)
    ensures ExecuteAction(baseUrl, functionKey, actionId, None, task, documents, call) ==
            ExecuteAction(baseUrl, functionKey, actionId, Some(map[]), task, documents, call)
  {
  }
}

=== FILE: document_parser.dfy ===
/** Text extraction for documents: the table of sample texts consulted
    first, the placeholder each file extension leads to, the message an
    exception becomes, and the truncated preview.

    The sample texts are the parameter `samples` (a name-to-text map); the
    Drive client's construction is the parameter `driveClient`: its
    failure carries the message of the exception it raised. */
module DocumentParser {
  import opened Wrappers
  import opened Strings
  import opened Seqs

  // ---------------------------------------------------------------------------
  // os.path.splitext
  // ---------------------------------------------------------------------------

  /** `s.rfind(c)`: the last index of `c`, or -1. */
  function RFind(s: string, c: char): (i: int)
    ensures -1 <= i < |s|
    ensures 0 <= i ==> s[i] == c
    ensures forall k :: i < k < |s| ==> s[k] != c
    decreases |s|
  {
    if |s| == 0 then -1
    else if s[|s| - 1] == c then |s| - 1
    else RFind(s[..|s| - 1], c)
  }

  /** POSIX `os.path.splitext`: the extension starts at the last dot of the
      last path component, unless everything before that dot in the
      component is dots (as in `.bashrc`). */
  function Splitext(p: string): (r: (string, string))
    ensures r.0 + r.1 == p
    ensures r.1 != [] ==> r.1[0] == '.'
    ensures forall k :: 0 < k < |r.1| ==> r.1[k] != '.' && r.1[k] != '/'
  {
    var sep := RFind(p, '/');
    var dot := RFind(p, '.');
    if dot > sep && exists k :: sep + 1 <= k < dot && p[k] != '.' then
      (p[..dot], p[dot..])
    else (p, "")
  }

  /** A name ending in a dot followed by neither dots nor slashes, after a
      character that is neither, splits right before that dot. */
  lemma SplitextOfSuffix(stem: string, ext: string)
    requires |stem| > 0 && stem[|stem| - 1] != '.' && stem[|stem| - 1] != '/'
    requires |ext| > 0 && ext[0] == '.'
    requires forall k :: 0 < k < |ext| ==> ext[k] != '.' && ext[k] != '/'
    ensures Splitext(stem + ext) == (stem, ext)
  {
    var p := stem + ext;
    var dot := RFind(p, '.');
    var sep := RFind(p, '/');
    assert p[|stem|] == '.';
    assert forall k :: |stem| < k < |p| ==> p[k] == ext[k - |stem|];
    assert p[|stem| - 1] == stem[|stem| - 1];
    assert dot == |stem|;
    assert sep < |stem| - 1;
    assert p[..dot] == stem && p[dot..] == ext;
  }

  /** A name with no dot has no extension. */
  lemma SplitextNoDot(p: string)
    requires forall k :: 0 <= k < |p| ==> p[k] != '.'
    ensures Splitext(p) == (p, "")
  {
  }

  /** A name of a leading run of dots and no other dot, such as `.env`,
      has no extension. */
  lemma SplitextHiddenName(dots: nat, rest: string)
    requires forall k :: 0 <= k < |rest| ==> rest[k] != '.' && rest[k] != '/'
    ensures Splitext(seq(dots, _ => '.') + rest) == (seq(dots, _ => '.') + rest, "")
  {
    var p := seq(dots, _ => '.') + rest;
    assert forall k :: 0 <= k < dots ==> p[k] == '.';
    assert forall k :: dots <= k < |p| ==> p[k] == rest[k - dots];
    assert RFind(p, '.') < dots;
    assert RFind(p, '/') == -1;
  }

  // ---------------------------------------------------------------------------
  // extract_document_text
  // ---------------------------------------------------------------------------

  const PdfText: string := "[PDF content would be extracted here in a production environment]"
  const DocxText: string := "[DOCX content would be extracted here in a production environment]"
  const XlsxText: string := "[XLSX content would be extracted here in a production environment]"
  const PlainText: string := "[Text file content would be extracted here in a production environment]"

  /** The extensions read as plain text. */
  const TextExtensions: seq<string> := [".txt", ".csv", ".json"]

  /** The extensions with a parser of their own or the plain-text reader. */
  predicate Supported(ext: string) {
    ext == ".pdf" || ext == ".docx" || ext == ".xlsx" || ext in TextExtensions
  }

  function Unsupported(ext: string): string {
    "[Content extraction not supported for " + ext + " files]"
  }

  function ExtractionError(message: string): string {
    "[Error extracting content: " + message + "]"
  }

  /** `extract_document_text`: the sample text when the table has the name;
      otherwise the error text when the Drive client cannot be made, and
      else the text chosen by the lower-cased name's extension. */
  function ExtractDocumentText(samples: map<string, string>, driveClient: Result<(), string>,
                               filename: string): (r: string)
    ensures filename in samples ==> r == samples[filename]
    ensures filename !in samples && driveClient.Failure? ==> r == ExtractionError(driveClient.error)
    ensures filename !in samples && driveClient.Success? ==>
      var ext := Splitext(Lower(filename)).1;
      && (ext == ".pdf" ==> r == PdfText)
      && (ext == ".docx" ==> r == DocxText)
      && (ext == ".xlsx" ==> r == XlsxText)
      && (ext in TextExtensions ==> r == PlainText)
      && (!Supported(ext) ==> r == Unsupported(ext))
  {
    if filename in samples then samples[filename]
    else
      match driveClient
      case Failure(e) => ExtractionError(e)
      case Success(_) =>
        var (_, ext) := Splitext(Lower(filename));
        if ext == ".pdf" then PdfText
        else if ext == ".docx" then DocxText
        else if ext == ".xlsx" then XlsxText
        else if ext in TextExtensions then PlainText
        else Unsupported(ext)
  }

  /** Outside the sample table, names that differ only in letter case are
      extracted alike. */
  lemma ExtractionIgnoresCase(samples: map<string, string>, driveClient: Result<(), string>,
                              a: string, b: string)
    requires a !in samples && b !in samples
    requires Lower(a) == Lower(b)
    ensures ExtractDocumentText(samples, driveClient, a) == ExtractDocumentText(samples, driveClient, b)
  {
  }

  /** An upper-case `.PDF` name outside the table gets the PDF text. */
  lemma UpperCasePdf(samples: map<string, string>, stem: string)
    requires stem + ".PDF" !in samples
    requires |stem| > 0 && stem[|stem| - 1] != '.' && stem[|stem| - 1] != '/'
    requires forall k :: 0 <= k < |stem| ==> 'a' <= stem[k] <= 'z'
    ensures ExtractDocumentText(samples, Success(()), stem + ".PDF") == PdfText
  {
    assert Lower(stem + ".PDF") == stem + ".pdf";
    SplitextOfSuffix(stem, ".pdf");
  }

  /** A name with no extension is reported as unsupported with an empty
      extension. */
  lemma NoExtensionUnsupported(samples: map<string, string>, filename: string)
    requires filename !in samples
    requires forall k :: 0 <= k < |filename| ==> filename[k] != '.'
    ensures ExtractDocumentText(samples, Success(()), filename) == Unsupported("")
  {
    SplitextNoDot(Lower(filename));
  }

  // ---------------------------------------------------------------------------
  // get_document_preview
  // ---------------------------------------------------------------------------

  /** The preview of a text: the text itself when it fits in `maxLength`
      characters, otherwise its `full[:maxLength]` followed by `...`. */
  function Preview(full: string, maxLength: int): (r: string)
    ensures |full| <= maxLength ==> r == full
    ensures |full| > maxLength ==>
      && EndsWith(r, "...")
      && |r| - 3 == (if 0 <= maxLength then maxLength else Max(0, |full| + maxLength))
      && r[..|r| - 3] == full[..|r| - 3]
  {
    if |full| > maxLength then PyPrefix(full, maxLength) + "..." else full
  }

  /** A preview is never more than three characters over a non-negative
      limit, and it is over the limit exactly when the text is. (A cut
      preview can still equal the text: `"abc..."` with limit 3.) */
  lemma PreviewBounded(full: string, maxLength: nat)
    ensures |Preview(full, maxLength)| <= maxLength + 3
    ensures |Preview(full, maxLength)| > maxLength <==> |full| > maxLength
  {
    if |full| > maxLength {
      assert |Preview(full, maxLength)| == maxLength + 3;
    }
  }

  /** `get_document_preview`. */
  function GetDocumentPreview(samples: map<string, string>, driveClient: Result<(), string>,
                              filename: string, maxLength: int): (r: string)
    ensures var full := ExtractDocumentText(samples, driveClient, filename);
      && (|full| <= maxLength ==> r == full)
      && (0 <= maxLength < |full| ==> |r| == maxLength + 3 && r[..maxLength] == full[..maxLength])
    ensures filename in samples && |samples[filename]| <= maxLength ==> r == samples[filename]
  {
    Preview(ExtractDocumentText(samples, driveClient, filename), maxLength)
  }
}

=== FILE: document_service.dfy ===
/** Document metadata records: partial update, lookup of a list of ids
    through one OR-query, the documents of a task, and linking a document
    to a task. */
module DocumentService {
  import opened Wrappers
  import opened Strings
  import opened Models
  import opened MockDatabase
  import TaskService

  /** `update_document`. */
  function UpdateDocument(db: Store, docId: string, u: DocumentUpdate): (r: (Store, Option<Document>))
    requires db.Valid()
    ensures r.0.Valid()
    ensures r.1.None? <==> docId !in db.documents.entries
    ensures r.1.None? ==> r.0 == db
    ensures r.1.Some? ==> r.1.value == db.documents.entries[docId].With(u)
    ensures r.1.Some? ==> GetById(r.0.documents, docId) == r.1
    ensures forall k :: k != docId ==> GetById(r.0.documents, k) == GetById(db.documents, k)
    ensures r.0.projects == db.projects && r.0.tasks == db.tasks
  {
    match GetById(db.documents, docId)
    case None => (db, None)
    case Some(current) =>
      var updated := current.With(u);
      (db.(documents := Update(db.documents, docId, updated).value), Some(updated))
  }

  // ---------------------------------------------------------------------------
  // The OR-query of `get_documents_by_ids`
  // ---------------------------------------------------------------------------

  /** One named query parameter. */
  datatype Param = Param(name: string, value: string)

  datatype DocQuery = DocQuery(text: string, parameters: seq<Param>)

  const QueryPrefix: string := "SELECT * FROM c WHERE "
  const Or: string := " OR "

  /** The name of the `i`-th parameter. */
  function ParamName(i: nat): string {
    "@id" + NatToString(i)
  }

  /** The condition matching the `i`-th id. */
  function Condition(i: nat): string {
    "c.doc_id = " + ParamName(i)
  }

  /** One condition per id, in id order. */
  function Conditions(n: nat): (r: seq<string>)
    ensures |r| == n
    ensures forall i :: 0 <= i < n ==> r[i] == Condition(i)
  {
    seq(n, i requires 0 <= i => Condition(i))
  }

  /** The query `get_documents_by_ids` issues, or `None` when the id list
      is empty and no query is issued. */
  function DocumentsQuery(docIds: seq<string>): (r: Option<DocQuery>)
    ensures r.None? <==> docIds == []
    ensures r.Some? ==> r.value.text == QueryPrefix + Join(Conditions(|docIds|), Or)
    ensures r.Some? ==> |r.value.parameters| == |docIds|
    ensures r.Some? ==> forall i :: 0 <= i < |docIds| ==> r.value.parameters[i] == Param(ParamName(i), docIds[i])
  {
    if docIds == [] then None
    else
      Some(DocQuery(QueryPrefix + Join(Conditions(|docIds|), Or),
                    seq(|docIds|, i requires 0 <= i < |docIds| => Param(ParamName(i), docIds[i]))))
  }

  /** No condition holds an upper-case `O` or ends in a space, so `" OR "`
      cannot be found inside one or straddle one and the separator after it. */
  lemma ConditionShape(i: nat)
    ensures forall j :: 0 <= j < |Condition(i)| ==> Condition(i)[j] != 'O'
    ensures Condition(i)[|Condition(i)| - 1] != ' '
  {
    var c := Condition(i);
    var digits := NatToString(i);
    assert c == "c.doc_id = @id" + digits;
    forall j | 0 <= j < |c|
      ensures c[j] != 'O'
    {
      if j >= 14 {
        assert c[j] == digits[j - 14];
      }
    }
    assert c[|c| - 1] == digits[|digits| - 1];
  }

  /** The conditions part of the query splits on `" OR "` into exactly one
      condition per id, in id order. */
  lemma QueryHasOneConditionPerId(docIds: seq<string>)
    requires docIds != []
    ensures var q := DocumentsQuery(docIds).value;
      && q.text[..|QueryPrefix|] == QueryPrefix
      && Split(q.text[|QueryPrefix|..], Or) == Conditions(|docIds|)
  {
    var cs := Conditions(|docIds|);
    forall p, j | p in cs && 0 <= j < |p|
      ensures p[j] != Or[1]
    {
      var i :| 0 <= i < |cs| && cs[i] == p;
      ConditionShape(i);
    }
    forall p | p in cs && |p| > 0
      ensures p[|p| - 1] != Or[0]
    {
      var i :| 0 <= i < |cs| && cs[i] == p;
      ConditionShape(i);
    }
    SplitJoin(cs, Or);
    var q := DocumentsQuery(docIds).value;
    assert q.text[|QueryPrefix|..] == Join(cs, Or);
  }

  /** Distinct positions get distinct parameter names, so every id is bound
      to a name of its own. */
  lemma ParamNamesDistinct(i: nat, j: nat)
    requires i != j
    ensures ParamName(i) != ParamName(j)
  {
    if ParamName(i) == ParamName(j) {
      PrefixedNatInjective("@id", i, j);
    }
  }

  /** `get_documents_by_ids`: nothing for an empty list; otherwise the
      result of the query, which the in-memory store answers with every
      stored document. */
  function GetDocumentsByIds(db: Store, docIds: seq<string>): (r: seq<Document>)
    requires db.Valid()
    ensures docIds == [] ==> r == []
    ensures docIds != [] ==> |r| == db.documents.Size()
    ensures docIds != [] ==> forall i :: 0 <= i < |r| ==> r[i] == db.documents.entries[db.documents.order[i]]
  {
    match DocumentsQuery(docIds)
    case None => []
    case Some(q) => Query(db.documents, q.text, q.parameters)
  }

  /** `get_documents_for_task`: nothing when no task is stored under the id;
      otherwise the lookup of exactly that task's document list. */
  function GetDocumentsForTask(db: Store, taskId: string): (r: seq<Document>)
    requires db.Valid()
    ensures taskId !in db.tasks.entries ==> r == []
    ensures taskId in db.tasks.entries ==> r == GetDocumentsByIds(db, db.tasks.entries[taskId].documents)
  {
    match GetById(db.tasks, taskId)
    case None => []
    case Some(task) => GetDocumentsByIds(db, task.documents)
  }

  /** `add_document_to_task` of the document service: `false` when no
      document is stored under the id, and otherwise whether the task
      service found the task. */
  function AddDocumentToTask(db: Store, docId: string, taskId: string): (r: (Store, bool))
    requires db.Valid()
    ensures r.0.Valid()
    ensures r.1 <==> docId in db.documents.entries && taskId in db.tasks.entries
    ensures docId !in db.documents.entries ==> r.0 == db
    ensures docId in db.documents.entries ==> r.0 == TaskService.AddDocumentToTask(db, taskId, docId).0
  {
    match GetById(db.documents, docId)
    case None => (db, false)
    case Some(_) =>
      var (db1, updated) := TaskService.AddDocumentToTask(db, taskId, docId);
      (db1, updated.Some?)
  }

  /** Linking a stored document to a stored task lists the document on the
      task, appended at the end when it was not listed yet. */
  lemma LinkedDocumentListedOnce(db: Store, docId: string, taskId: string)
    requires db.Valid()
    requires docId in db.documents.entries && taskId in db.tasks.entries
    ensures var db1 := AddDocumentToTask(db, docId, taskId).0;
      && taskId in db1.tasks.entries
      && docId in db1.tasks.entries[taskId].documents
      && (docId !in db.tasks.entries[taskId].documents ==>
            db1.tasks.entries[taskId].documents == db.tasks.entries[taskId].documents + [docId])
  {
    var db1 := AddDocumentToTask(db, docId, taskId).0;
    assert GetById(db1.tasks, taskId) == TaskService.AddDocumentToTask(db, taskId, docId).1;
  }
}

=== FILE: function_utils.dfy ===
/** Helpers shared by the cloud functions: the uniform response record,
    reading a configuration variable, and the parameter filter applied
    before parameters are logged.

    The clock and the process environment are parameters: `timestamp` is
    the ISO text of "now", `env` the environment's variables. */
module FunctionUtils {
  import opened Wrappers
  import opened Strings
  import opened PyDict

  /** The response body; `data` is present only when it was given and is
      not empty. */
  datatype Response<V> = Response(success: bool, message: string, timestamp: string, data: Option<Dict<V>>)

  /** Python truthiness of an optional dict: present and not empty. */
  predicate Truthy<V>(data: Option<Dict<V>>) {
    data.Some? && data.value.Size() > 0
  }

  /** `format_response`: the body and the unchanged status code. */
  function FormatResponse<V>(success: bool, message: string, data: Option<Dict<V>>, statusCode: int,
                             timestamp: string): (r: (Response<V>, int))
    ensures r.0.success == success && r.0.message == message && r.0.timestamp == timestamp
    ensures r.1 == statusCode
    ensures r.0.data.Some? <==> Truthy(data)
    ensures r.0.data.Some? ==> r.0.data == data
  {
    var response := Response(success, message, timestamp, None);
    (if Truthy(data) then response.(data := data) else response, statusCode)
  }

  /** An empty dict is dropped just like a missing one. */
  lemma EmptyDataDropped<V>(success: bool, message: string, statusCode: int, timestamp: string)
    ensures FormatResponse(success, message, Some(Empty<V>()), statusCode, timestamp) ==
            FormatResponse<V>(success, message, None, statusCode, timestamp)
  {
  }

  /** `get_env_variable`: the variable's value, else the default; a
      failure (the raised `EnvironmentError`'s message) only when the
      variable is required and neither is there. */
  function GetEnvVariable(env: map<string, string>, name: string, default: Option<string>,
                          required: bool): (r: Result<Option<string>, string>)
    ensures r.Failure? <==> required && name !in env && default.None?
    ensures r.Failure? ==> r.error == "Required environment variable " + name + " not found"
    ensures r.Success? && name in env ==> r.value == Some(env[name])
    ensures r.Success? && name !in env ==> r.value == default
  {
    var value := if name in env then Some(env[name]) else default;
    if required && value.None? then Failure("Required environment variable " + name + " not found")
    else Success(value)
  }

  /** Whether a variable is set decides the result whatever the default. */
  lemma SetVariableIgnoresDefault(env: map<string, string>, name: string, d1: Option<string>,
                                  d2: Option<string>, required: bool)
    requires name in env
    ensures GetEnvVariable(env, name, d1, required) == GetEnvVariable(env, name, d2, required) == Success(Some(env[name]))
  {
  }

  /** The key names whose parameters are never logged. */
  const SensitiveKeys: seq<string> := ["password", "key", "secret", "token"]

  /** A key is sensitive when its lower-case form is one of the names. */
  predicate Sensitive(k: string) {
    Lower(k) in SensitiveKeys
  }

  /** The `safe_params` comprehension: the parameters without the
      sensitive keys, in the order they had. */
  function SafeParams<V>(params: Dict<V>): (r: Dict<V>)
    requires params.Valid()
    ensures r.Valid()
    ensures forall k :: Sensitive(k) ==> r.Get(k) == None
    ensures forall k :: !Sensitive(k) ==> r.Get(k) == params.Get(k)
  {
    params.Restrict(k => !Sensitive(k))
  }

  /** `log_function_call`: the parameters that get logged, or `None` when
      the parameter line is skipped because `params` is missing or empty. */
  function LoggedParams<V>(params: Option<Dict<V>>): (r: Option<Dict<V>>)
    requires params.Some? ==> params.value.Valid()
    ensures r.Some? <==> Truthy(params)
    ensures r.Some? ==> r.value == SafeParams(params.value)
  {
    if Truthy(params) then Some(SafeParams(params.value)) else None
  }

  /** Only whole-key matches are sensitive: a key that holds one of the
      names with anything around it, such as `api_key` or `token_type`,
      is logged. */
  lemma SensitiveIsWholeKey(pre: string, k: string, post: string)
    requires Sensitive(k) && |pre + post| > 0
    ensures !Sensitive(pre + k + post)
  {
    var l := Lower(pre + k + post);
    var w := Lower(k);
    assert l[|pre|..|pre| + |k|] == w;
    if l in SensitiveKeys {
      NameLacksLetter(w, l);
      assert false;
    }
  }

  /** Each name has a letter that every longer name lacks. */
  lemma NameLacksLetter(w: string, l: string)
    requires w in SensitiveKeys && l in SensitiveKeys && |w| < |l|
    ensures exists j :: 0 <= j < |w| && w[j] !in l
  {
    assert "key"[0] !in "password" && "key"[0] !in "secret" && "key"[2] !in "token";
    assert "token"[0] !in "password" && "token"[1] !in "secret";
    assert "secret"[2] !in "password";
  }
}

=== FILE: mock_database.dfy ===
/** The in-memory stand-in for the document database: a dict of named
    containers, each a dict from an item's key to the stored item, and a
    repository over one container with create / get / list / query /
    update / delete.

    The repository stores `model_dump()` and rebuilds the record on every
    read; the model stores the record itself, which is the same thing for
    records that survive that round trip. */
module MockDatabase {
  import opened Wrappers
  import opened PyDict
  import Models

  type Container<V> = Dict<V>

  /** Every container of the client is a well-formed dict. */
  ghost predicate ContainersValid<V>(cs: Dict<Container<V>>) {
    cs.Valid() && forall n :: n in cs.entries ==> cs.entries[n].Valid()
  }

  /** `MockDatabaseClient.get_container`: the client afterwards, and the
      named container, which is created empty only when it is absent. */
  function GetContainer<V>(cs: Dict<Container<V>>, name: string): (r: (Dict<Container<V>>, Container<V>))
    requires ContainersValid(cs)
    ensures ContainersValid(r.0)
    ensures r.0.Get(name) == Some(r.1)
    ensures name in cs.entries ==> r.1 == cs.entries[name] && r.0 == cs
    ensures name !in cs.entries ==> r.1.Size() == 0 && r.0.Size() == cs.Size() + 1
    ensures forall n :: n != name ==> r.0.Get(n) == cs.Get(n)
  {
    if name in cs.entries then (cs, cs.entries[name])
    else (cs.Put(name, Empty()), Empty())
  }

  /** Asking for a container a second time changes nothing and returns the
      same container. */
  lemma GetContainerTwice<V>(cs: Dict<Container<V>>, name: string)
    requires ContainersValid(cs)
    ensures GetContainer(GetContainer(cs, name).0, name) == GetContainer(cs, name)
  {
    var r := GetContainer(cs, name);
    assert r.0.Get(name) == Some(r.1);
  }

  // ---------------------------------------------------------------------------
  // Repository
  // ---------------------------------------------------------------------------

  /** The fields `create` looks for, in the order it tries them. */
  const IdFieldPriority: seq<string> := ["id", "user_id", "project_id", "task_id", "document_id"]

  /** The position of the first of `names` that is a field of the record,
      or `|names|` when none is. */
  function FirstPresent(names: seq<string>, fields: map<string, string>): (i: nat)
    ensures i <= |names|
    ensures forall j :: 0 <= j < i ==> names[j] !in fields
    ensures i < |names| ==> names[i] in fields
    decreases |names|
  {
    if |names| == 0 then 0
    else if names[0] in fields then 0
    else 1 + FirstPresent(names[1..], fields)
  }

  /** `IdFieldPriority[j]` is a field of the record and none before it is. */
  ghost predicate FirstKeyField(fields: map<string, string>, j: int) {
    && 0 <= j < |IdFieldPriority|
    && IdFieldPriority[j] in fields
    && forall j' :: 0 <= j' < j ==> IdFieldPriority[j'] !in fields
  }

  /** The key `create` stores a record under: the value of the first field
      of the priority list the record has. */
  function ItemId(fields: map<string, string>): (r: Option<string>)
    ensures r.None? <==> forall j :: 0 <= j < |IdFieldPriority| ==> IdFieldPriority[j] !in fields
    ensures r.Some? ==> exists j :: FirstKeyField(fields, j) && r.value == fields[IdFieldPriority[j]]
  {
    var i := FirstPresent(IdFieldPriority, fields);
    if i < |IdFieldPriority| then Some(fields[IdFieldPriority[i]]) else None
  }

  /** `MockRepository.create`: stores the record under its key, replacing
      any record already there, or fails when the record has none of the
      key fields. */
  function Create<V>(c: Container<V>, item: V, fields: map<string, string>): (r: Result<Container<V>, string>)
    requires c.Valid()
    ensures r.Failure? <==> ItemId(fields).None?
    ensures r.Failure? ==> r.error == "Item has no ID field"
    ensures r.Success? ==> r.value.Valid()
    ensures r.Success? ==> r.value.Get(ItemId(fields).value) == Some(item)
    ensures r.Success? ==> forall k :: k != ItemId(fields).value ==> r.value.Get(k) == c.Get(k)
  {
    match ItemId(fields)
    case None => Failure("Item has no ID field")
    case Some(id) => Success(c.Put(id, item))
  }

  /** `MockRepository.get_by_id`. */
  function GetById<V>(c: Container<V>, id: string): (r: Option<V>)
    ensures r.None? <==> id !in c.entries
    ensures r.Some? ==> r.value == c.entries[id]
  {
    c.Get(id)
  }

  /** `MockRepository.list_all`: every stored record, in insertion order. */
  function ListAll<V>(c: Container<V>): (r: seq<V>)
    requires c.Valid()
    ensures |r| == c.Size()
    ensures forall i :: 0 <= i < |r| ==> r[i] == c.entries[c.order[i]]
  {
    c.Values()
  }

  /** `MockRepository.query`: the query text and its parameters are not
      looked at; every stored record comes back. */
  function Query<V, P>(c: Container<V>, query: string, parameters: P): (r: seq<V>)
    requires c.Valid()
    ensures |r| == c.Size()
    ensures forall i :: 0 <= i < |r| ==> r[i] == c.entries[c.order[i]]
  {
    ListAll(c)
  }

  /** `MockRepository.update`: replaces the record under an existing key
      and fails for a missing one. */
  function Update<V>(c: Container<V>, id: string, item: V): (r: Result<Container<V>, string>)
    requires c.Valid()
    ensures r.Failure? <==> id !in c.entries
    ensures r.Failure? ==> r.error == "Item with ID " + id + " not found"
    ensures r.Success? ==> r.value.Valid() && r.value.order == c.order
    ensures r.Success? ==> r.value.Get(id) == Some(item)
    ensures r.Success? ==> forall k :: k != id ==> r.value.Get(k) == c.Get(k)
  {
    if id !in c.entries then Failure("Item with ID " + id + " not found")
    else Success(c.Put(id, item))
  }

  /** `MockRepository.delete`: removes the key when present. */
  function Delete<V>(c: Container<V>, id: string): (r: Container<V>)
    requires c.Valid()
    ensures r.Valid()
    ensures GetById(r, id) == None
    ensures forall k :: k != id ==> GetById(r, k) == GetById(c, k)
    ensures id !in c.entries ==> r == c
  {
    c.Remove(id)
  }

  /** Deleting twice is deleting once. */
  lemma DeleteIdempotent<V>(c: Container<V>, id: string)
    requires c.Valid()
    ensures Delete(Delete(c, id), id) == Delete(c, id)
  {
    assert id !in Delete(c, id).entries by {
      assert GetById(Delete(c, id), id) == None;
    }
  }

  /** The query results do not depend on the query. */
  lemma QueryIgnoresArguments<V, P>(c: Container<V>, q1: string, p1: P, q2: string, p2: P)
    requires c.Valid()
    ensures Query(c, q1, p1) == Query(c, q2, p2) == ListAll(c)
  {
  }

  // ---------------------------------------------------------------------------
  // Which key each record is stored under
  // ---------------------------------------------------------------------------

  /** A project is stored under its project id. */
  lemma ProjectKey(p: Models.Project)
    ensures ItemId(p.Fields()) == Some(p.projectId)
  {
    assert FirstPresent(IdFieldPriority, p.Fields()) == 2 by {
      assert IdFieldPriority[2..] == ["project_id", "task_id", "document_id"];
      assert IdFieldPriority[1..][1..] == IdFieldPriority[2..];
    }
  }

  /** A task is stored under its PROJECT id, not its task id: `project_id`
      comes before `task_id` in the priority list. */
  lemma TaskKey(t: Models.Task)
    ensures ItemId(t.Fields()) == Some(t.projectId)
  {
    assert FirstPresent(IdFieldPriority, t.Fields()) == 2 by {
      assert IdFieldPriority[2..] == ["project_id", "task_id", "document_id"];
      assert IdFieldPriority[1..][1..] == IdFieldPriority[2..];
    }
  }

  /** Document metadata has no `document_id` field, only `doc_id`, so it is
      stored under its project id too. */
  lemma DocumentKey(d: Models.Document)
    ensures ItemId(d.Fields()) == Some(d.projectId)
  {
    assert FirstPresent(IdFieldPriority, d.Fields()) == 2 by {
      assert IdFieldPriority[2..] == ["project_id", "task_id", "document_id"];
      assert IdFieldPriority[1..][1..] == IdFieldPriority[2..];
    }
  }

  // ---------------------------------------------------------------------------
  // The containers the services use
  // ---------------------------------------------------------------------------

  /** The `projects`, `tasks` and `documents` containers of the client. */
  datatype Store = Store(
    projects: Container<Models.Project>,
    tasks: Container<Models.Task>,
    documents: Container<Models.Document>)
  {
    ghost predicate Valid() {
      projects.Valid() && tasks.Valid() && documents.Valid()
    }
  }
}

=== FILE: mock_drive.dfy ===
/** The in-memory stand-in for the file drive: folders and files kept in
    insertion-ordered dicts by id, listed by parent, read, created and
    uploaded. New ids are `folder-<n>` / `file-<n>` with `n` one more than
    the current count; `Valid` carries the invariant that makes such an id
    fresh.

    Timestamps are the parameter `now`, the ISO text of the current time. */
module MockDrive {
  import opened Wrappers
  import opened Strings
  import opened PyDict
  import Seqs

  newtype byte = x: int | 0 <= x < 256

  datatype Folder = Folder(id: string, name: string, parentId: Option<string>, createdTime: string, modifiedTime: string)

  datatype DriveFile = DriveFile(
    id: string,
    name: string,
    mimeType: string,
    parentId: string,
    createdTime: string,
    modifiedTime: string,
    content: seq<byte>)

  datatype Drive = Drive(folders: Dict<Folder>, files: Dict<DriveFile>)

  const FolderPrefix: string := "folder-"
  const FilePrefix: string := "file-"

  /** Every generated-looking key `prefix + str(n)` of `d` has `n` at most
      the number of entries, so `prefix + str(size + 1)` is unused. */
  ghost predicate NumberedKeysBounded<V>(d: Dict<V>, prefix: string) {
    forall n: nat :: prefix + NatToString(n) in d.entries ==> n <= d.Size()
  }

  ghost predicate Valid(d: Drive) {
    && d.folders.Valid() && d.files.Valid()
    && NumberedKeysBounded(d.folders, FolderPrefix)
    && NumberedKeysBounded(d.files, FilePrefix)
  }

  // ---------------------------------------------------------------------------
  // Reading
  // ---------------------------------------------------------------------------

  /** `list_files`: the files directly in a folder, in insertion order. */
  function ListFiles(d: Drive, folderId: string): (r: seq<DriveFile>)
    requires Valid(d)
    ensures forall f :: f in r <==> f in d.files.Values() && f.parentId == folderId
  {
    Seqs.Filter(d.files.Values(), (f: DriveFile) => f.parentId == folderId)
  }

  /** `list_folders`: the folders directly in a parent, in insertion order;
      the root, which has no parent, is in none. */
  function ListFolders(d: Drive, parentId: string): (r: seq<Folder>)
    requires Valid(d)
    ensures forall f :: f in r <==> f in d.folders.Values() && f.parentId == Some(parentId)
  {
    Seqs.Filter(d.folders.Values(), (f: Folder) => f.parentId == Some(parentId))
  }

  /** `get_file`. */
  function GetFile(d: Drive, fileId: string): (r: Option<DriveFile>)
    ensures r.None? <==> fileId !in d.files.entries
    ensures r.Some? ==> r.value == d.files.entries[fileId]
  {
    d.files.Get(fileId)
  }

  /** `get_folder`. */
  function GetFolder(d: Drive, folderId: string): (r: Option<Folder>)
    ensures r.None? <==> folderId !in d.folders.entries
    ensures r.Some? ==> r.value == d.folders.entries[folderId]
  {
    d.folders.Get(folderId)
  }

  /** `download_file`: the stored bytes, or the `ValueError` message for an
      unknown id. */
  function DownloadFile(d: Drive, fileId: string): (r: Result<seq<byte>, string>)
    ensures r.Failure? <==> fileId !in d.files.entries
    ensures r.Failure? ==> r.error == "File with ID " + fileId + " not found"
    ensures r.Success? ==> r.value == d.files.entries[fileId].content
  {
    match GetFile(d, fileId)
    case None => Failure("File with ID " + fileId + " not found")
    case Some(f) => Success(f.content)
  }

  // ---------------------------------------------------------------------------
  // Creating
  // ---------------------------------------------------------------------------

  /** The numbered key after the current count is not in use, and adding
      it keeps every numbered key within the new count. */
  lemma NextNumberedKey<V>(d: Dict<V>, prefix: string, v: V)
    requires d.Valid() && NumberedKeysBounded(d, prefix)
    ensures prefix + NatToString(d.Size() + 1) !in d.entries
    ensures NumberedKeysBounded(d.Put(prefix + NatToString(d.Size() + 1), v), prefix)
  {
    var key := prefix + NatToString(d.Size() + 1);
    var d1 := d.Put(key, v);
    forall n: nat | prefix + NatToString(n) in d1.entries
      ensures n <= d1.Size()
    {
      if prefix + NatToString(n) == key {
        PrefixedNatInjective(prefix, n, d.Size() + 1);
      } else {
        assert d1.Get(prefix + NatToString(n)) == d.Get(prefix + NatToString(n));
      }
    }
  }

  /** `create_folder`: a folder under a fresh id `folder-<count + 1>`. The
      folder count grows by exactly one and nothing stored changes. */
  function CreateFolder(d: Drive, name: string, parentId: string, now: string): (r: (Drive, Folder))
    requires Valid(d)
    ensures Valid(r.0)
    ensures r.1 == Folder(FolderPrefix + NatToString(d.folders.Size() + 1), name, Some(parentId), now, now)
    ensures r.1.id !in d.folders.entries
    ensures r.0.folders.Size() == d.folders.Size() + 1
    ensures GetFolder(r.0, r.1.id) == Some(r.1)
    ensures forall k :: k != r.1.id ==> GetFolder(r.0, k) == GetFolder(d, k)
    ensures r.0.files == d.files
  {
    var id := FolderPrefix + NatToString(d.folders.Size() + 1);
    var folder := Folder(id, name, Some(parentId), now, now);
    NextNumberedKey(d.folders, FolderPrefix, folder);
    var folders := d.folders.Put(id, folder);
    (d.(folders := folders), folder)
  }

  /** `upload_file`: a file under a fresh id `file-<count + 1>`. The file
      count grows by exactly one and nothing stored changes. */
  function UploadFile(d: Drive, name: string, content: seq<byte>, parentId: string, mimeType: string,
                      now: string): (r: (Drive, DriveFile))
    requires Valid(d)
    ensures Valid(r.0)
    ensures r.1 == DriveFile(FilePrefix + NatToString(d.files.Size() + 1), name, mimeType, parentId, now, now, content)
    ensures r.1.id !in d.files.entries
    ensures r.0.files.Size() == d.files.Size() + 1
    ensures GetFile(r.0, r.1.id) == Some(r.1)
    ensures forall k :: k != r.1.id ==> GetFile(r.0, k) == GetFile(d, k)
    ensures r.0.folders == d.folders
  {
    var id := FilePrefix + NatToString(d.files.Size() + 1);
    var file := DriveFile(id, name, mimeType, parentId, now, now, content);
    NextNumberedKey(d.files, FilePrefix, file);
    var files := d.files.Put(id, file);
    (d.(files := files), file)
  }

  /** Downloading an uploaded file gives back exactly the uploaded bytes,
      and the file is listed in its folder. */
  lemma DownloadAfterUpload(d: Drive, name: string, content: seq<byte>, parentId: string, mimeType: string,
                            now: string)
    requires Valid(d)
    ensures var (d1, f) := UploadFile(d, name, content, parentId, mimeType, now);
      DownloadFile(d1, f.id) == Success(content) && f in ListFiles(d1, parentId)
  {
    var (d1, f) := UploadFile(d, name, content, parentId, mimeType, now);
    assert d1.files.entries[f.id] == f;
    ValuesAreEntries(d1.files);
  }

  /** A created folder is listed under its parent. */
  lemma CreatedFolderListed(d: Drive, name: string, parentId: string, now: string)
    requires Valid(d)
    ensures var (d1, f) := CreateFolder(d, name, parentId, now);
      f in ListFolders(d1, parentId)
  {
    var (d1, f) := CreateFolder(d, name, parentId, now);
    assert d1.folders.entries[f.id] == f;
    ValuesAreEntries(d1.folders);
  }

  // ---------------------------------------------------------------------------
  // The sample drive
  // ---------------------------------------------------------------------------

  /** The UTF-8 encoding of one character: one byte below 0x80, then two,
      three or four bytes. */
  function Utf8Char(c: char): (r: seq<byte>)
    ensures 1 <= |r| <= 4
    ensures |r| == 1 <==> c as int < 0x80
    ensures |r| == 1 ==> r[0] as int == c as int
  {
    var n := c as int;
    if n < 0x80 then [n as byte]
    else if n < 0x800 then [(0xC0 + n / 0x40) as byte, (0x80 + n % 0x40) as byte]
    else if n < 0x1_0000 then
      [(0xE0 + n / 0x1000) as byte, (0x80 + (n / 0x40) % 0x40) as byte, (0x80 + n % 0x40) as byte]
    else
      [(0xF0 + n / 0x4_0000) as byte, (0x80 + (n / 0x1000) % 0x40) as byte,
       (0x80 + (n / 0x40) % 0x40) as byte, (0x80 + n % 0x40) as byte]
  }

  /** `s.encode("utf-8")`. */
  function Utf8(s: string): (r: seq<byte>)
    ensures |s| <= |r| <= 4 * |s|
    decreases |s|
  {
    if |s| == 0 then [] else Utf8Char(s[0]) + Utf8(s[1..])
  }

  /** Encoding distributes over concatenation. */
  lemma {:induction false} Utf8Append(a: string, b: string)
    ensures Utf8(a + b) == Utf8(a) + Utf8(b)
    decreases |a|
  {
    if |a| > 0 {
      assert (a + b)[1..] == a[1..] + b;
      Utf8Append(a[1..], b);
    } else {
      assert a + b == b;
    }
  }

  /** An ASCII text encodes to one byte per character, each equal to the
      character's code. */
  lemma {:induction false} Utf8Ascii(s: string)
    requires forall i :: 0 <= i < |s| ==> s[i] as int < 0x80
    ensures |Utf8(s)| == |s|
    ensures forall i :: 0 <= i < |s| ==> Utf8(s)[i] as int == s[i] as int
    decreases |s|
  {
    if |s| > 0 {
      Utf8Ascii(s[1..]);
      forall i | 0 <= i < |s| ensures Utf8(s)[i] as int == s[i] as int {
        if i > 0 {
          assert Utf8(s)[i] == Utf8(s[1..])[i - 1];
          assert s[1..][i - 1] == s[i];
        }
      }
    }
  }

  /** The sample text of a kind ("PDF", "Excel" or "Word") of document. */
  function MockText(kind: string, title: string, body: string): string {
    "Mock " + kind + " Content: " + title + "\n" + body
  }

  /** Only ASCII characters. */
  predicate Ascii(s: string) {
    forall i :: 0 <= i < |s| ==> s[i] as int < 0x80
  }

  /** A mock file's bytes are the encoded heading line followed by the
      encoded body; for an ASCII title they are the text's own character
      codes, one byte each. */
  lemma MockContentBytes(kind: string, title: string, body: string)
    ensures Utf8(MockText(kind, title, body)) == Utf8("Mock " + kind + " Content: " + title + "\n") + Utf8(body)
    ensures Ascii(kind) && Ascii(title) && Ascii(body) ==>
      var text := MockText(kind, title, body);
      |Utf8(text)| == |text| && forall i :: 0 <= i < |text| ==> Utf8(text)[i] as int == text[i] as int
  {
    var head := "Mock " + kind + " Content: " + title + "\n";
    Utf8Append(head, body);
    if Ascii(kind) && Ascii(title) && Ascii(body) {
      var text := MockText(kind, title, body);
      forall i | 0 <= i < |text|
        ensures text[i] as int < 0x80
      {
        if i < 5 {
          assert text[i] == "Mock "[i];
        } else if i < 5 + |kind| {
          assert text[i] == kind[i - 5];
        } else if i < 5 + |kind| + 10 {
          assert text[i] == " Content: "[i - 5 - |kind|];
        } else if i < 15 + |kind| + |title| {
          assert text[i] == title[i - 15 - |kind|];
        } else if i == 15 + |kind| + |title| {
          assert text[i] == '\n';
        } else {
          assert text[i] == body[i - 16 - |kind| - |title|];
        }
      }
      Utf8Ascii(text);
    }
  }

  const DocumentBody: string := "Sample document content for testing purposes."
  const SpreadsheetBody: string := "Sample spreadsheet content for testing purposes."

  const Pdf: string := "application/pdf"
  const Xlsx: string := "application/vnd.openxmlformats-officedocument.spreadsheetml.sheet"
  const Docx: string := "application/vnd.openxmlformats-officedocument.wordprocessingml.document"

  /** A dict built from keys none of which starts like `prefix` holds no
      numbered key of that prefix. */
  lemma NoNumberedKey<V>(prefix: string, ids: seq<string>, vals: seq<V>)
    requires |prefix| > 0 && |ids| == |vals|
    requires forall i, j :: 0 <= i < j < |ids| ==> ids[i] != ids[j]
    requires forall i :: 0 <= i < |ids| ==> |ids[i]| > 0 && ids[i][0] != prefix[0]
    ensures NumberedKeysBounded(FromPairs(ids, vals), prefix)
  {
    forall n: nat ensures prefix + NatToString(n) !in ids {
      assert (prefix + NatToString(n))[0] == prefix[0];
    }
  }

  /** The sample folders, in the order `MockDriveClient()` lists them. */
  function InitialFolders(now: string): (d: Dict<Folder>)
    ensures d.Valid() && d.Size() == 6
    ensures NumberedKeysBounded(d, FolderPrefix)
  {
    var ids := ["root", "projects", "templates", "proj-001", "proj-002", "proj-003"];
    var names := ["Google Drive Root", "Projects", "Form Templates", "Acme Corp 2024 Tax Filing",
                  "Beta LLC 2024 Partnership Returns", "Multi-Client Corporate Tax Services"];
    var parents := [None, Some("root"), Some("root"), Some("projects"), Some("projects"), Some("projects")];
    var folders := seq(6, i requires 0 <= i < 6 => Folder(ids[i], names[i], parents[i], now, now));
    NoNumberedKey(FolderPrefix, ids, folders);
    var d := FromPairs(ids, folders);
    d
  }

  /** The encoded content of the `i`-th sample file. */
  function SampleContent(i: nat): seq<byte> {
    Utf8(
      if i == 0 then MockText("PDF", "Acme Corp 2023 Tax Return - Sample Document", DocumentBody)
      else if i == 1 then MockText("Excel", "Acme Corp Financial Statement", SpreadsheetBody)
      else if i == 2 then MockText("Word", "Acme Corp Client Responses", DocumentBody)
      else if i == 3 then MockText("PDF", "Beta LLC 2023 Tax Return - Sample Document", DocumentBody)
      else if i == 4 then MockText("Word", "Form 1120 Template", DocumentBody)
      else MockText("Word", "Form 1065 Template", DocumentBody))
  }

  /** The sample files, in the order `MockDriveClient()` lists them. */
  function InitialFiles(now: string): (d: Dict<DriveFile>)
    ensures d.Valid() && d.Size() == 6
    ensures NumberedKeysBounded(d, FilePrefix)
  {
    var ids := ["doc-001", "doc-002", "doc-003", "doc-004", "doc-005", "doc-006"];
    var names := ["prior_year_return.pdf", "financial_statement.xlsx", "client_responses.docx",
                  "prior_year_return.pdf", "form_1120_template.docx", "form_1065_template.docx"];
    var types := [Pdf, Xlsx, Docx, Pdf, Docx, Docx];
    var parents := ["proj-001", "proj-001", "proj-001", "proj-002", "templates", "templates"];
    var files := seq(6, i requires 0 <= i < 6 =>
                       DriveFile(ids[i], names[i], types[i], parents[i], now, now, SampleContent(i)));
    NoNumberedKey(FilePrefix, ids, files);
    var d := FromPairs(ids, files);
    d
  }

  /** The drive as `MockDriveClient()` builds it, every entry stamped with
      the same time. */
  function InitialDrive(now: string): (d: Drive)
    ensures Valid(d)
    ensures d.folders.Size() == 6 && d.files.Size() == 6
  {
    Drive(InitialFolders(now), InitialFiles(now))
  }
}

=== FILE: models.dfy ===
/** The records the services store: projects, tasks and document metadata,
    with the partial-update records that `update_*` merges into them.

    An update record holds `Some(v)` for each field the caller set and
    `None` for each field it left unset; merging overwrites exactly the set
    fields. For a field that is itself optional the set value is an
    `Option` too, so `Some(None)` clears it. */
module Models {
  import opened Wrappers

  // ---------------------------------------------------------------------------
  // Tasks
  // ---------------------------------------------------------------------------

  datatype TaskStatus = NotStarted | InProgress | ReadyForReview | UnderReview | Completed {
    /** The enumeration's string value. */
    function Value(): string {
      match this
      case NotStarted => "Not Started"
      case InProgress => "In Progress"
      case ReadyForReview => "Ready for Review"
      case UnderReview => "Under Review"
      case Completed => "Completed"
    }
  }

  /** Distinct statuses have distinct values, so a status can be read back
      from its rendering. */
  lemma StatusValueInjective(a: TaskStatus, b: TaskStatus)
    requires a.Value() == b.Value()
    ensures a == b
  {
  }

  datatype Task = Task(
    taskId: string,
    projectId: string,
    assignedTo: string,
    client: string,
    taxForm: string,
    documents: seq<string>,
    status: TaskStatus,
    description: Option<string>,
    dueDate: Option<string>)
  {
    /** The string-valued required fields of `model_dump()`, by their
        Python names; the store picks its key among these. */
    function Fields(): map<string, string> {
      map["task_id" := taskId, "project_id" := projectId, "assigned_to" := assignedTo,
          "client" := client, "tax_form" := taxForm]
    }

    /** `model_copy(update=u.model_dump(exclude_unset=True))`. */
    function With(u: TaskUpdate): (t: Task)
      ensures t.taskId == taskId && t.projectId == projectId
    {
      Task(taskId, projectId,
           u.assignedTo.GetOr(assignedTo), u.client.GetOr(client), u.taxForm.GetOr(taxForm),
           u.documents.GetOr(documents), u.status.GetOr(status),
           u.description.GetOr(description), u.dueDate.GetOr(dueDate))
    }
  }

  datatype TaskCreate = TaskCreate(
    projectId: string,
    assignedTo: string,
    client: string,
    taxForm: string,
    documents: seq<string>,
    description: Option<string>,
    dueDate: Option<string>)

  datatype TaskUpdate = TaskUpdate(
    assignedTo: Option<string>,
    client: Option<string>,
    taxForm: Option<string>,
    documents: Option<seq<string>>,
    status: Option<TaskStatus>,
    description: Option<Option<string>>,
    dueDate: Option<Option<string>>)

  /** The update that sets only the status. */
  function StatusOnly(s: TaskStatus): TaskUpdate {
    TaskUpdate(None, None, None, None, Some(s), None, None)
  }

  // ---------------------------------------------------------------------------
  // Projects
  // ---------------------------------------------------------------------------

  datatype Project = Project(
    projectId: string,
    name: string,
    clients: seq<string>,
    services: seq<string>,
    documents: seq<string>,
    tasks: seq<string>)
  {
    function Fields(): map<string, string> {
      map["project_id" := projectId, "name" := name]
    }

    function With(u: ProjectUpdate): (p: Project)
      ensures p.projectId == projectId
    {
      Project(projectId, u.name.GetOr(name), u.clients.GetOr(clients), u.services.GetOr(services),
              u.documents.GetOr(documents), u.tasks.GetOr(tasks))
    }
  }

  datatype ProjectCreate = ProjectCreate(name: string, clients: seq<string>, services: seq<string>)

  datatype ProjectUpdate = ProjectUpdate(
    name: Option<string>,
    clients: Option<seq<string>>,
    services: Option<seq<string>>,
    documents: Option<seq<string>>,
    tasks: Option<seq<string>>)

  // ---------------------------------------------------------------------------
  // Document metadata
  // ---------------------------------------------------------------------------

  /** `last_modified` is a timestamp; it is kept as its ISO text. */
  datatype Document = Document(
    docId: string,
    fileName: string,
    fileType: string,
    lastModified: string,
    projectId: string,
    driveFileId: string,
    description: Option<string>,
    sizeBytes: Option<int>,
    webViewLink: Option<string>)
  {
    function Fields(): map<string, string> {
      map["doc_id" := docId, "file_name" := fileName, "file_type" := fileType,
          "project_id" := projectId, "drive_file_id" := driveFileId]
    }

    function With(u: DocumentUpdate): (d: Document)
      ensures d.docId == docId && d.projectId == projectId && d.fileType == fileType
      ensures d.driveFileId == driveFileId && d.sizeBytes == sizeBytes
    {
      Document(docId, u.fileName.GetOr(fileName), fileType, u.lastModified.GetOr(lastModified),
               projectId, driveFileId, u.description.GetOr(description), sizeBytes,
               u.webViewLink.GetOr(webViewLink))
    }
  }

  datatype DocumentUpdate = DocumentUpdate(
    fileName: Option<string>,
    lastModified: Option<string>,
    description: Option<Option<string>>,
    webViewLink: Option<Option<string>>)

  // ---------------------------------------------------------------------------
  // Merge laws
  // ---------------------------------------------------------------------------

  /** Merging overwrites a field exactly when the update sets it: a set
      field takes the update's value, an unset one keeps the record's. */
  lemma TaskWithSetFieldsOnly(t: Task, u: TaskUpdate)
    ensures t.With(u).assignedTo == (if u.assignedTo.Some? then u.assignedTo.value else t.assignedTo)
    ensures t.With(u).client == (if u.client.Some? then u.client.value else t.client)
    ensures t.With(u).taxForm == (if u.taxForm.Some? then u.taxForm.value else t.taxForm)
    ensures t.With(u).documents == (if u.documents.Some? then u.documents.value else t.documents)
    ensures t.With(u).status == (if u.status.Some? then u.status.value else t.status)
    ensures t.With(u).description == (if u.description.Some? then u.description.value else t.description)
    ensures t.With(u).dueDate == (if u.dueDate.Some? then u.dueDate.value else t.dueDate)
  {
  }

  /** Applying the same update twice is the same as applying it once, and
      the empty update changes nothing. */
  lemma TaskWithIdempotent(t: Task, u: TaskUpdate)
    ensures t.With(u).With(u) == t.With(u)
    ensures t.With(TaskUpdate(None, None, None, None, None, None, None)) == t
  {
  }

  /** A status-only update changes the status and nothing else. */
  lemma StatusOnlyChangesStatus(t: Task, s: TaskStatus)
    ensures t.With(StatusOnly(s)) == t.(status := s)
  {
  }

  lemma ProjectWithSetFieldsOnly(p: Project, u: ProjectUpdate)
    ensures p.With(u).name == (if u.name.Some? then u.name.value else p.name)
    ensures p.With(u).clients == (if u.clients.Some? then u.clients.value else p.clients)
    ensures p.With(u).services == (if u.services.Some? then u.services.value else p.services)
    ensures p.With(u).documents == (if u.documents.Some? then u.documents.value else p.documents)
    ensures p.With(u).tasks == (if u.tasks.Some? then u.tasks.value else p.tasks)
    ensures p.With(u).With(u) == p.With(u)
    ensures p.With(ProjectUpdate(None, None, None, None, None)) == p
  {
  }

  lemma DocumentWithSetFieldsOnly(d: Document, u: DocumentUpdate)
    ensures d.With(u).fileName == (if u.fileName.Some? then u.fileName.value else d.fileName)
    ensures d.With(u).lastModified == (if u.lastModified.Some? then u.lastModified.value else d.lastModified)
    ensures d.With(u).description == (if u.description.Some? then u.description.value else d.description)
    ensures d.With(u).webViewLink == (if u.webViewLink.Some? then u.webViewLink.value else d.webViewLink)
    ensures d.With(u).With(u) == d.With(u)
    ensures d.With(DocumentUpdate(None, None, None, None)) == d
  {
  }
}

=== FILE: openai_client.dfy ===
/** The chat client's two pieces of text handling: rendering the system
    prompt from a task's context and document snippets, and reading the
    recommended actions back out of a reply. The call to the model sits
    between them and is not part of this model: the parser takes the reply
    text as its input. */
module OpenAIClient {
  import opened Wrappers
  import opened Seqs
  import opened Strings
  import TextUtils

  // ---------------------------------------------------------------------------
  // Reading actions out of a reply
  // ---------------------------------------------------------------------------

  /** The marker a reply puts in front of each recommended action. */
  const Marker: string := "RECOMMENDED_ACTION:"

  /** The marker holds neither of the characters the action format puts
      after it, and its last character, ':', occurs only at its end. */
  lemma MarkerShape()
    ensures ' ' !in Marker && ';' !in Marker
    ensures forall k :: 0 <= k < |Marker| - 1 ==> Marker[k] != Marker[|Marker| - 1]
  {
  }

  /** `{"type": ..., "description": ...}`. */
  datatype ProposedAction = ProposedAction(actionType: string, description: string)

  /** The reply with the action part removed, and the actions found. */
  datatype Parsed = Parsed(response: string, actions: seq<ProposedAction>)

  /** One piece of the reply after a marker: stripped, then cut at its
      first ';' into a stripped type and a stripped description. A piece
      without ';' proposes nothing. */
  function ParseAction(segment: string): (r: Option<ProposedAction>)
    ensures r.None? <==> ';' !in segment
  {
    StripKeepsNonSpace(segment, ';');
    match SplitOnce(Strip(segment), ';')
    case None => None
    case Some(p) => Some(ProposedAction(Strip(p.0), Strip(p.1)))
  }

  /** `_parse_response_for_actions`: a reply without the marker comes back
      unchanged with no actions; otherwise the reply is cut at every
      marker, the text before the first one, stripped, is the response,
      and each later piece may propose one action. */
  function ParseResponse(text: string): (p: Parsed)
    ensures !Contains(text, Marker) ==> p == Parsed(text, [])
    ensures Contains(text, Marker) ==> p.response == Strip(text[..Find(text, Marker).value])
    ensures |p.actions| <= Count(text, Marker)
  {
    if !Contains(text, Marker) then Parsed(text, [])
    else
      var parts := Split(text, Marker);
      SplitCountsSeparators(text, Marker);
      Parsed(Strip(parts[0]), FilterMap(parts[1..], ParseAction))
  }

  // --- Writing actions into a reply, the format the prompt asks for ------

  /** What follows the marker for one action: `" type;description"`. */
  function ActionSegment(a: ProposedAction): string {
    " " + a.actionType + ";" + a.description
  }

  function ActionSegments(acts: seq<ProposedAction>): (r: seq<string>)
    ensures |r| == |acts|
    ensures forall i :: 0 <= i < |acts| ==> r[i] == ActionSegment(acts[i])
  {
    seq(|acts|, i requires 0 <= i < |acts| => ActionSegment(acts[i]))
  }

  /** A reply made of a body followed by one marked line per action. */
  function Render(body: string, acts: seq<ProposedAction>): string {
    Join([body] + ActionSegments(acts), Marker)
  }

  /** An action the format can carry: no ';' in the type, and the marker
      in neither part. */
  ghost predicate Renderable(a: ProposedAction) {
    && ';' !in a.actionType
    && !Contains(a.actionType, Marker)
    && !Contains(a.description, Marker)
  }

  /** The action as the parser reports it: both parts stripped. */
  function Stripped(a: ProposedAction): ProposedAction {
    ProposedAction(Strip(a.actionType), Strip(a.description))
  }

  function StrippedAll(acts: seq<ProposedAction>): (r: seq<ProposedAction>)
    ensures |r| == |acts|
    ensures forall i :: 0 <= i < |acts| ==> r[i] == Stripped(acts[i])
  {
    seq(|acts|, i requires 0 <= i < |acts| => Stripped(acts[i]))
  }

  /** A piece written for an action parses back to that action with both
      parts stripped; the description may itself hold ';'. */
  lemma ParseActionSegment(a: ProposedAction)
    requires Renderable(a)
    ensures ParseAction(ActionSegment(a)) == Some(Stripped(a))
  {
    var t := a.actionType;
    var d := a.description;
    var lt := LStrip(" " + t);
    assert ActionSegment(a) == " " + t + [';'] + d;
    StripAround(" " + t, ';', d);
    assert lt == LStrip(t) by {
      assert (" " + t)[1..] == t;
    }
    LStripKeepsNonSpace(t, ';');
    SplitOnceGlue(lt, ';', RStrip(d));
    StripAfterLStrip(t);
    StripAfterRStrip(d);
  }

  lemma ParseActionSegments(acts: seq<ProposedAction>)
    requires forall a :: a in acts ==> Renderable(a)
    ensures FilterMap(ActionSegments(acts), ParseAction) == StrippedAll(acts)
  {
    forall i | 0 <= i < |acts|
      ensures ParseAction(ActionSegments(acts)[i]) == Some(StrippedAll(acts)[i])
    {
      ParseActionSegment(acts[i]);
    }
    FilterMapAllSome(ActionSegments(acts), ParseAction, StrippedAll(acts));
  }

  /** A marked piece holds no marker of its own. */
  lemma SegmentHasNoMarker(a: ProposedAction)
    requires Renderable(a)
    ensures !Contains(ActionSegment(a), Marker)
  {
    MarkerShape();
    assert !Contains([], Marker);
    GlueNotContained([], ' ', a.actionType, Marker);
    assert [] + [' '] + a.actionType == " " + a.actionType;
    GlueNotContained(" " + a.actionType, ';', a.description, Marker);
  }

  /** Round trip: a reply written in the prompt's action format parses back
      to its stripped body and exactly the actions written, in order, each
      with its parts stripped (a reply with no action comes back
      unchanged). */
  lemma ParseRender(body: string, acts: seq<ProposedAction>)
    requires !Contains(body, Marker)
    requires forall a :: a in acts ==> Renderable(a)
    ensures ParseResponse(Render(body, acts)) == Parsed(if acts == [] then body else Strip(body), StrippedAll(acts))
  {
    var segs := ActionSegments(acts);
    var pieces := [body] + segs;
    forall p | p in pieces
      ensures !Contains(p, Marker)
    {
      if p != body {
        var i :| 0 <= i < |segs| && segs[i] == p;
        SegmentHasNoMarker(acts[i]);
      }
    }
    MarkerShape();
    SplitJoinUnique(pieces, Marker);
    if acts != [] {
      assert pieces[1..] == segs;
      ContainsMiddle(body, Marker, Join(segs, Marker));
      ParseActionSegments(acts);
    }
  }

  // ---------------------------------------------------------------------------
  // The system prompt
  // ---------------------------------------------------------------------------

  const Preamble: string :=
    "You are an AI Tax Assistant helping preparers and reviewers complete tax projects. "
    + "You have access to project documents, prior year returns, financials, and client information. "
    + "Use the information provided to answer questions and recommend actions.\n\n"

  const TaskHeader: string := "### Task Information\n"

  const SnippetHeader: string := "\n### Document Snippets\n"

  /** The action types the prompt offers, in the order it lists them. */
  const OfferedActions: seq<TextUtils.ActionId> := [
    TextUtils.ActionId.GenerateMissingInfo, TextUtils.ActionId.TriggerRiskReview,
    TextUtils.ActionId.GenerateClientSummary, TextUtils.ActionId.SendToTaxReview]

  /** Each action's name in single quotes. */
  function QuotedNames(ids: seq<TextUtils.ActionId>): (r: seq<string>)
    ensures |r| == |ids|
    ensures forall i :: 0 <= i < |ids| ==> r[i] == "'" + ids[i].Name() + "'"
  {
    seq(|ids|, i requires 0 <= i < |ids| => "'" + ids[i].Name() + "'")
  }

  const FormatIntro: string :=
    "\n### Action Format\n"
    + "When recommending an action, use the following format at the end of your response:\n"
    + "RECOMMENDED_ACTION: [action_type];[action_description]\n"
    + "Where action_type is one of: "

  const ActionFormat: string := FormatIntro + Join(QuotedNames(OfferedActions), ", ") + "\n"

  /** One `key: value` line of the task context. */
  function ContextLine(entry: (string, string)): string {
    entry.0 + ": " + entry.1
  }

  function ContextLineList(ctx: seq<(string, string)>): (r: seq<string>)
    ensures |r| == |ctx|
    ensures forall i :: 0 <= i < |ctx| ==> r[i] == ContextLine(ctx[i])
  {
    seq(|ctx|, i requires 0 <= i < |ctx| => ContextLine(ctx[i]))
  }

  /** The task-context lines, each ended by a line break, in the order the
      context dict iterates (a sequence of its entries here, with each
      value already rendered by `str`). */
  function ContextLines(ctx: seq<(string, string)>): string
    decreases |ctx|
  {
    if |ctx| == 0 then [] else ContextLine(ctx[0]) + "\n" + ContextLines(ctx[1..])
  }

  /** The snippet block numbered `n`. */
  function SnippetBlock(n: nat, snippet: string): string {
    "Snippet " + NatToString(n) + ":\n" + snippet + "\n\n"
  }

  /** The snippets as blocks numbered from `n` on, in input order. */
  function SnippetBlocks(snippets: seq<string>, n: nat): string
    decreases |snippets|
  {
    if |snippets| == 0 then [] else SnippetBlock(n, snippets[0]) + SnippetBlocks(snippets[1..], n + 1)
  }

  /** The layout of the system prompt around its fixed texts: a head, the
      context lines, the snippet header, the numbered snippets and a
      tail. */
  function Layout(head: string, ctx: seq<(string, string)>, header: string, snippets: seq<string>, tail: string): string {
    head + ContextLines(ctx) + header + SnippetBlocks(snippets, 1) + tail
  }

  /** The layout starts with its head, ends with its tail and always holds
      the snippet header. */
  lemma LayoutShape(head: string, ctx: seq<(string, string)>, header: string, snippets: seq<string>, tail: string)
    ensures var r := Layout(head, ctx, header, snippets, tail);
      StartsWith(r, head) && EndsWith(r, tail) && Contains(r, header)
    ensures StartsWith(Layout(head, ctx, header, snippets, tail), head + ContextLines(ctx) + header)
  {
    var mid := ContextLines(ctx);
    var blocks := SnippetBlocks(snippets, 1);
    var r := Layout(head, ctx, header, snippets, tail);
    assert r[..|head|] == head;
    assert r[..|head + mid + header|] == head + mid + header;
    assert r[|r| - |tail|..] == tail;
    assert r == (head + mid) + header + (blocks + tail);
    ContainsMiddle(head + mid, header, blocks + tail);
  }

  /** `_build_system_prompt`: the preamble, the task context, the snippets
      (whose header appears even when there are none) and, always last,
      the action format. Right under the task heading come the context's
      `key: value` lines, one per entry in iteration order (see
      `ContextLinesSplit`), and then the snippet header. */
  function BuildSystemPrompt(ctx: seq<(string, string)>, snippets: seq<string>): (r: string)
    ensures StartsWith(r, Preamble + TaskHeader)
    ensures StartsWith(r, Preamble + TaskHeader + ContextLines(ctx) + SnippetHeader)
    ensures EndsWith(r, ActionFormat)
    ensures Contains(r, SnippetHeader)
  {
    LayoutShape(Preamble + TaskHeader, ctx, SnippetHeader, snippets, ActionFormat);
    Layout(Preamble + TaskHeader, ctx, SnippetHeader, snippets, ActionFormat)
  }

  /** The context lines are the context's `key: value` lines joined and
      ended by line breaks. */
  lemma {:induction false} ContextLinesJoin(ctx: seq<(string, string)>)
    ensures ContextLines(ctx) == Join(ContextLineList(ctx) + [""], "\n")
    decreases |ctx|
  {
    if |ctx| > 0 {
      var ls := ContextLineList(ctx);
      ContextLinesJoin(ctx[1..]);
      assert (ls + [""])[1..] == ContextLineList(ctx[1..]) + [""];
    }
  }

  /** A context line breaks no line when neither its key nor its value
      does. */
  lemma ContextLineOneLine(e: (string, string))
    requires '\n' !in e.0 && '\n' !in e.1
    ensures !Contains(ContextLine(e), "\n")
  {
    var l := ContextLine(e);
    forall k | 0 <= k < |l|
      ensures l[k] != '\n'
    {
      if k < |e.0| {
        assert l[k] == e.0[k];
      } else if k >= |e.0| + 2 {
        assert l[k] == e.1[k - |e.0| - 2];
      }
    }
    MissingCharNotContained(l, "\n", 0);
  }

  /** With no line break in any key or value, the task-information section
      splits into exactly one `key: value` line per context entry, in
      order, and nothing after the last line break. */
  lemma ContextLinesSplit(ctx: seq<(string, string)>)
    requires forall e :: e in ctx ==> '\n' !in e.0 && '\n' !in e.1
    ensures Split(ContextLines(ctx), "\n") == ContextLineList(ctx) + [""]
  {
    var ls := ContextLineList(ctx) + [""];
    forall l | l in ls
      ensures !Contains(l, "\n")
    {
      if l != "" {
        var i :| 0 <= i < |ctx| && ContextLineList(ctx)[i] == l;
        ContextLineOneLine(ctx[i]);
      }
    }
    ContextLinesJoin(ctx);
    SplitJoinUnique(ls, "\n");
  }

  /** In blocks numbered from `n`, the snippet at index `k` appears as the
      block numbered `n + k`. */
  lemma {:induction false} SnippetNumbered(snippets: seq<string>, n: nat, k: nat)
    requires k < |snippets|
    ensures Contains(SnippetBlocks(snippets, n), SnippetBlock(n + k, snippets[k]))
    decreases k
  {
    var first := SnippetBlock(n, snippets[0]);
    var rest := SnippetBlocks(snippets[1..], n + 1);
    assert SnippetBlocks(snippets, n) == first + rest;
    if k == 0 {
      ContainsFront(first, rest);
    } else {
      var x := SnippetBlock(n + k, snippets[k]);
      assert snippets[1..][k - 1] == snippets[k];
      SnippetNumbered(snippets[1..], n + 1, k - 1);
      assert Contains(rest, x);
      ContainsAfter(first, rest, x);
    }
  }

  /** Every snippet shows up in the prompt under its number. */
  lemma PromptHoldsSnippet(ctx: seq<(string, string)>, snippets: seq<string>, k: nat)
    requires k < |snippets|
    ensures Contains(BuildSystemPrompt(ctx, snippets), SnippetBlock(k + 1, snippets[k]))
  {
    var head := Preamble + TaskHeader + ContextLines(ctx) + SnippetHeader;
    var blocks := SnippetBlocks(snippets, 1);
    assert BuildSystemPrompt(ctx, snippets) == head + blocks + ActionFormat;
    ContainsMiddle(head, blocks, ActionFormat);
    SnippetNumbered(snippets, 1, k);
    ContainsTransitive(BuildSystemPrompt(ctx, snippets), blocks, SnippetBlock(k + 1, snippets[k]));
  }

  /** The action format names every action the assistant can run. */
  lemma ActionFormatNamesActions(id: TextUtils.ActionId)
    ensures Contains(ActionFormat, id.Name())
  {
    var names := QuotedNames(OfferedActions);
    var k := match id
      case GenerateMissingInfo => 0
      case TriggerRiskReview => 1
      case GenerateClientSummary => 2
      case SendToTaxReview => 3;
    assert OfferedActions[k] == id;
    var list := Join(names, ", ");
    ContainsMiddle(FormatIntro, list, "\n");
    JoinHoldsPieces(names, ", ", k);
    ContainsMiddle("'", id.Name(), "'");
    ContainsTransitive(ActionFormat, list, names[k]);
    ContainsTransitive(ActionFormat, names[k], id.Name());
  }
}

=== FILE: project_service.dfy ===
/** Project records: creation, partial update, and the idempotent
    registration of document and task ids, over the store's `projects`
    container. */
module ProjectService {
  import opened Wrappers
  import opened Seqs
  import opened Models
  import opened MockDatabase

  /** Appends `x` unless it is already listed: the list-update step of
      `add_document_to_project`, `add_task_to_project` and
      `add_document_to_task`. */
  function AppendOnce(xs: seq<string>, x: string): (r: seq<string>)
    ensures x in r
    ensures forall y :: y in r <==> y in xs || y == x
    ensures x in xs ==> r == xs
    ensures x !in xs ==> r == xs + [x]
  {
    if x in xs then xs else xs + [x]
  }

  /** Registering the same id twice is registering it once, and a list
      without repeats stays without repeats. */
  lemma AppendOnceIdempotent(xs: seq<string>, x: string)
    ensures AppendOnce(AppendOnce(xs, x), x) == AppendOnce(xs, x)
    ensures Distinct(xs) ==> Distinct(AppendOnce(xs, x))
  {
    if Distinct(xs) && x !in xs {
      var r := xs + [x];
      forall i, j | 0 <= i < j < |r|
        ensures r[i] != r[j]
      {
        if j == |xs| {
          assert r[i] == xs[i];
        } else {
          assert r[i] == xs[i] && r[j] == xs[j];
        }
      }
    }
  }

  /** `create_project`: a project with the id `"proj-" + uid`, where `uid`
      stands for the first eight hex digits of a fresh uuid, stored under
      that id. */
  function CreateProject(db: Store, data: ProjectCreate, uid: string): (r: (Store, Project))
    requires db.Valid()
    ensures r.0.Valid()
    ensures r.1 == Project("proj-" + uid, data.name, data.clients, data.services, [], [])
    ensures GetById(r.0.projects, r.1.projectId) == Some(r.1)
    ensures forall k :: k != r.1.projectId ==> GetById(r.0.projects, k) == GetById(db.projects, k)
    ensures r.0.tasks == db.tasks && r.0.documents == db.documents
  {
    var p := Project("proj-" + uid, data.name, data.clients, data.services, [], []);
    ProjectKey(p);
    (db.(projects := Create(db.projects, p, p.Fields()).value), p)
  }

  /** `update_project`: `None` for an unknown id; otherwise the stored
      project with the update's set fields written over it. */
  function UpdateProject(db: Store, projectId: string, u: ProjectUpdate): (r: (Store, Option<Project>))
    requires db.Valid()
    ensures r.0.Valid()
    ensures r.1.None? <==> projectId !in db.projects.entries
    ensures r.1.None? ==> r.0 == db
    ensures r.1.Some? ==> r.1.value == db.projects.entries[projectId].With(u)
    ensures r.1.Some? ==> GetById(r.0.projects, projectId) == r.1
    ensures forall k :: k != projectId ==> GetById(r.0.projects, k) == GetById(db.projects, k)
    ensures r.0.tasks == db.tasks && r.0.documents == db.documents
  {
    match GetById(db.projects, projectId)
    case None => (db, None)
    case Some(current) =>
      var updated := current.With(u);
      (db.(projects := Update(db.projects, projectId, updated).value), Some(updated))
  }

  /** `add_document_to_project`. */
  function AddDocumentToProject(db: Store, projectId: string, documentId: string): (r: (Store, Option<Project>))
    requires db.Valid()
    ensures r.0.Valid()
    ensures r.1.None? <==> projectId !in db.projects.entries
    ensures r.1.None? ==> r.0 == db
    ensures r.1.Some? ==> r.1.value == db.projects.entries[projectId].(documents := AppendOnce(db.projects.entries[projectId].documents, documentId))
    ensures r.1.Some? ==> GetById(r.0.projects, projectId) == r.1
    ensures forall k :: k != projectId ==> GetById(r.0.projects, k) == GetById(db.projects, k)
    ensures r.0.tasks == db.tasks && r.0.documents == db.documents
  {
    match GetById(db.projects, projectId)
    case None => (db, None)
    case Some(project) =>
      if documentId !in project.documents then
        var updated := project.(documents := project.documents + [documentId]);
        (db.(projects := Update(db.projects, projectId, updated).value), Some(updated))
      else (db, Some(project))
  }

  /** `add_task_to_project`. */
  function AddTaskToProject(db: Store, projectId: string, taskId: string): (r: (Store, Option<Project>))
    requires db.Valid()
    ensures r.0.Valid()
    ensures r.1.None? <==> projectId !in db.projects.entries
    ensures r.1.None? ==> r.0 == db
    ensures r.1.Some? ==> r.1.value == db.projects.entries[projectId].(tasks := AppendOnce(db.projects.entries[projectId].tasks, taskId))
    ensures r.1.Some? ==> GetById(r.0.projects, projectId) == r.1
    ensures forall k :: k != projectId ==> GetById(r.0.projects, k) == GetById(db.projects, k)
    ensures r.0.tasks == db.tasks && r.0.documents == db.documents
  {
    match GetById(db.projects, projectId)
    case None => (db, None)
    case Some(project) =>
      if taskId !in project.tasks then
        var updated := project.(tasks := project.tasks + [taskId]);
        (db.(projects := Update(db.projects, projectId, updated).value), Some(updated))
      else (db, Some(project))
  }

  /** Adding a document to a project a second time changes nothing more,
      and the project's tasks are never touched. */
  lemma AddDocumentToProjectIdempotent(db: Store, projectId: string, documentId: string)
    requires db.Valid()
    ensures var (db1, p1) := AddDocumentToProject(db, projectId, documentId);
      AddDocumentToProject(db1, projectId, documentId) == (db1, p1)
    ensures var p1 := AddDocumentToProject(db, projectId, documentId).1;
      p1.Some? ==> p1.value.tasks == db.projects.entries[projectId].tasks && documentId in p1.value.documents
  {
    var (db1, p1) := AddDocumentToProject(db, projectId, documentId);
    if p1.Some? {
      assert GetById(db1.projects, projectId) == p1;
      AppendOnceIdempotent(db.projects.entries[projectId].documents, documentId);
    }
  }

  /** Adding a task to a project a second time changes nothing more, and
      the project's documents are never touched. */
  lemma AddTaskToProjectIdempotent(db: Store, projectId: string, taskId: string)
    requires db.Valid()
    ensures var (db1, p1) := AddTaskToProject(db, projectId, taskId);
      AddTaskToProject(db1, projectId, taskId) == (db1, p1)
    ensures var p1 := AddTaskToProject(db, projectId, taskId).1;
      p1.Some? ==> p1.value.documents == db.projects.entries[projectId].documents && taskId in p1.value.tasks
  {
    var (db1, p1) := AddTaskToProject(db, projectId, taskId);
    if p1.Some? {
      assert GetById(db1.projects, projectId) == p1;
      AppendOnceIdempotent(db.projects.entries[projectId].tasks, taskId);
    }
  }
}

=== FILE: prompt_builder.dfy ===
/** The two prompts sent to the language model for a chat message: the
    system prompt, which states the task and the actions the assistant may
    suggest, and the user prompt, which carries the question and excerpts
    from the task's first documents.

    Text extraction is the parameter `extract`, from a file name to the
    document's text; the service passes `DocumentParser.ExtractDocumentText`
    with its sample table and Drive client. */
module PromptBuilder {
  import opened Wrappers
  import opened Strings
  import opened Seqs
  import opened Models
  import TextUtils
  import ActionService

  // ---------------------------------------------------------------------------
  // Bulleted lines
  // ---------------------------------------------------------------------------

  /** `line` occurs somewhere in `s` (Python's `line in s`). */
  ghost predicate Shows(s: string, line: string) {
    exists i :: OccursAt(s, line, i)
  }

  /** A text shows whatever a piece of it shows. */
  lemma ShowsIn(pre: string, mid: string, post: string, line: string)
    requires Shows(mid, line)
    ensures Shows(pre + mid + post, line)
  {
    var i :| OccursAt(mid, line, i);
    OccursInMiddle(pre, mid, post, line, i);
  }

  /** A text shows each of its pieces. */
  lemma ShowsPiece(pre: string, mid: string, post: string)
    ensures Shows(pre + mid + post, mid)
  {
    assert mid[0..|mid|] == mid;
    assert OccursAt(mid, mid, 0);
    ShowsIn(pre, mid, post, mid);
  }

  lemma ShowsFront(s: string, post: string)
    ensures Shows(s + post, s)
  {
    assert OccursAt(s + post, s, 0);
  }

  lemma ShowsAfter(pre: string, s: string, line: string)
    requires Shows(s, line)
    ensures Shows(pre + s, line)
  {
    ShowsIn(pre, s, "", line);
    assert pre + s + "" == pre + s;
  }

  lemma ShowsBefore(s: string, post: string, line: string)
    requires Shows(s, line)
    ensures Shows(s + post, line)
  {
    ShowsIn("", s, post, line);
    assert "" + s + post == s + post;
  }

  /** What a piece shows, the whole shows. */
  lemma ShowsTransitive(s: string, mid: string, line: string)
    requires Shows(s, mid) && Shows(mid, line)
    ensures Shows(s, line)
  {
    var i :| OccursAt(s, mid, i);
    var j :| OccursAt(mid, line, j);
    OccursInSlice(s, i, i + |mid|, i + j, |line|);
    assert OccursAt(s, line, i + j);
  }

  /** One `- item` line per item, in order. */
  function Bullets(items: seq<string>): string
    decreases |items|
  {
    if |items| == 0 then "" else "- " + items[0] + "\n" + Bullets(items[1..])
  }

  /** Every item gets its own line. */
  lemma {:induction false} BulletsHoldItems(items: seq<string>, k: nat)
    requires k < |items|
    ensures Shows(Bullets(items), "- " + items[k] + "\n")
    decreases k
  {
    var line := "- " + items[0] + "\n";
    var rest := Bullets(items[1..]);
    if k == 0 {
      ShowsPiece("", line, rest);
      assert "" + line + rest == Bullets(items);
    } else {
      BulletsHoldItems(items[1..], k - 1);
      ShowsAfter(line, rest, "- " + items[k] + "\n");
    }
  }

  // ---------------------------------------------------------------------------
  // The system prompt
  // ---------------------------------------------------------------------------

  const Intro: string :=
    "\nYou are an AI Tax Assistant helping preparers and reviewers complete tax projects. \n"
    + "You have access to project documents, prior year returns, financials, and client information.\n"
    + "\nCurrent context:\n"

  const Instructions: string :=
    "\nWhen providing answers:\n"
    + "1. Reference specific documents when possible\n"
    + "2. Be clear about what information might be missing\n"
    + "3. Suggest appropriate actions when helpful\n"
    + "4. Use professional tax terminology\n"
    + "5. If you suggest an action, format it as \"Action: [action name]\"\n"
    + "\nAvailable actions you can suggest:\n"

  const Closing: string :=
    "\nOnly suggest actions when they are appropriate based on the user's question and task context.\n"

  /** The names of the actions of the action table, in its order. */
  function ActionNames(): (r: seq<string>)
    ensures |r| == |ActionService.Actions|
    ensures forall i :: 0 <= i < |r| ==> r[i] == ActionService.Actions[i].actionName
  {
    seq(|ActionService.Actions|, i requires 0 <= i < |ActionService.Actions| => ActionService.Actions[i].actionName)
  }

  /** A text glued from five pieces holds the second and the fourth. */
  lemma HoldsPieces(a: string, b: string, c: string, d: string, e: string)
    ensures Shows(a + b + c + d + e, b) && Shows(a + b + c + d + e, d)
  {
    ShowsPiece(a, b, c + d + e);
    assert a + b + (c + d + e) == a + b + c + d + e;
    ShowsPiece(a + b + c, d, e);
  }

  function ClientLine(client: string): string {
    "- Client: " + client + "\n"
  }

  /** The task lines of the system prompt; the status is shown by its value. */
  function ContextLines(task: Task): (r: string)
    ensures Shows(r, ClientLine(task.client))
  {
    var taskLine := "- Task: " + task.taskId + " - " + task.status.Value() + "\n";
    var formLines := "- Tax Form: " + task.taxForm + "\n" + "- Assigned to: " + task.assignedTo + "\n";
    ShowsPiece(taskLine, ClientLine(task.client), formLines);
    taskLine + ClientLine(task.client) + formLines
  }

  /** The system prompt of `build_prompt`: it names the task's client and
      lists, one line each, exactly the actions the action service can
      run. */
  function SystemPrompt(task: Task): (r: string)
    ensures Shows(r, ClientLine(task.client))
    ensures forall a :: a in ActionService.Actions ==> Shows(r, "- " + a.actionName + "\n")
  {
    var lines := ContextLines(task);
    var bullets := Bullets(ActionNames());
    var r := Intro + lines + Instructions + bullets + Closing;
    HoldsPieces(Intro, lines, Instructions, bullets, Closing);
    ShowsTransitive(r, lines, ClientLine(task.client));
    forall k | 0 <= k < |ActionService.Actions|
      ensures Shows(r, "- " + ActionService.Actions[k].actionName + "\n")
    {
      BulletsHoldItems(ActionNames(), k);
      ShowsTransitive(r, bullets, "- " + ActionService.Actions[k].actionName + "\n");
    }
    r
  }

  /** The system prompt depends on nothing but the five task fields it
      shows. */
  lemma SystemPromptFields(a: Task, b: Task)
    requires a.taskId == b.taskId && a.status == b.status && a.client == b.client
    requires a.taxForm == b.taxForm && a.assignedTo == b.assignedTo
    ensures SystemPrompt(a) == SystemPrompt(b)
  {
  }

  // ---------------------------------------------------------------------------
  // The document context
  // ---------------------------------------------------------------------------

  /** At most this many documents, and this many excerpts of each, are used. */
  const MaxDocuments: nat := 5
  const MaxExcerpts: nat := 3
  /** The context width passed to `extract_key_info`. */
  const ExcerptContext: nat := 100

  const ContextHeading: string := "\n\nRelevant Document Information:\n"
  const ExcerptsHeading: string := "\nKey excerpts:\n"
  const NoKeyInfo: string := "- No key information found in this document.\n"

  /** The words searched for in each document: the task's client and tax
      form, then five fixed terms. */
  function Keywords(task: Task): (r: seq<string>)
    ensures |r| == 7 && r[0] == task.client && r[1] == task.taxForm
  {
    [task.client, task.taxForm, "tax", "income", "deduction", "credit", "expense"]
  }

  /** The heading line of the `n`-th document (counted from one). */
  function Header(n: nat, name: string): string {
    "\n[Document " + NatToString(n) + ": " + name + "]\n"
  }

  /** The excerpt lines for a document whose key information is `keyInfo`:
      the first three excerpts under a heading, or the single line saying
      there are none. */
  function ExcerptLines(keyInfo: seq<string>): (r: string)
    ensures keyInfo == [] <==> r == NoKeyInfo
    ensures keyInfo != [] ==> StartsWith(r, ExcerptsHeading)
    ensures forall k :: 0 <= k < Min(MaxExcerpts, |keyInfo|) ==> Shows(r, "- " + keyInfo[k] + "\n")
  {
    if keyInfo == [] then NoKeyInfo
    else
      var shown := keyInfo[..Min(MaxExcerpts, |keyInfo|)];
      var r := ExcerptsHeading + Bullets(shown);
      assert r[..|ExcerptsHeading|] == ExcerptsHeading;
      assert r[1] == 'K' != NoKeyInfo[1];
      forall k | 0 <= k < |shown|
        ensures Shows(r, "- " + keyInfo[k] + "\n")
      {
        BulletsHoldItems(shown, k);
        ShowsAfter(ExcerptsHeading, Bullets(shown), "- " + keyInfo[k] + "\n");
      }
      r
  }

  /** Excerpts past the third never reach the prompt. */
  lemma ExcerptLinesFirstThree(keyInfo: seq<string>)
    requires |keyInfo| > MaxExcerpts
    ensures ExcerptLines(keyInfo) == ExcerptLines(keyInfo[..MaxExcerpts])
  {
    assert keyInfo[..MaxExcerpts][..MaxExcerpts] == keyInfo[..MaxExcerpts];
  }

  /** The key information of the document read under `name`. */
  function KeyInfo(task: Task, name: string, extract: string -> string): seq<string> {
    TextUtils.ExtractKeyInfo(extract(name), Keywords(task), ExcerptContext)
  }

  /** A document as its section shows it: its name and key information. */
  datatype Entry = Entry(name: string, keyInfo: seq<string>)

  /** The entry of each document, named and read by its `file_name`. */
  function Entries(task: Task, docs: seq<Document>, extract: string -> string): (r: seq<Entry>)
    ensures |r| == |docs|
    ensures forall i :: 0 <= i < |docs| ==>
      r[i] == Entry(docs[i].fileName, KeyInfo(task, docs[i].fileName, extract))
  {
    seq(|docs|, i requires 0 <= i < |docs| =>
      Entry(docs[i].fileName, KeyInfo(task, docs[i].fileName, extract)))
  }

  /** The section of the `n`-th document. */
  function Section(n: nat, e: Entry): string {
    Header(n, e.name) + ExcerptLines(e.keyInfo)
  }

  /** A document whose text mentions none of the keywords gets the
      no-information line. */
  lemma NoKeywordNoExcerpts(task: Task, n: nat, name: string, extract: string -> string)
    requires var text := extract(name);
      forall k, p :: 0 <= k < 7 && 0 <= p ==> !TextUtils.MatchesAt(text, Keywords(task)[k], p)
    ensures Section(n, Entry(name, KeyInfo(task, name, extract))) == Header(n, name) + NoKeyInfo
  {
    var text := extract(name);
    var keywords := Keywords(task);
    NoMatchNoExcerpts(text, keywords);
  }

  /** A document whose text mentions some keyword gets excerpts. */
  lemma KeywordGivesExcerpts(task: Task, n: nat, name: string, extract: string -> string, k: nat, p: nat)
    requires var text := extract(name);
      text != [] && k < 7 && TextUtils.MatchesAt(text, Keywords(task)[k], p)
    ensures StartsWith(Section(n, Entry(name, KeyInfo(task, name, extract))), Header(n, name) + ExcerptsHeading)
  {
    TextUtils.KeyInfoFound(extract(name), Keywords(task), ExcerptContext, k, p);
    StartsWithAppend(Header(n, name), ExcerptLines(KeyInfo(task, name, extract)), ExcerptsHeading);
  }

  lemma StartsWithAppend(a: string, b: string, c: string)
    requires StartsWith(b, c)
    ensures StartsWith(a + b, a + c)
  {
    assert (a + b)[..|a + c|] == a + b[..|c|];
  }

  /** With no keyword occurring anywhere, there is no key information. */
  lemma {:induction false} NoMatchNoExcerpts(text: string, keywords: seq<string>)
    requires forall k, p :: 0 <= k < |keywords| && 0 <= p ==> !TextUtils.MatchesAt(text, keywords[k], p)
    ensures TextUtils.ExtractKeyInfo(text, keywords, ExcerptContext) == []
  {
    NoMatchNoneFound(text, keywords);
    var r := TextUtils.ExtractKeyInfo(text, keywords, ExcerptContext);
    assert forall x :: multiset(r)[x] == 0;
    assert multiset(r) == multiset{};
  }

  lemma {:induction false} NoMatchNoneFound(text: string, keywords: seq<string>)
    requires forall k, p :: 0 <= k < |keywords| && 0 <= p ==> !TextUtils.MatchesAt(text, keywords[k], p)
    ensures TextUtils.AllExcerpts(text, keywords, ExcerptContext) == []
    decreases |keywords|
  {
    if |keywords| > 0 {
      var ps := TextUtils.KeywordPositions(text, keywords[0], 0);
      if |ps| > 0 {
        FirstPositionMatches(text, keywords[0]);
        assert false;
      }
      NoMatchNoneFound(text, keywords[1..]);
    }
  }

  /** The first position found for a keyword is a match. */
  lemma FirstPositionMatches(text: string, kw: string)
    requires |TextUtils.KeywordPositions(text, kw, 0)| > 0
    ensures TextUtils.MatchesAt(text, kw, TextUtils.KeywordPositions(text, kw, 0)[0])
  {
  }

  /** The sections of `entries`, numbered from one, one after another. */
  function Sections(entries: seq<Entry>): string {
    Join(seq(|entries|, i requires 0 <= i < |entries| => Section(i + 1, entries[i])), "")
  }

  /** A section starts with its heading. */
  lemma SectionShowsHeader(n: nat, e: Entry)
    ensures Shows(Section(n, e), Header(n, e.name))
  {
    ShowsFront(Header(n, e.name), ExcerptLines(e.keyInfo));
  }

  /** The `k`-th entry's section, numbered `k + 1`, is in the sections. */
  lemma SectionsHoldSections(entries: seq<Entry>, k: nat)
    requires k < |entries|
    ensures Shows(Sections(entries), Section(k + 1, entries[k]))
  {
    var parts := seq(|entries|, i requires 0 <= i < |entries| => Section(i + 1, entries[i]));
    JoinHoldsPieces(parts, "", k);
    ContainsIff(Join(parts, ""), parts[k]);
  }

  /** The `k`-th entry's heading, numbered `k + 1`, is in the sections. */
  lemma SectionsHoldHeaders(entries: seq<Entry>, k: nat)
    requires k < |entries|
    ensures Shows(Sections(entries), Header(k + 1, entries[k].name))
  {
    SectionsHoldSections(entries, k);
    SectionShowsHeader(k + 1, entries[k]);
    ShowsTransitive(Sections(entries), Section(k + 1, entries[k]), Header(k + 1, entries[k].name));
  }

  /** The document part of the user prompt for the entries shown: empty
      without entries, else a heading and one numbered section each. */
  function Context(entries: seq<Entry>): (r: string)
    ensures r == "" <==> entries == []
    ensures forall k :: 0 <= k < |entries| ==> Shows(r, Header(k + 1, entries[k].name))
    ensures forall k :: 0 <= k < |entries| ==> Shows(r, Section(k + 1, entries[k]))
  {
    if entries == [] then ""
    else
      var sections := Sections(entries);
      var r := ContextHeading + sections;
      forall k | 0 <= k < |entries|
        ensures Shows(r, Header(k + 1, entries[k].name))
        ensures Shows(r, Section(k + 1, entries[k]))
      {
        SectionsHoldHeaders(entries, k);
        ShowsAfter(ContextHeading, sections, Header(k + 1, entries[k].name));
        SectionsHoldSections(entries, k);
        ShowsAfter(ContextHeading, sections, Section(k + 1, entries[k]));
      }
      r
  }

  /** The document context of `build_prompt`: the first five documents. */
  function DocumentContext(task: Task, docs: seq<Document>, extract: string -> string): (r: string)
    ensures r == "" <==> docs == []
    ensures forall k :: 0 <= k < Min(MaxDocuments, |docs|) ==> Shows(r, Header(k + 1, docs[k].fileName))
    ensures forall k :: 0 <= k < Min(MaxDocuments, |docs|) ==> Shows(r, DocumentSection(k, task, docs, extract))
  {
    var used := docs[..Min(MaxDocuments, |docs|)];
    var entries := Entries(task, used, extract);
    forall k | 0 <= k < |used|
      ensures entries[k].name == docs[k].fileName
      ensures Section(k + 1, entries[k]) == DocumentSection(k, task, docs, extract)
    {
      assert used[k] == docs[k];
    }
    Context(entries)
  }

  /** The section of the `k`-th document, numbered `k + 1`: its heading,
      then its key excerpts or the no-information line. */
  function DocumentSection(k: nat, task: Task, docs: seq<Document>, extract: string -> string): string
    requires k < |docs|
  {
    Section(k + 1, Entry(docs[k].fileName, KeyInfo(task, docs[k].fileName, extract)))
  }

  /** Documents past the fifth never reach the prompt. */
  lemma DocumentContextFirstFive(task: Task, docs: seq<Document>, extract: string -> string)
    requires |docs| > MaxDocuments
    ensures DocumentContext(task, docs, extract) ==
            DocumentContext(task, docs[..MaxDocuments], extract)
  {
    assert docs[..MaxDocuments][..MaxDocuments] == docs[..MaxDocuments];
  }

  // ---------------------------------------------------------------------------
  // The user prompt and build_prompt
  // ---------------------------------------------------------------------------

  const QuestionLead: string := "\nUser Question: "
  const Request: string := "\n\nPlease provide a helpful response based on the available information.\n"

  /** The user prompt: the question first, the document context, then the
      closing request. */
  function UserPrompt(message: string, documentContext: string): (r: string)
    ensures StartsWith(r, QuestionLead + message + "\n\n")
    ensures EndsWith(r, Request)
    ensures Shows(r, documentContext)
  {
    var lead := QuestionLead + message + "\n\n";
    var r := lead + documentContext + Request;
    assert r[..|lead|] == lead;
    assert r[|r| - |Request|..] == Request;
    ShowsPiece(lead, documentContext, Request);
    r
  }

  /** The user prompt of `build_prompt`, reading each document's name from
      `file_name`, the field documents have: the question, then the
      heading of each of the first five documents. */
  function UserPromptFor(message: string, task: Task, docs: seq<Document>, extract: string -> string): (r: string)
    ensures StartsWith(r, QuestionLead + message + "\n\n")
    ensures docs == [] ==> r == UserPrompt(message, "")
    ensures forall k :: 0 <= k < Min(MaxDocuments, |docs|) ==> Shows(r, Header(k + 1, docs[k].fileName))
    ensures forall k :: 0 <= k < Min(MaxDocuments, |docs|) ==> Shows(r, DocumentSection(k, task, docs, extract))
  {
    var documentContext := DocumentContext(task, docs, extract);
    var r := UserPrompt(message, documentContext);
    forall k | 0 <= k < Min(MaxDocuments, |docs|)
      ensures Shows(r, Header(k + 1, docs[k].fileName))
      ensures Shows(r, DocumentSection(k, task, docs, extract))
    {
      ShowsTransitive(r, documentContext, Header(k + 1, docs[k].fileName));
      ShowsTransitive(r, documentContext, DocumentSection(k, task, docs, extract));
    }
    r
  }

  /** `build_prompt`: the system prompt and the user prompt. */
  function BuildPrompt(message: string, task: Task, docs: seq<Document>, extract: string -> string): (string, string) {
    (SystemPrompt(task), UserPromptFor(message, task, docs, extract))
  }

  /** The `AttributeError` the loop raises on its first document: documents
      have `file_name`, not `filename`. The chat route passes the `Document`
      records that `get_documents_for_task` returns, so the message names
      that class. */
  const NoFilename: string := "'Document' object has no attribute 'filename'"

  /** The user prompt as written: the loop reads `doc.filename`, which
      documents do not have, so any document makes `build_prompt` raise. */
  function UserPromptAsWritten(message: string, task: Task, docs: seq<Document>,
                               extract: string -> string): (r: Result<string, string>)
    ensures r.Failure? <==> docs != []
    ensures r.Failure? ==> r.error == NoFilename
  {
    if docs == [] then Success(UserPrompt(message, "")) else Failure(NoFilename)
  }

  /** `build_prompt` as written. */
  function BuildPromptAsWritten(message: string, task: Task, docs: seq<Document>,
                                extract: string -> string): Result<(string, string), string> {
    match UserPromptAsWritten(message, task, docs, extract)
    case Failure(e) => Failure(e)
    case Success(user) => Success((SystemPrompt(task), user))
  }

  /** As written and corrected agree exactly when there are no documents:
      the defect hides whenever a task has none. */
  lemma AsWrittenAgreesWithoutDocuments(message: string, task: Task, docs: seq<Document>,
                                        extract: string -> string)
    ensures UserPromptAsWritten(message, task, docs, extract) == Success(UserPromptFor(message, task, docs, extract))
            <==> docs == []
  {
  }
}

=== FILE: py_dict.dfy ===
/** Python's `dict` with string keys, keeping insertion order: assigning to
    an existing key keeps its position, a new key goes to the end, and
    `del` removes the key from the order. The mock stores iterate their
    dicts (`values()`) and count them (`len`), so the order is part of
    their observable behaviour. */
module PyDict {
  import opened Wrappers
  import Seqs

  datatype Dict<V> = Dict(order: seq<string>, entries: map<string, V>) {

    /** The key order lists each stored key exactly once. */
    ghost predicate Valid() {
      && (forall i, j :: 0 <= i < j < |order| ==> order[i] != order[j])
      && (forall k :: k in entries <==> k in order)
    }

    /** `len(d)`. */
    function Size(): nat {
      |order|
    }

    /** `d.get(k)`. */
    function Get(k: string): Option<V> {
      if k in entries then Some(entries[k]) else None
    }

    /** `d[k] = v`. */
    function Put(k: string, v: V): (d: Dict<V>)
      requires Valid()
      ensures d.Valid()
      ensures d.Get(k) == Some(v)
      ensures forall k' :: k' != k ==> d.Get(k') == Get(k')
      ensures d.Size() == if k in entries then Size() else Size() + 1
      ensures k in entries ==> d.order == order
      ensures k !in entries ==> d.order == order + [k]
    {
      if k in entries then Dict(order, entries[k := v]) else Dict(order + [k], entries[k := v])
    }

    /** `del d[k]` when `k` is present, nothing otherwise. */
    function Remove(k: string): (d: Dict<V>)
      requires Valid()
      ensures d.Valid()
      ensures d.Get(k) == None
      ensures forall k' :: k' != k ==> d.Get(k') == Get(k')
      ensures k !in entries ==> d == this
    {
      if k in entries then Dict(Without(order, k), entries - {k}) else this
    }

    /** `{k: v for k, v in d.items() if keep(k)}`: the entries whose key
        passes, in the order they had. */
    function Restrict(keep: string -> bool): (d: Dict<V>)
      requires Valid()
      ensures d.Valid()
      ensures forall k :: d.Get(k) == if keep(k) then Get(k) else None
      ensures d.order == Seqs.Filter(order, keep)
    {
      Seqs.FilterDistinct(order, keep);
      Dict(Seqs.Filter(order, keep), map k | k in entries && keep(k) :: entries[k])
    }

    /** `list(d.values())`, in insertion order. */
    function Values(): (vs: seq<V>)
      requires Valid()
      ensures |vs| == Size()
      ensures forall i :: 0 <= i < |vs| ==> order[i] in entries && vs[i] == entries[order[i]]
    {
      seq(|order|, i requires 0 <= i < |order| => entries[order[i]])
    }
  }

  function Empty<V>(): (d: Dict<V>)
    ensures d.Valid() && d.Size() == 0
  {
    Dict([], map[])
  }

  /** The dict `{keys[0]: vals[0], keys[1]: vals[1], ...}` for distinct keys. */
  function FromPairs<V>(keys: seq<string>, vals: seq<V>): (d: Dict<V>)
    requires |keys| == |vals|
    requires forall i, j :: 0 <= i < j < |keys| ==> keys[i] != keys[j]
    ensures d.Valid() && d.Size() == |keys| && d.order == keys
    ensures forall i :: 0 <= i < |keys| ==> d.Get(keys[i]) == Some(vals[i])
  {
    Dict(keys, map i | 0 <= i < |keys| :: keys[i] := vals[i])
  }

  /** The key order with `k` taken out. */
  function Without(ks: seq<string>, k: string): (r: seq<string>)
    ensures forall x :: x in r <==> x in ks && x != k
    ensures (forall i, j :: 0 <= i < j < |ks| ==> ks[i] != ks[j]) ==>
      (forall i, j :: 0 <= i < j < |r| ==> r[i] != r[j])
    decreases |ks|
  {
    if |ks| == 0 then []
    else if ks[0] == k then Without(ks[1..], k)
    else
      var rest := Without(ks[1..], k);
      assert (forall i, j :: 0 <= i < j < |ks| ==> ks[i] != ks[j]) ==> ks[0] !in rest by {
        if forall i, j :: 0 <= i < j < |ks| ==> ks[i] != ks[j] {
          forall j | 0 <= j < |ks[1..]| ensures ks[1..][j] != ks[0] {
            assert ks[1..][j] == ks[j + 1];
          }
        }
      }
      [ks[0]] + rest
  }

  /** Every stored value is one of `values()`, and every one of `values()`
      is stored under some key. */
  lemma ValuesAreEntries<V>(d: Dict<V>)
    requires d.Valid()
    ensures forall k :: k in d.entries ==> d.entries[k] in d.Values()
    ensures forall v :: v in d.Values() ==> exists k :: k in d.entries && d.entries[k] == v
  {
    forall k | k in d.entries
      ensures d.entries[k] in d.Values()
    {
      var i :| 0 <= i < |d.order| && d.order[i] == k;
      assert d.Values()[i] == d.entries[k];
    }
  }
}

=== FILE: rag_service.dfy ===
/** Context retrieval for the assistant: the document snippets that fit a
    token budget, the keyword search over document chunks, and the task
    context that gathers a task, its project and its snippets.

    Text extraction is the parameter `extract` (a document's text, or the
    message of the exception the attempt raised), and the chunks of a
    document are the parameter `chunksOf`. */
module RagService {
  import opened Wrappers
  import opened Strings
  import opened Seqs
  import opened Models
  import opened MockDatabase
  import DocumentService
  import DocumentParser

  /** The entry `_get_document_snippets` makes for one document. */
  datatype Snippet = Snippet(docId: string, fileName: string, fileType: string, text: string)

  /** Characters per estimated token. */
  const TokenFactor: nat := 4

  const Marker: string := "... [truncated due to length]"

  /** The snippet text of a document whose extraction is `e`, uncut. */
  function FullText(e: Result<string, string>): string {
    match e
    case Success(text) => text
    case Failure(message) => DocumentParser.ExtractionError(message)
  }

  function SnippetOf(doc: Document, text: string): Snippet {
    Snippet(doc.docId, doc.fileName, doc.fileType, text)
  }

  /** A document with the outcome of extracting its text. */
  datatype Extracted = Extracted(doc: Document, text: Result<string, string>)

  /** Each document with its extraction; extraction has no effect the
      loop could observe, so the outcomes may be taken up front. */
  function Extractions(docs: seq<Document>, extract: Document -> Result<string, string>): (r: seq<Extracted>)
    ensures |r| == |docs|
    ensures forall i :: 0 <= i < |docs| ==> r[i] == Extracted(docs[i], extract(docs[i]))
  {
    seq(|docs|, i requires 0 <= i < |docs| => Extracted(docs[i], extract(docs[i])))
  }

  /** `s` is a leading part of `text` followed by the truncation marker. */
  ghost predicate CutOf(s: string, text: string) {
    && |Marker| <= |s| <= |text| + |Marker|
    && s[..|s| - |Marker|] == text[..|s| - |Marker|]
    && s[|s| - |Marker|..] == Marker
  }

  /** One pass of the loop body once `current` tokens are spent: the
      snippet text of a document whose extraction is `e`, and the tokens it
      is charged. */
  function Charge(e: Result<string, string>, maxTokens: int, current: int): (string, int) {
    match e
    case Failure(message) => (DocumentParser.ExtractionError(message), 0)
    case Success(text) =>
      var docTokens := |text| / TokenFactor;
      if current + docTokens > maxTokens then
        (PyPrefix(text, (maxTokens - current) * TokenFactor) + Marker, maxTokens - current)
      else (text, docTokens)
  }

  /** A text whose estimate would pass `maxTokens` is cut to the
      characters the remaining tokens allow, marked, and charged exactly
      the remainder; one that fits is kept whole and charged its estimate;
      a failed extraction is charged nothing. */
  lemma ChargeSpec(e: Result<string, string>, maxTokens: int, current: int)
    ensures var r := Charge(e, maxTokens, current);
      && (e.Failure? ==> r == (FullText(e), 0))
      && (e.Success? ==> r.1 == Min(|e.value| / TokenFactor, maxTokens - current))
      && (r.0 == FullText(e) || (e.Success? && CutOf(r.0, e.value) && current + r.1 == maxTokens))
      && (e.Success? && current + |e.value| / TokenFactor <= maxTokens ==> r.0 == e.value)
      && (e.Success? && current <= maxTokens && current + |e.value| / TokenFactor > maxTokens ==>
            |r.0| == (maxTokens - current) * TokenFactor + |Marker|)
  {
    if e.Success? && current + |e.value| / TokenFactor > maxTokens {
      var cut := PyPrefix(e.value, (maxTokens - current) * TokenFactor);
      assert (cut + Marker)[..|cut|] == cut;
      assert (cut + Marker)[|cut|..] == Marker;
    }
  }

  /** Whether the loop breaks after the document whose extraction is `e`:
      only a successful extraction that brings the count to the budget. */
  predicate Stops(e: Result<string, string>, maxTokens: int, current: int) {
    e.Success? && current + Charge(e, maxTokens, current).1 >= maxTokens
  }

  /** A document whose text is cut stops the loop. */
  lemma CutStops(e: Result<string, string>, maxTokens: int, current: int)
    requires Charge(e, maxTokens, current).0 != FullText(e)
    ensures Stops(e, maxTokens, current)
  {
    ChargeSpec(e, maxTokens, current);
  }

  /** The loop of `_get_document_snippets` over `items` once `current`
      tokens are spent: the snippets it appends and the final count. */
  function SnippetsFrom(items: seq<Extracted>, maxTokens: int, current: int): (seq<Snippet>, int)
    decreases |items|
  {
    if |items| == 0 then ([], current)
    else
      var c := Charge(items[0].text, maxTokens, current);
      var snippet := SnippetOf(items[0].doc, c.0);
      if Stops(items[0].text, maxTokens, current) then ([snippet], current + c.1)
      else
        var rest := SnippetsFrom(items[1..], maxTokens, current + c.1);
        ([snippet] + rest.0, rest.1)
  }

  /** The count after the first item, when the loop goes on. */
  function Next(items: seq<Extracted>, maxTokens: int, current: int): int
    requires |items| > 0
  {
    current + Charge(items[0].text, maxTokens, current).1
  }

  /** Past an item that does not stop the loop, the loop goes on over the
      remaining items with its charge added. */
  lemma SnippetsCons(items: seq<Extracted>, maxTokens: int, current: int)
    requires |items| > 0 && !Stops(items[0].text, maxTokens, current)
    ensures var c := Charge(items[0].text, maxTokens, current);
      var rest := SnippetsFrom(items[1..], maxTokens, current + c.1);
      Next(items, maxTokens, current) == current + c.1 &&
      SnippetsFrom(items, maxTokens, current) == ([SnippetOf(items[0].doc, c.0)] + rest.0, rest.1)
  {
  }

  /** An item that stops the loop gets the last snippet. */
  lemma SnippetsStop(items: seq<Extracted>, maxTokens: int, current: int)
    requires |items| > 0 && Stops(items[0].text, maxTokens, current)
    ensures var c := Charge(items[0].text, maxTokens, current);
      SnippetsFrom(items, maxTokens, current) == ([SnippetOf(items[0].doc, c.0)], current + c.1)
  {
  }

  /** The estimated tokens of the texts that extract, in full. */
  function TotalTokens(items: seq<Extracted>): nat
    decreases |items|
  {
    if |items| == 0 then 0
    else (if items[0].text.Success? then |items[0].text.value| / TokenFactor else 0) + TotalTokens(items[1..])
  }

  /** Starting within the budget, the count never passes it and never
      goes down. */
  lemma {:induction false} CounterWithinBudget(items: seq<Extracted>, maxTokens: int, current: int)
    requires current <= maxTokens
    ensures current <= SnippetsFrom(items, maxTokens, current).1 <= maxTokens
    decreases |items|
  {
    if |items| > 0 && !Stops(items[0].text, maxTokens, current) {
      ChargeSpec(items[0].text, maxTokens, current);
      CounterWithinBudget(items[1..], maxTokens, Next(items, maxTokens, current));
    }
  }

  /** At most one snippet per document. */
  lemma {:induction false} SnippetsAtMostDocuments(items: seq<Extracted>, maxTokens: int, current: int)
    ensures |SnippetsFrom(items, maxTokens, current).0| <= |items|
    decreases |items|
  {
    if |items| > 0 && !Stops(items[0].text, maxTokens, current) {
      SnippetsCons(items, maxTokens, current);
      SnippetsAtMostDocuments(items[1..], maxTokens, Next(items, maxTokens, current));
    }
  }

  /** The `i`-th snippet belongs to the `i`-th document: the snippets are
      those of a prefix of the documents, in order, each carrying its
      document's id, name and type. */
  lemma {:induction false} SnippetFollowsDocument(items: seq<Extracted>, maxTokens: int, current: int, i: nat)
    requires i < |SnippetsFrom(items, maxTokens, current).0|
    ensures i < |items|
    ensures var s := SnippetsFrom(items, maxTokens, current).0[i];
      s.docId == items[i].doc.docId && s.fileName == items[i].doc.fileName && s.fileType == items[i].doc.fileType
    decreases i
  {
    if i > 0 {
      SnippetsCons(items, maxTokens, current);
      SnippetFollowsDocument(items[1..], maxTokens, Next(items, maxTokens, current), i - 1);
    }
  }

  /** Documents are left out only once the budget is reached. */
  lemma {:induction false} StopsOnlyAtBudget(items: seq<Extracted>, maxTokens: int, current: int)
    ensures var r := SnippetsFrom(items, maxTokens, current);
      |r.0| < |items| ==> r.1 >= maxTokens
    decreases |items|
  {
    if |items| > 0 && !Stops(items[0].text, maxTokens, current) {
      SnippetsCons(items, maxTokens, current);
      StopsOnlyAtBudget(items[1..], maxTokens, Next(items, maxTokens, current));
    }
  }

  /** Only the last snippet can be cut: a snippet that is not its
      document's whole text (or error text) is the last one, a cut of the
      extracted text, and leaves the count at the budget. */
  lemma {:induction false} OnlyLastIsCut(items: seq<Extracted>, maxTokens: int, current: int, i: nat)
    requires i < |SnippetsFrom(items, maxTokens, current).0| && i < |items|
    requires SnippetsFrom(items, maxTokens, current).0[i].text != FullText(items[i].text)
    ensures var r := SnippetsFrom(items, maxTokens, current);
      && i == |r.0| - 1
      && items[i].text.Success?
      && CutOf(r.0[i].text, items[i].text.value)
      && r.1 == maxTokens
    decreases i
  {
    var e := items[0].text;
    ChargeSpec(e, maxTokens, current);
    if Charge(e, maxTokens, current).0 != FullText(e) {
      CutStops(e, maxTokens, current);
    }
    if Stops(e, maxTokens, current) {
      SnippetsStop(items, maxTokens, current);
    } else {
      SnippetsCons(items, maxTokens, current);
      assert items[1..][i - 1] == items[i];
      OnlyLastIsCut(items[1..], maxTokens, Next(items, maxTokens, current), i - 1);
    }
  }

  /** The cut snippet keeps exactly as many characters as the tokens left
      after the documents before it allow, four to a token, followed by
      the marker. */
  lemma {:induction false} CutKeepsRemainder(items: seq<Extracted>, maxTokens: int, current: int, i: nat)
    requires current <= maxTokens
    requires i < |SnippetsFrom(items, maxTokens, current).0| && i < |items|
    requires SnippetsFrom(items, maxTokens, current).0[i].text != FullText(items[i].text)
    ensures |SnippetsFrom(items, maxTokens, current).0[i].text|
      == (maxTokens - SnippetsFrom(items[..i], maxTokens, current).1) * TokenFactor + |Marker|
    decreases i
  {
    var e := items[0].text;
    ChargeSpec(e, maxTokens, current);
    if Charge(e, maxTokens, current).0 != FullText(e) {
      CutStops(e, maxTokens, current);
    }
    if Stops(e, maxTokens, current) {
      SnippetsStop(items, maxTokens, current);
      assert items[..i] == [];
    } else {
      SnippetsCons(items, maxTokens, current);
      assert items[1..][i - 1] == items[i];
      CutKeepsRemainder(items[1..], maxTokens, Next(items, maxTokens, current), i - 1);
      PrefixCountCons(items, maxTokens, current, i);
    }
  }

  /** The count after the first `i` items, when the first does not stop
      the loop, is the count after the next `i - 1` from its charge on. */
  lemma PrefixCountCons(items: seq<Extracted>, maxTokens: int, current: int, i: nat)
    requires 0 < i <= |items| && !Stops(items[0].text, maxTokens, current)
    ensures SnippetsFrom(items[..i], maxTokens, current).1
      == SnippetsFrom(items[1..][..i - 1], maxTokens, Next(items, maxTokens, current)).1
  {
    assert items[..i][0] == items[0];
    SnippetsCons(items[..i], maxTokens, current);
    assert items[..i][1..] == items[1..][..i - 1];
  }

  /** When the texts' whole estimate stays under the budget, every
      document gets a snippet and the count grows by that estimate. */
  lemma {:induction false} AllFit(items: seq<Extracted>, maxTokens: int, current: int)
    requires current + TotalTokens(items) < maxTokens
    ensures var r := SnippetsFrom(items, maxTokens, current);
      |r.0| == |items| && r.1 == current + TotalTokens(items)
    decreases |items|
  {
    if |items| > 0 {
      ChargeSpec(items[0].text, maxTokens, current);
      SnippetsCons(items, maxTokens, current);
      AllFit(items[1..], maxTokens, Next(items, maxTokens, current));
    }
  }

  /** ... and each snippet is its document's whole text (or error text). */
  lemma {:induction false} AllFitWhole(items: seq<Extracted>, maxTokens: int, current: int, i: nat)
    requires current + TotalTokens(items) < maxTokens
    requires i < |items|
    ensures i < |SnippetsFrom(items, maxTokens, current).0|
    ensures SnippetsFrom(items, maxTokens, current).0[i] == SnippetOf(items[i].doc, FullText(items[i].text))
    decreases i
  {
    ChargeSpec(items[0].text, maxTokens, current);
    SnippetsCons(items, maxTokens, current);
    AllFit(items[1..], maxTokens, Next(items, maxTokens, current));
    if i > 0 {
      assert items[1..][i - 1] == items[i];
      AllFitWhole(items[1..], maxTokens, Next(items, maxTokens, current), i - 1);
    }
  }

  /** Failed extractions are charged nothing and never stop the loop: when
      every extraction fails, whatever the budget, each document gets its
      error snippet and the count does not move. */
  lemma {:induction false} FailuresSpendNothing(items: seq<Extracted>, maxTokens: int, current: int)
    requires forall i :: 0 <= i < |items| ==> items[i].text.Failure?
    ensures var r := SnippetsFrom(items, maxTokens, current);
      && |r.0| == |items|
      && (forall i :: 0 <= i < |items| ==>
            r.0[i] == SnippetOf(items[i].doc, DocumentParser.ExtractionError(items[i].text.error)))
      && r.1 == current
    decreases |items|
  {
    if |items| > 0 {
      assert items[0].text.Failure?;
      SnippetsCons(items, maxTokens, current);
      FailuresSpendNothing(items[1..], maxTokens, current);
      assert forall i :: 1 <= i < |items| ==> items[i] == items[1..][i - 1];
    }
  }

  /** `_get_document_snippets`: the snippets from a zero count. */
  function GetDocumentSnippets(docs: seq<Document>, maxTokens: int,
                               extract: Document -> Result<string, string>): (r: seq<Snippet>)
    ensures |r| <= |docs|
    ensures r == SnippetsFrom(Extractions(docs, extract), maxTokens, 0).0
    ensures 0 <= maxTokens ==> 0 <= SnippetsFrom(Extractions(docs, extract), maxTokens, 0).1 <= maxTokens
    ensures |r| < |docs| ==> SnippetsFrom(Extractions(docs, extract), maxTokens, 0).1 >= maxTokens
  {
    var items := Extractions(docs, extract);
    SnippetsAtMostDocuments(items, maxTokens, 0);
    StopsOnlyAtBudget(items, maxTokens, 0);
    if 0 <= maxTokens then CounterWithinBudget(items, maxTokens, 0); SnippetsFrom(items, maxTokens, 0).0
    else SnippetsFrom(items, maxTokens, 0).0
  }

  // ---------------------------------------------------------------------------
  // search_documents
  // ---------------------------------------------------------------------------

  /** One search result: a chunk of a document with its score. */
  datatype Hit = Hit(docId: string, fileName: string, fileType: string, text: string, score: nat, chunkIdx: nat)

  /** The occurrences of the query terms in the lower-cased chunk, summed
      over the terms. */
  function Score(chunk: string, terms: seq<string>): nat
    decreases |terms|
  {
    if |terms| == 0 then 0 else Count(Lower(chunk), terms[0]) + Score(chunk, terms[1..])
  }

  /** A chunk scores above zero exactly when it contains one of the terms. */
  lemma {:induction false} ScorePositiveIff(chunk: string, terms: seq<string>)
    ensures Score(chunk, terms) > 0 <==> exists i :: 0 <= i < |terms| && Contains(Lower(chunk), terms[i])
    decreases |terms|
  {
    if |terms| > 0 {
      ScorePositiveIff(chunk, terms[1..]);
      assert forall i :: 1 <= i < |terms| ==> terms[i] == terms[1..][i - 1];
    }
  }

  predicate Relevant(h: Hit) {
    h.score > 0
  }

  /** The scored `i`-th chunk of a document. */
  function ChunkHit(doc: Document, chunks: seq<string>, terms: seq<string>, i: nat): Hit
    requires i < |chunks|
  {
    Hit(doc.docId, doc.fileName, doc.fileType, chunks[i], Score(chunks[i], terms), i)
  }

  /** The relevant chunks of one document, numbered from 0 in chunk order. */
  function DocumentHits(doc: Document, chunks: seq<string>, terms: seq<string>): (r: seq<Hit>)
    ensures forall h :: h in r ==> h.score > 0 && exists i :: 0 <= i < |chunks| && h == ChunkHit(doc, chunks, terms, i)
    ensures forall i :: 0 <= i < |chunks| && Score(chunks[i], terms) > 0 ==> ChunkHit(doc, chunks, terms, i) in r
  {
    var all := seq(|chunks|, i requires 0 <= i < |chunks| => ChunkHit(doc, chunks, terms, i));
    var r := Filter(all, Relevant);
    assert forall i :: 0 <= i < |chunks| ==> all[i] == ChunkHit(doc, chunks, terms, i);
    r
  }

  /** The relevant chunks of the documents, in document and chunk order. */
  function AllHits(docs: seq<Document>, chunksOf: Document -> seq<string>, terms: seq<string>): seq<Hit>
    decreases |docs|
  {
    if |docs| == 0 then [] else DocumentHits(docs[0], chunksOf(docs[0]), terms) + AllHits(docs[1..], chunksOf, terms)
  }

  /** Every hit is a relevant chunk of one of the documents. */
  lemma {:induction false} AllHitsRelevant(docs: seq<Document>, chunksOf: Document -> seq<string>,
                                           terms: seq<string>, h: Hit)
    requires h in AllHits(docs, chunksOf, terms)
    ensures h.score > 0
    ensures exists d, i :: d in docs && 0 <= i < |chunksOf(d)| && h == ChunkHit(d, chunksOf(d), terms, i)
    decreases |docs|
  {
    var first := DocumentHits(docs[0], chunksOf(docs[0]), terms);
    if h !in first {
      Seqs.InEither(first, AllHits(docs[1..], chunksOf, terms), h);
      AllHitsRelevant(docs[1..], chunksOf, terms, h);
      var d, i :| d in docs[1..] && 0 <= i < |chunksOf(d)| && h == ChunkHit(d, chunksOf(d), terms, i);
      assert d in docs;
    }
  }

  /** Every relevant chunk of every document is a hit. */
  lemma {:induction false} AllHitsComplete(docs: seq<Document>, chunksOf: Document -> seq<string>,
                                           terms: seq<string>, k: nat, i: nat)
    requires k < |docs| && i < |chunksOf(docs[k])| && Score(chunksOf(docs[k])[i], terms) > 0
    ensures ChunkHit(docs[k], chunksOf(docs[k]), terms, i) in AllHits(docs, chunksOf, terms)
    decreases k
  {
    if k > 0 {
      AllHitsComplete(docs[1..], chunksOf, terms, k - 1, i);
      assert docs[1..][k - 1] == docs[k];
    }
  }

  /** The ranking key: higher scores first. */
  function RankKey(h: Hit): int {
    -(h.score as int)
  }

  /** The first `maxResults` hits by descending score, ties kept in the
      order found (Python's sort is stable, also with `reverse=True`). */
  function Rank(hits: seq<Hit>, maxResults: int): (r: seq<Hit>)
    ensures 0 <= maxResults ==> |r| == Min(maxResults, |hits|)
    ensures forall i :: 0 <= i < |r| ==> r[i] in hits
    ensures forall i, j :: 0 <= i < j < |r| ==> r[i].score >= r[j].score
  {
    var sorted := SortBy(hits, RankKey);
    assert |sorted| == |hits| by {
      assert |multiset(sorted)| == |multiset(hits)|;
    }
    var r := PyPrefix(sorted, maxResults);
    forall i | 0 <= i < |r|
      ensures r[i] in hits
    {
      assert r[i] == sorted[i];
      assert sorted[i] in multiset(sorted);
    }
    forall i, j | 0 <= i < j < |r|
      ensures r[i].score >= r[j].score
    {
      assert RankKey(sorted[i]) <= RankKey(sorted[j]);
    }
    r
  }

  /** The ranking is the leading part of the stable sort. */
  lemma RankIsSortedPrefix(hits: seq<Hit>, maxResults: int)
    ensures |Rank(hits, maxResults)| <= |SortBy(hits, RankKey)|
    ensures Rank(hits, maxResults) == SortBy(hits, RankKey)[..|Rank(hits, maxResults)|]
  {
  }

  /** The ranking is a top-k: every hit left out scores no higher than any
      hit kept. */
  lemma RankIsTopK(hits: seq<Hit>, maxResults: int, h: Hit)
    requires h in hits && h !in Rank(hits, maxResults)
    ensures forall i :: 0 <= i < |Rank(hits, maxResults)| ==> Rank(hits, maxResults)[i].score >= h.score
  {
    var sorted := SortBy(hits, RankKey);
    var r := Rank(hits, maxResults);
    assert r == sorted[..|r|];
    assert h in multiset(sorted);
    var j :| 0 <= j < |sorted| && sorted[j] == h;
    assert forall k :: 0 <= k < |r| ==> r[k] == sorted[k];
    assert j >= |r|;
    forall i | 0 <= i < |r|
      ensures r[i].score >= h.score
    {
      assert RankKey(sorted[i]) <= RankKey(sorted[j]);
    }
  }

  /** Among hits of equal score the ranking keeps the order they were
      found in: the kept hits of any one score lead that score's hits. */
  lemma RankKeepsTieOrder(hits: seq<Hit>, maxResults: int, score: nat)
    ensures var tied := WithKey(Rank(hits, maxResults), RankKey, -(score as int));
      var all := WithKey(hits, RankKey, -(score as int));
      |tied| <= |all| && tied == all[..|tied|]
  {
    var k := -(score as int);
    var r := Rank(hits, maxResults);
    RankIsSortedPrefix(hits, maxResults);
    var p := SortBy(hits, RankKey)[..|r|];
    assert r == p;
    SortedPrefixTies(hits, |r|, RankKey, k);
    var tied := WithKey(r, RankKey, k);
    assert tied == WithKey(p, RankKey, k);
    var all := WithKey(hits, RankKey, k);
    assert |tied| <= |all| && tied == all[..|tied|];
  }

  /** `search_documents` on the documents the id lookup returns: the query
      is lower-cased and split on whitespace, every chunk of every document
      is scored, and the relevant chunks are ranked. */
  function SearchDocuments(db: Store, query: string, docIds: seq<string>, maxResults: int,
                           chunksOf: Document -> seq<string>): (r: seq<Hit>)
    requires db.Valid()
    ensures docIds == [] ==> r == []
    ensures forall h :: h in r ==>
              h in AllHits(DocumentService.GetDocumentsByIds(db, docIds), chunksOf, SplitWhitespace(Lower(query)))
    ensures 0 <= maxResults ==>
              |r| == Min(maxResults, |AllHits(DocumentService.GetDocumentsByIds(db, docIds), chunksOf, SplitWhitespace(Lower(query)))|)
    ensures forall i, j :: 0 <= i < j < |r| ==> r[i].score >= r[j].score
    ensures r == Rank(AllHits(DocumentService.GetDocumentsByIds(db, docIds), chunksOf, SplitWhitespace(Lower(query))), maxResults)
  {
    var hits := AllHits(DocumentService.GetDocumentsByIds(db, docIds), chunksOf, SplitWhitespace(Lower(query)));
    var r := Rank(hits, maxResults);
    forall h | h in r
      ensures h in hits
    {
      assert h in multiset(SortBy(hits, RankKey));
    }
    r
  }

  // ---------------------------------------------------------------------------
  // get_task_context
  // ---------------------------------------------------------------------------

  datatype TaskSummary = TaskSummary(
    taskId: string,
    description: Option<string>,
    assignedTo: string,
    status: TaskStatus,
    taxForm: string,
    client: string)

  datatype ProjectSummary = ProjectSummary(projectId: string, name: string, clients: seq<string>,
                                           services: seq<string>)

  /** What `get_task_context` produces: the `{"error": ...}` dict, an
      exception's message, or the assembled context. */
  datatype TaskContext =
    | NotFound(error: string)
    | Raised(error: string)
    | Context(task: TaskSummary, project: ProjectSummary, documents: seq<Snippet>)

  /** The message of calling `extract_document_text(doc.doc_id)`, which
      lacks the required `filename` argument. */
  const MissingFilename: string := "extract_document_text() missing 1 required positional argument: 'filename'"

  /** Extraction as `_get_document_snippets` calls it: with the id only,
      so every call raises. */
  function AsWrittenExtract(doc: Document): Result<string, string> {
    Failure(MissingFilename)
  }

  /** Extraction with the document's file name, as the parser expects. */
  function FileNameExtract(samples: map<string, string>, driveClient: Result<(), string>,
                           doc: Document): (r: Result<string, string>)
    ensures r.Success?
    ensures doc.fileName in samples ==> r.value == samples[doc.fileName]
  {
    Success(DocumentParser.ExtractDocumentText(samples, driveClient, doc.fileName))
  }

  /** As written, every snippet is the error text of the missing argument
      and no budget is spent, whatever the documents and the budget. */
  lemma AsWrittenSnippetsAreErrors(docs: seq<Document>, maxTokens: int)
    ensures var s := GetDocumentSnippets(docs, maxTokens, AsWrittenExtract);
      && |s| == |docs|
      && forall i :: 0 <= i < |s| ==>
           s[i] == SnippetOf(docs[i], DocumentParser.ExtractionError(MissingFilename))
  {
    FailuresSpendNothing(Extractions(docs, AsWrittenExtract), maxTokens, 0);
  }

  /** With the file name passed, no extraction fails, so the snippets that
      fit are the documents' extracted texts. */
  lemma FileNameSnippetsAreTexts(samples: map<string, string>, driveClient: Result<(), string>,
                                 docs: seq<Document>, maxTokens: int, i: nat)
    requires i < |GetDocumentSnippets(docs, maxTokens, d => FileNameExtract(samples, driveClient, d))|
    ensures i < |docs|
    ensures var s := GetDocumentSnippets(docs, maxTokens, d => FileNameExtract(samples, driveClient, d))[i];
      var text := DocumentParser.ExtractDocumentText(samples, driveClient, docs[i].fileName);
      s.text == text || CutOf(s.text, text)
  {
    var items := Extractions(docs, d => FileNameExtract(samples, driveClient, d));
    SnippetsAtMostDocuments(items, maxTokens, 0);
    if SnippetsFrom(items, maxTokens, 0).0[i].text != FullText(items[i].text) {
      OnlyLastIsCut(items, maxTokens, 0, i);
    }
  }

  function Summarize(t: Task): TaskSummary {
    TaskSummary(t.taskId, t.description, t.assignedTo, t.status, t.taxForm, t.client)
  }

  function SummarizeProject(p: Project): ProjectSummary {
    ProjectSummary(p.projectId, p.name, p.clients, p.services)
  }

  /** The message of reading `task.title`: the task record has no title. */
  const NoTitle: string := "'Task' object has no attribute 'title'"

  /** `get_task_context` as written: the two lookups can report "not
      found", and otherwise assembling the context reads `task.title` and
      raises. */
  function GetTaskContextAsWritten(db: Store, taskId: string, maxTokens: int): (r: TaskContext)
    requires db.Valid()
    ensures r.NotFound? <==>
              (taskId !in db.tasks.entries || db.tasks.entries[taskId].projectId !in db.projects.entries)
    ensures taskId !in db.tasks.entries ==> r == NotFound("Task not found")
    ensures taskId in db.tasks.entries && db.tasks.entries[taskId].projectId !in db.projects.entries ==>
      r == NotFound("Project not found")
    ensures !r.NotFound? ==> r == Raised(NoTitle)
  {
    match GetById(db.tasks, taskId)
    case None => NotFound("Task not found")
    case Some(task) =>
      match GetById(db.projects, task.projectId)
      case None => NotFound("Project not found")
      case Some(_) =>
        var _ := GetDocumentSnippets(DocumentService.GetDocumentsForTask(db, taskId), maxTokens, AsWrittenExtract);
        Raised(NoTitle)
  }

  /** `get_task_context` without the title and with the file name passed
      to the parser: the task, its project, and the snippets of the task's
      documents within the budget. */
  function GetTaskContext(db: Store, taskId: string, maxTokens: int, samples: map<string, string>,
                          driveClient: Result<(), string>): (r: TaskContext)
    requires db.Valid()
    ensures !r.Raised?
    ensures r.Context? ==> taskId in db.tasks.entries
    ensures r.Context? ==>
      var task := db.tasks.entries[taskId];
      && task.projectId in db.projects.entries
      && r.task == Summarize(task)
      && r.project == SummarizeProject(db.projects.entries[task.projectId])
      && |r.documents| <= |DocumentService.GetDocumentsForTask(db, taskId)|
      && forall i :: 0 <= i < |r.documents| ==>
           r.documents[i].docId == DocumentService.GetDocumentsForTask(db, taskId)[i].docId
  {
    match GetById(db.tasks, taskId)
    case None => NotFound("Task not found")
    case Some(task) =>
      match GetById(db.projects, task.projectId)
      case None => NotFound("Project not found")
      case Some(project) =>
        var docs := DocumentService.GetDocumentsForTask(db, taskId);
        var extract := (d: Document) => FileNameExtract(samples, driveClient, d);
        var snippets := GetDocumentSnippets(docs, maxTokens, extract);
        forall i | 0 <= i < |snippets|
          ensures snippets[i].docId == docs[i].docId
        {
          SnippetFollowsDocument(Extractions(docs, extract), maxTokens, 0, i);
        }
        Context(Summarize(task), SummarizeProject(project), snippets)
  }

  /** The corrected context reports "not found" exactly where the code as
      written does, with the same message. */
  lemma NotFoundAgrees(db: Store, taskId: string, maxTokens: int, samples: map<string, string>,
                       driveClient: Result<(), string>)
    requires db.Valid()
    ensures var fixed := GetTaskContext(db, taskId, maxTokens, samples, driveClient);
      var written := GetTaskContextAsWritten(db, taskId, maxTokens);
      && (fixed.NotFound? <==> written.NotFound?)
      && (fixed.NotFound? ==> fixed == written)
      && (fixed.Context? <==> written.Raised?)
  {
  }
}

=== FILE: seqs.dfy ===
/** Generic list operations the core borrows from Python: prefix slicing
    with negative bounds, list comprehension filters, de-duplication that
    keeps the first element of each key, and the stable `list.sort`. */
module Seqs {
  import opened Wrappers

  function Min(a: int, b: int): int {
    if a <= b then a else b
  }

  function Max(a: int, b: int): int {
    if a <= b then b else a
  }

  /** Concatenation is associative. */
  lemma Assoc<T>(a: seq<T>, b: seq<T>, c: seq<T>)
    ensures a + (b + c) == (a + b) + c
  {
  }

  /** What is in a suffix is in the whole. */
  lemma InSuffix<T>(xs: seq<T>, n: nat, x: T)
    requires n <= |xs| && x in xs[n..]
    ensures x in xs
  {
    var k :| 0 <= k < |xs[n..]| && xs[n..][k] == x;
    assert xs[n + k] == x;
  }

  lemma InEither<T>(a: seq<T>, b: seq<T>, x: T)
    requires x in a || x in b
    ensures x in a + b
  {
  }

  /** A list is what comes before index `k`, the element at `k`, and what
      comes after it. */
  lemma SplitAround<T>(xs: seq<T>, k: nat)
    requires k < |xs|
    ensures xs == xs[..k] + ([xs[k]] + xs[k + 1..])
  {
  }

  /** A non-empty list is its head followed by its tail. */
  lemma HeadTail<T>(xs: seq<T>)
    requires |xs| > 0
    ensures xs == [xs[0]] + xs[1..]
  {
  }

  /** Python's `xs[:n]`: the first `n` elements, where a negative `n`
      drops `-n` elements from the end instead. */
  function PyPrefix<T>(xs: seq<T>, n: int): (r: seq<T>)
    ensures |r| <= |xs| && r == xs[..|r|]
    ensures 0 <= n ==> |r| == Min(n, |xs|)
    ensures n < 0 ==> |r| == Max(0, |xs| + n)
  {
    if 0 <= n then (if n <= |xs| then xs[..n] else xs)
    else if 0 <= |xs| + n then xs[..|xs| + n]
    else []
  }

  /** Where a Python slice bound `a` lands in a list of length `n`: a
      negative bound counts from the end, and both ends clamp. */
  function PyIndex(a: int, n: nat): (k: nat)
    ensures k <= n
    ensures 0 <= a <= n ==> k == a
  {
    if a < 0 then Max(0, n + a) else Min(a, n)
  }

  /** Python's `xs[a:b]`: a contiguous run of `xs` starting where `a`
      lands; crossed bounds give the empty list. */
  function PySlice<T>(xs: seq<T>, a: int, b: int): (r: seq<T>)
    ensures |r| <= |xs|
    ensures 0 <= a <= b <= |xs| ==> r == xs[a..b]
    ensures PyIndex(a, |xs|) + |r| <= |xs|
    ensures r == xs[PyIndex(a, |xs|)..PyIndex(a, |xs|) + |r|]
  {
    var lo := PyIndex(a, |xs|);
    var hi := PyIndex(b, |xs|);
    if lo < hi then xs[lo..hi] else []
  }

  /** `[x for x in xs if p(x)]`. */
  function Filter<T(==)>(xs: seq<T>, p: T -> bool): (r: seq<T>)
    ensures |r| <= |xs|
    ensures forall i :: 0 <= i < |r| ==> r[i] in xs && p(r[i])
    ensures forall i :: 0 <= i < |xs| && p(xs[i]) ==> xs[i] in r
    decreases |xs|
  {
    if |xs| == 0 then []
    else if p(xs[0]) then [xs[0]] + Filter(xs[1..], p)
    else Filter(xs[1..], p)
  }

  lemma {:induction false} FilterAppend<T>(a: seq<T>, b: seq<T>, p: T -> bool)
    ensures Filter(a + b, p) == Filter(a, p) + Filter(b, p)
    decreases |a|
  {
    if |a| == 0 {
      assert a + b == b;
    } else {
      assert (a + b)[1..] == a[1..] + b;
      FilterAppend(a[1..], b, p);
    }
  }

  /** `[y for x in xs if (y := f(x)) is not None]`: the results `f`
      gives, in the order of `xs`, skipping the elements it rejects. */
  function FilterMap<A, B>(xs: seq<A>, f: A -> Option<B>): (r: seq<B>)
    ensures |r| <= |xs|
    decreases |xs|
  {
    if |xs| == 0 then []
    else
      match f(xs[0])
      case None => FilterMap(xs[1..], f)
      case Some(y) => [y] + FilterMap(xs[1..], f)
  }

  /** When `f` accepts every element, the results are exactly its values,
      one per element. */
  lemma {:induction false} FilterMapAllSome<A, B>(xs: seq<A>, f: A -> Option<B>, ys: seq<B>)
    requires |xs| == |ys|
    requires forall i :: 0 <= i < |xs| ==> f(xs[i]) == Some(ys[i])
    ensures FilterMap(xs, f) == ys
    decreases |xs|
  {
    if |xs| > 0 {
      FilterMapAllSome(xs[1..], f, ys[1..]);
      HeadTail(ys);
    }
  }

  // ---------------------------------------------------------------------------
  // First occurrence of each key
  // ---------------------------------------------------------------------------

  function KeySet<T(==), K(==)>(xs: seq<T>, key: T -> K): set<K> {
    set x | x in xs :: key(x)
  }

  lemma KeySetSnoc<T, K>(xs: seq<T>, x: T, key: T -> K)
    ensures KeySet(xs + [x], key) == KeySet(xs, key) + {key(x)}
  {
    assert forall y :: y in xs + [x] <==> y in xs || y == x;
  }

  lemma {:induction false} SubsetCard<K>(a: set<K>, b: set<K>)
    requires a <= b
    ensures |a| <= |b|
    decreases |a|
  {
    if a != {} {
      var x :| x in a;
      SubsetCard(a - {x}, b - {x});
    }
  }

  /** No two elements share a key. */
  ghost predicate DistinctKeys<T, K>(xs: seq<T>, key: T -> K) {
    forall i, j :: 0 <= i < j < |xs| ==> key(xs[i]) != key(xs[j])
  }

  /** The elements of `xs` whose key no earlier element has, in order:
      what a loop with a `seen` set keeps. */
  function KeepFirst<T(==), K(==)>(xs: seq<T>, key: T -> K): (r: seq<T>)
    ensures DistinctKeys(r, key)
    ensures forall i :: 0 <= i < |r| ==> r[i] in xs
    ensures KeySet(r, key) == KeySet(xs, key)
    decreases |xs|
  {
    if |xs| == 0 then []
    else
      var init := xs[..|xs| - 1];
      var last := xs[|xs| - 1];
      var prefix := KeepFirst(init, key);
      assert xs == init + [last];
      KeySetSnoc(init, last, key);
      KeySetSnoc(prefix, last, key);
      if key(last) in KeySet(prefix, key) then prefix else prefix + [last]
  }

  /** The index of the first element with key `k`. */
  function FirstIndexOfKey<T(==), K(==)>(xs: seq<T>, key: T -> K, k: K): (i: nat)
    requires k in KeySet(xs, key)
    ensures i < |xs| && key(xs[i]) == k
    ensures forall j :: 0 <= j < i ==> key(xs[j]) != k
    decreases |xs|
  {
    if key(xs[0]) == k then 0
    else
      assert k in KeySet(xs[1..], key) by {
        var x :| x in xs && key(x) == k;
        assert x != xs[0];
        assert x in xs[1..];
      }
      1 + FirstIndexOfKey(xs[1..], key, k)
  }

  lemma FirstIndexOfKeyPrefix<T, K>(xs: seq<T>, n: nat, key: T -> K, k: K)
    requires n <= |xs|
    requires k in KeySet(xs[..n], key)
    ensures k in KeySet(xs, key)
    ensures FirstIndexOfKey(xs[..n], key, k) == FirstIndexOfKey(xs, key, k)
  {
    var i := FirstIndexOfKey(xs[..n], key, k);
    assert xs[..n][i] == xs[i];
    assert xs[i] in xs;
    var j := FirstIndexOfKey(xs, key, k);
    assert key(xs[i]) == k;
    assert j <= i;
    assert xs[..n][j] == xs[j];
  }

  /** Each element `KeepFirst` keeps is the first element of `xs` with its
      key, and they come in the order of those first positions. */
  lemma {:induction false} KeepFirstPicksFirst<T, K>(xs: seq<T>, key: T -> K)
    ensures forall k :: 0 <= k < |KeepFirst(xs, key)| ==>
      var r := KeepFirst(xs, key);
      key(r[k]) in KeySet(xs, key) && r[k] == xs[FirstIndexOfKey(xs, key, key(r[k]))]
    ensures forall a, b :: 0 <= a < b < |KeepFirst(xs, key)| ==>
      var r := KeepFirst(xs, key);
      key(r[a]) in KeySet(xs, key) && key(r[b]) in KeySet(xs, key) &&
      FirstIndexOfKey(xs, key, key(r[a])) < FirstIndexOfKey(xs, key, key(r[b]))
    decreases |xs|
  {
    var r := KeepFirst(xs, key);
    if |xs| > 0 {
      var init := xs[..|xs| - 1];
      var last := xs[|xs| - 1];
      var prefix := KeepFirst(init, key);
      KeepFirstPicksFirst(init, key);
      assert xs[..|xs| - 1] == init;
      forall k | 0 <= k < |prefix|
        ensures key(prefix[k]) in KeySet(xs, key)
        ensures prefix[k] == xs[FirstIndexOfKey(xs, key, key(prefix[k]))]
      {
        FirstIndexOfKeyPrefix(xs, |xs| - 1, key, key(prefix[k]));
        assert init[FirstIndexOfKey(init, key, key(prefix[k]))] == xs[FirstIndexOfKey(init, key, key(prefix[k]))];
      }
      forall a, b | 0 <= a < b < |prefix|
        ensures FirstIndexOfKey(xs, key, key(prefix[a])) < FirstIndexOfKey(xs, key, key(prefix[b]))
      {
        FirstIndexOfKeyPrefix(xs, |xs| - 1, key, key(prefix[a]));
        FirstIndexOfKeyPrefix(xs, |xs| - 1, key, key(prefix[b]));
      }
      if key(last) !in KeySet(prefix, key) {
        assert r == prefix + [last];
        assert key(last) !in KeySet(init, key);
        assert last in xs;
        var f := FirstIndexOfKey(xs, key, key(last));
        assert f == |xs| - 1;
        forall a | 0 <= a < |prefix|
          ensures FirstIndexOfKey(xs, key, key(prefix[a])) < f
        {
          FirstIndexOfKeyPrefix(xs, |xs| - 1, key, key(prefix[a]));
        }
      }
    }
  }

  /** When every key comes from a finite universe, there are at most as many
      kept elements as the universe has keys. */
  lemma KeepFirstBound<T, K>(xs: seq<T>, key: T -> K, universe: set<K>)
    requires forall i :: 0 <= i < |xs| ==> key(xs[i]) in universe
    ensures |KeepFirst(xs, key)| <= |universe|
  {
    var r := KeepFirst(xs, key);
    DistinctKeysCard(r, key);
    assert KeySet(r, key) <= universe;
    SubsetCard(KeySet(r, key), universe);
  }

  lemma {:induction false} DistinctKeysCard<T, K>(xs: seq<T>, key: T -> K)
    requires DistinctKeys(xs, key)
    ensures |KeySet(xs, key)| == |xs|
    decreases |xs|
  {
    if |xs| > 0 {
      var init := xs[..|xs| - 1];
      var last := xs[|xs| - 1];
      assert xs == init + [last];
      DistinctKeysCard(init, key);
      KeySetSnoc(init, last, key);
      assert key(last) !in KeySet(init, key);
    }
  }

  /** No element occurs twice. */
  ghost predicate Distinct<T>(xs: seq<T>) {
    forall i, j :: 0 <= i < j < |xs| ==> xs[i] != xs[j]
  }

  /** Dropping elements keeps a list without repetitions. */
  lemma {:induction false} FilterDistinct<T>(xs: seq<T>, p: T -> bool)
    requires Distinct(xs)
    ensures Distinct(Filter(xs, p))
    decreases |xs|
  {
    if |xs| > 0 {
      var rest := Filter(xs[1..], p);
      assert Distinct(xs[1..]) by {
        forall i, j | 0 <= i < j < |xs[1..]| ensures xs[1..][i] != xs[1..][j] {
          assert xs[1..][i] == xs[i + 1] && xs[1..][j] == xs[j + 1];
        }
      }
      FilterDistinct(xs[1..], p);
      if p(xs[0]) {
        assert xs[0] !in rest by {
          forall i | 0 <= i < |rest| ensures rest[i] != xs[0] {
            var k :| 0 <= k < |xs[1..]| && xs[1..][k] == rest[i];
            assert xs[k + 1] == rest[i];
          }
        }
        var r := [xs[0]] + rest;
        forall i, j | 0 <= i < j < |r| ensures r[i] != r[j] {
          assert r[j] == rest[j - 1];
          if i > 0 {
            assert r[i] == rest[i - 1];
          }
        }
      }
    }
  }

  lemma {:induction false} DistinctCounts<T>(xs: seq<T>)
    ensures Distinct(xs) <==> forall x :: multiset(xs)[x] <= 1
    decreases |xs|
  {
    if |xs| > 0 {
      var init := xs[..|xs| - 1];
      var last := xs[|xs| - 1];
      assert xs == init + [last];
      DistinctCounts(init);
      if Distinct(xs) {
        assert Distinct(init) by {
          forall i, j | 0 <= i < j < |init| ensures init[i] != init[j] {
            assert init[i] == xs[i] && init[j] == xs[j];
          }
        }
        assert last !in init by {
          forall i | 0 <= i < |init| ensures init[i] != last {
            assert init[i] == xs[i];
          }
        }
        forall x ensures multiset(xs)[x] <= 1 {
          assert multiset(xs)[x] == multiset(init)[x] + multiset{last}[x];
        }
      } else {
        var i, j :| 0 <= i < j < |xs| && xs[i] == xs[j];
        assert xs == xs[..j] + xs[j..];
        assert xs[i] in multiset(xs[..j]) by { assert xs[..j][i] == xs[i]; }
        assert xs[j] in multiset(xs[j..]) by { assert xs[j..][0] == xs[j]; }
        assert multiset(xs)[xs[i]] == multiset(xs[..j])[xs[i]] + multiset(xs[j..])[xs[i]];
      }
    }
  }

  /** A permutation of a list without repetitions has none either. */
  lemma DistinctPermutation<T>(a: seq<T>, b: seq<T>)
    requires multiset(a) == multiset(b) && Distinct(a)
    ensures Distinct(b)
  {
    DistinctCounts(a);
    DistinctCounts(b);
  }

  // ---------------------------------------------------------------------------
  // Stable sort
  // ---------------------------------------------------------------------------

  ghost predicate SortedBy<T>(xs: seq<T>, key: T -> int) {
    forall i, j :: 0 <= i < j < |xs| ==> key(xs[i]) <= key(xs[j])
  }

  /** The elements of `xs` whose key is `k`, in order. */
  function WithKey<T(==)>(xs: seq<T>, key: T -> int, k: int): seq<T> {
    Filter(xs, x => key(x) == k)
  }

  /** Taking the elements of one key distributes over concatenation. */
  lemma WithKeyAppend<T>(a: seq<T>, b: seq<T>, key: T -> int, k: int)
    ensures WithKey(a + b, key, k) == WithKey(a, key, k) + WithKey(b, key, k)
  {
    FilterAppend(a, b, x => key(x) == k);
  }

  /** The elements of one key in a prefix lead those of the whole. */
  lemma WithKeyPrefix<T>(xs: seq<T>, n: nat, key: T -> int, k: int)
    requires n <= |xs|
    ensures |WithKey(xs[..n], key, k)| <= |WithKey(xs, key, k)|
    ensures WithKey(xs[..n], key, k) == WithKey(xs, key, k)[..|WithKey(xs[..n], key, k)|]
  {
    assert xs == xs[..n] + xs[n..];
    WithKeyAppend(xs[..n], xs[n..], key, k);
  }

  /** Places `x` in front of the first element whose key is not smaller. */
  function Insert<T(==)>(x: T, ys: seq<T>, key: T -> int): (r: seq<T>)
    requires SortedBy(ys, key)
    ensures SortedBy(r, key)
    ensures multiset(r) == multiset(ys) + multiset{x}
    decreases |ys|
  {
    if |ys| == 0 then [x]
    else if key(x) <= key(ys[0]) then [x] + ys
    else
      var rest := Insert(x, ys[1..], key);
      assert ys == [ys[0]] + ys[1..];
      InsertLowerBound(x, ys, rest, key);
      [ys[0]] + rest
  }

  lemma InsertLowerBound<T>(x: T, ys: seq<T>, rest: seq<T>, key: T -> int)
    requires |ys| > 0 && SortedBy(ys, key) && key(ys[0]) < key(x)
    requires multiset(rest) == multiset(ys[1..]) + multiset{x}
    ensures forall i :: 0 <= i < |rest| ==> key(ys[0]) <= key(rest[i])
  {
    forall i | 0 <= i < |rest|
      ensures key(ys[0]) <= key(rest[i])
    {
      assert rest[i] in multiset(rest);
      if rest[i] != x {
        assert rest[i] in multiset(ys[1..]);
        var k :| 0 <= k < |ys[1..]| && ys[1..][k] == rest[i];
        assert ys[k + 1] == rest[i];
      }
    }
  }

  /** Python's `sorted(xs, key=key)`: ascending and stable. */
  function SortBy<T(==)>(xs: seq<T>, key: T -> int): (r: seq<T>)
    ensures SortedBy(r, key)
    ensures multiset(r) == multiset(xs)
    decreases |xs|
  {
    if |xs| == 0 then []
    else
      assert xs == [xs[0]] + xs[1..];
      Insert(xs[0], SortBy(xs[1..], key), key)
  }

  lemma {:induction false} InsertWithKey<T>(x: T, ys: seq<T>, key: T -> int, k: int)
    requires SortedBy(ys, key)
    ensures WithKey(Insert(x, ys, key), key, k) ==
      if key(x) == k then [x] + WithKey(ys, key, k) else WithKey(ys, key, k)
    decreases |ys|
  {
    if |ys| == 0 {
    } else if key(x) <= key(ys[0]) {
      assert ([x] + ys)[1..] == ys;
    } else {
      InsertWithKey(x, ys[1..], key, k);
      assert ([ys[0]] + Insert(x, ys[1..], key))[1..] == Insert(x, ys[1..], key);
      assert ys == [ys[0]] + ys[1..];
    }
  }

  /** Stability: the elements sharing any one key keep their relative
      order. */
  lemma {:induction false} SortByStable<T>(xs: seq<T>, key: T -> int, k: int)
    ensures WithKey(SortBy(xs, key), key, k) == WithKey(xs, key, k)
    decreases |xs|
  {
    if |xs| > 0 {
      SortByStable(xs[1..], key, k);
      InsertWithKey(xs[0], SortBy(xs[1..], key), key, k);
    }
  }

  /** The elements of one key in a leading part of the sorted sequence
      lead that key's elements of the input. */
  lemma SortedPrefixTies<T>(xs: seq<T>, n: nat, key: T -> int, k: int)
    requires n <= |SortBy(xs, key)|
    ensures |WithKey(SortBy(xs, key)[..n], key, k)| <= |WithKey(xs, key, k)|
    ensures WithKey(SortBy(xs, key)[..n], key, k) == WithKey(xs, key, k)[..|WithKey(SortBy(xs, key)[..n], key, k)|]
  {
    SortByStable(xs, key, k);
    WithKeyPrefix(SortBy(xs, key), n, key, k);
  }
}

=== FILE: strings.dfy ===
/** The Python `str` operations the core relies on, over `seq<char>`:
    whitespace classification, ASCII lowering, substring search (`in`,
    `find`, `count`), `strip`, `split` / `join`, and decimal rendering of
    the integers that appear inside generated identifiers. */
module Strings {
  import opened Wrappers
  import opened Seqs

  /** Python's `str.isspace()`: the characters that `\s` in a regular
      expression, `str.split()` and `str.strip()` all treat as whitespace. */
  predicate IsSpace(c: char) {
    || ('\t' <= c <= '\r')
    || c == ' '
    || ('\U{1c}' <= c <= '\U{1f}')
    || c == '\U{85}'
    || c == '\U{a0}'
    || c == '\U{1680}'
    || ('\U{2000}' <= c <= '\U{200a}')
    || c == '\U{2028}'
    || c == '\U{2029}'
    || c == '\U{202f}'
    || c == '\U{205f}'
    || c == '\U{3000}'
  }

  predicate NoSpace(s: string) {
    forall i :: 0 <= i < |s| ==> !IsSpace(s[i])
  }

  function LowerChar(c: char): char {
    if 'A' <= c <= 'Z' then (c as int + 32) as char else c
  }

  /** `str.lower()` restricted to the ASCII letters. */
  function Lower(s: string): (r: string)
    ensures |r| == |s|
    ensures forall i :: 0 <= i < |s| ==> r[i] == LowerChar(s[i])
  {
    seq(|s|, i requires 0 <= i < |s| => LowerChar(s[i]))
  }

  // ---------------------------------------------------------------------------
  // Substring search
  // ---------------------------------------------------------------------------

  /** `sub` occurs in `s` starting at index `i`. */
  ghost predicate OccursAt(s: string, sub: string, i: int) {
    0 <= i && i + |sub| <= |s| && s[i..i + |sub|] == sub
  }

  /** An infix of `s` occurs in any slice of `s` that covers it. */
  lemma OccursInSlice(s: string, start: nat, end: nat, p: nat, len: nat)
    requires start <= p && p + len <= end <= |s|
    ensures OccursAt(s[start..end], s[p..p + len], p - start)
  {
    var t := s[start..end];
    var u := t[p - start..p - start + len];
    var v := s[p..p + len];
    forall k | 0 <= k < len ensures u[k] == v[k] {
      assert u[k] == t[p - start + k] == s[p + k];
    }
  }

  /** An occurrence in the middle part of a concatenation. */
  lemma OccursInMiddle(pre: string, mid: string, post: string, sub: string, i: nat)
    requires OccursAt(mid, sub, i)
    ensures OccursAt(pre + mid + post, sub, |pre| + i)
  {
  }

  function FindFrom(s: string, sub: string, i: nat): (r: Option<nat>)
    ensures r.Some? ==> i <= r.value && OccursAt(s, sub, r.value)
    ensures r.Some? ==> forall j :: i <= j < r.value ==> !OccursAt(s, sub, j)
    ensures r.None? ==> forall j :: i <= j ==> !OccursAt(s, sub, j)
    decreases |s| - i
  {
    if i + |sub| > |s| then None
    else if s[i..i + |sub|] == sub then Some(i)
    else FindFrom(s, sub, i + 1)
  }

  /** The index of the first occurrence of `sub` in `s` (Python's `str.find`
      with `-1` replaced by `None`). */
  function Find(s: string, sub: string): (r: Option<nat>)
    ensures r.Some? ==> OccursAt(s, sub, r.value)
    ensures r.Some? ==> forall j :: 0 <= j < r.value ==> !OccursAt(s, sub, j)
    ensures r.None? ==> forall j :: !OccursAt(s, sub, j)
  {
    FindFrom(s, sub, 0)
  }

  /** Python's `str.find`: the first index of `sub`, or -1. */
  function FindIndex(s: string, sub: string): (r: int)
    ensures -1 <= r <= |s|
    ensures r == -1 <==> forall j :: !OccursAt(s, sub, j)
    ensures r >= 0 ==> OccursAt(s, sub, r)
    ensures r >= 0 ==> forall j :: 0 <= j < r ==> !OccursAt(s, sub, j)
  {
    match Find(s, sub)
    case Some(i) => i
    case None => -1
  }

  /** Python's `sub in s`. */
  predicate Contains(s: string, sub: string) {
    Find(s, sub).Some?
  }

  lemma ContainsIff(s: string, sub: string)
    ensures Contains(s, sub) <==> exists i :: OccursAt(s, sub, i)
  {
    if !Contains(s, sub) {
      assert forall i :: !OccursAt(s, sub, i);
    }
  }

  /** Python's `s.startswith(prefix)`. */
  predicate StartsWith(s: string, prefix: string) {
    |prefix| <= |s| && s[..|prefix|] == prefix
  }

  /** Python's `s.endswith(suffix)`. */
  predicate EndsWith(s: string, suffix: string) {
    |suffix| <= |s| && s[|s| - |suffix|..] == suffix
  }

  /** A text holds every piece it is glued from. */
  lemma ContainsMiddle(a: string, b: string, c: string)
    ensures Contains(a + b + c, b)
  {
    var s := a + b + c;
    assert s[|a|..|a| + |b|] == b;
    assert OccursAt(s, b, |a|);
    ContainsIff(s, b);
  }

  /** A text holds its own front part. */
  lemma ContainsFront(a: string, b: string)
    ensures Contains(a + b, a)
  {
    assert (a + b)[0..|a|] == a;
    assert OccursAt(a + b, a, 0);
    ContainsIff(a + b, a);
  }

  /** Containment is transitive. */
  lemma ContainsTransitive(s: string, a: string, b: string)
    requires Contains(s, a) && Contains(a, b)
    ensures Contains(s, b)
  {
    ContainsIff(s, a);
    ContainsIff(a, b);
    var i :| OccursAt(s, a, i);
    var j :| OccursAt(a, b, j);
    forall t | 0 <= t < |b| ensures s[i + j + t] == b[t] {
      assert b[t] == a[j + t] == s[i..i + |a|][j + t];
    }
    assert s[i + j..i + j + |b|] == b;
    assert OccursAt(s, b, i + j);
    ContainsIff(s, b);
  }

  /** Whatever a suffix holds, the whole string holds. */
  lemma ContainsAfter(a: string, b: string, sub: string)
    requires Contains(b, sub)
    ensures Contains(a + b, sub)
  {
    ContainsMiddle(a, b, []);
    assert a + b + [] == a + b;
    ContainsTransitive(a + b, b, sub);
  }

  /** A character that `sub` lacks cannot lie inside an occurrence of it,
      so gluing two texts free of `sub` with that character gives a text
      free of `sub`. */
  lemma GlueNotContained(a: string, c: char, b: string, sub: string)
    requires c !in sub
    requires !Contains(a, sub) && !Contains(b, sub)
    ensures !Contains(a + [c] + b, sub)
  {
    var s := a + [c] + b;
    ContainsIff(a, sub);
    ContainsIff(b, sub);
    ContainsIff(s, sub);
    forall j | 0 <= j && j + |sub| <= |s|
      ensures !OccursAt(s, sub, j)
    {
      if j + |sub| <= |a| {
        assert s[j..j + |sub|] == a[j..j + |sub|];
        assert !OccursAt(a, sub, j);
      } else if j > |a| {
        var k := j - |a| - 1;
        assert s[j..j + |sub|] == b[k..k + |sub|];
        assert !OccursAt(b, sub, k);
      } else {
        assert s[j..j + |sub|][|a| - j] == c;
      }
    }
  }

  lemma OccursInPrefix(s: string, sub: string, n: nat, j: int)
    requires n <= |s|
    requires OccursAt(s[..n], sub, j)
    ensures OccursAt(s, sub, j)
  {
    assert s[..n][j..j + |sub|] == s[j..j + |sub|];
  }

  lemma OccursInSuffix(s: string, sub: string, n: nat, j: int)
    requires n <= |s|
    requires OccursAt(s[n..], sub, j)
    ensures OccursAt(s, sub, n + j)
  {
    assert s[n..][j..j + |sub|] == s[n + j..n + j + |sub|];
  }

  /** A character that `sub` needs at some position and that `s` lacks
      rules out every occurrence of `sub` in `s`. */
  lemma MissingCharNotContained(s: string, sub: string, k: nat)
    requires k < |sub|
    requires forall i :: 0 <= i < |s| ==> s[i] != sub[k]
    ensures !Contains(s, sub)
  {
    forall j | OccursAt(s, sub, j)
      ensures s[j + k] == sub[k]
    {
      assert s[j..j + |sub|][k] == s[j + k];
    }
  }

  /** Python's `str.count`: the number of non-overlapping occurrences of
      `sub`, scanning from the left (one more than `|s|` for the empty
      string). */
  function Count(s: string, sub: string): (n: nat)
    ensures n > 0 <==> Contains(s, sub)
    ensures |sub| == 0 ==> n == |s| + 1
    decreases |s|
  {
    if |sub| == 0 then
      assert OccursAt(s, sub, 0);
      |s| + 1
    else
      match Find(s, sub)
      case None => 0
      case Some(i) => 1 + Count(s[i + |sub|..], sub)
  }

  lemma MulStep(m: nat, k: nat)
    ensures (1 + m) * k == k + m * k
  {
  }

  /** The counted occurrences fit in the text side by side. */
  lemma {:induction false} CountFits(s: string, sub: string)
    requires |sub| > 0
    ensures Count(s, sub) * |sub| <= |s|
    decreases |s|
  {
    match Find(s, sub)
    case None =>
    case Some(i) =>
      var t := s[i + |sub|..];
      var m := Count(t, sub);
      var k := |sub|;
      CountFits(t, sub);
      assert Count(s, sub) == 1 + m;
      assert m * k <= |s| - i - k;
      MulStep(m, k);
  }

  /** An occurrence in a suffix is an occurrence in the whole, shifted by
      the part cut off, and back. */
  lemma OccursShift(s: string, sub: string, n: nat, j: nat)
    requires n <= |s|
    ensures OccursAt(s[n..], sub, j) <==> OccursAt(s, sub, n + j)
  {
    if OccursAt(s, sub, n + j) {
      assert s[n..][j..j + |sub|] == s[n + j..n + j + |sub|];
    }
    if OccursAt(s[n..], sub, j) {
      OccursInSuffix(s, sub, n, j);
    }
  }

  function Shift(ps: seq<nat>, d: nat): (r: seq<nat>)
    ensures |r| == |ps|
    ensures forall k :: 0 <= k < |ps| ==> r[k] == ps[k] + d
  {
    seq(|ps|, k requires 0 <= k < |ps| => ps[k] + d)
  }

  /** Each of `ps` is an occurrence of `sub`, left to right and without
      overlap. */
  ghost predicate Spaced(s: string, sub: string, ps: seq<nat>) {
    && (forall k :: 0 <= k < |ps| ==> OccursAt(s, sub, ps[k]))
    && (forall k :: 0 <= k < |ps| - 1 ==> ps[k] + |sub| <= ps[k + 1])
  }

  /** No occurrence of `sub` lies before the first of `ps`, between two of
      them, or after the last. */
  ghost predicate NoneSkipped(s: string, sub: string, ps: seq<nat>) {
    && (forall j :: 0 <= j && (ps == [] || j < ps[0]) ==> !OccursAt(s, sub, j))
    && (forall k, j :: 0 <= k < |ps| - 1 && ps[k] + |sub| <= j < ps[k + 1] ==> !OccursAt(s, sub, j))
    && (ps != [] ==> forall j :: ps[|ps| - 1] + |sub| <= j ==> !OccursAt(s, sub, j))
  }

  /** `ps` are the positions `str.count` counts in `s`: left to right,
      each an occurrence of `sub`, none overlapping the one before, and no
      occurrence skipped that would not overlap one counted. */
  ghost predicate Counted(s: string, sub: string, ps: seq<nat>) {
    Spaced(s, sub, ps) && NoneSkipped(s, sub, ps)
  }

  lemma SpacedCons(s: string, sub: string, i: nat, rest: seq<nat>)
    requires |sub| > 0 && OccursAt(s, sub, i)
    requires Spaced(s[i + |sub|..], sub, rest)
    ensures Spaced(s, sub, [i] + Shift(rest, i + |sub|))
  {
    var d := i + |sub|;
    var ps := [i] + Shift(rest, d);
    forall k | 1 <= k < |ps|
      ensures OccursAt(s, sub, ps[k])
    {
      OccursShift(s, sub, d, rest[k - 1]);
    }
  }

  lemma NoneSkippedCons(s: string, sub: string, i: nat, rest: seq<nat>)
    requires |sub| > 0 && Find(s, sub) == Some(i)
    requires NoneSkipped(s[i + |sub|..], sub, rest)
    ensures NoneSkipped(s, sub, [i] + Shift(rest, i + |sub|))
  {
    var d := i + |sub|;
    var ps := [i] + Shift(rest, d);
    NoneBeforeSecond(s, sub, i, rest);
    NoneBetweenLater(s, sub, i, rest);
    if rest != [] {
      NoneAfterLast(s, sub, i, rest);
    }
  }

  lemma NoneBeforeSecond(s: string, sub: string, i: nat, rest: seq<nat>)
    requires |sub| > 0 && i + |sub| <= |s|
    requires NoneSkipped(s[i + |sub|..], sub, rest)
    ensures forall j :: i + |sub| <= j && (rest == [] || j < rest[0] + i + |sub|) ==> !OccursAt(s, sub, j)
  {
    var d := i + |sub|;
    forall j | d <= j && (rest == [] || j < rest[0] + d)
      ensures !OccursAt(s, sub, j)
    {
      OccursShift(s, sub, d, j - d);
    }
  }

  lemma NoneBetweenLater(s: string, sub: string, i: nat, rest: seq<nat>)
    requires |sub| > 0 && i + |sub| <= |s|
    requires NoneSkipped(s[i + |sub|..], sub, rest)
    ensures var ps := [i] + Shift(rest, i + |sub|);
      forall k, j :: 1 <= k < |ps| - 1 && ps[k] + |sub| <= j < ps[k + 1] ==> !OccursAt(s, sub, j)
  {
    var d := i + |sub|;
    var ps := [i] + Shift(rest, d);
    forall k, j | 1 <= k < |ps| - 1 && ps[k] + |sub| <= j < ps[k + 1]
      ensures !OccursAt(s, sub, j)
    {
      OccursShift(s, sub, d, j - d);
      assert rest[k - 1] + |sub| <= j - d < rest[k];
    }
  }

  lemma NoneAfterLast(s: string, sub: string, i: nat, rest: seq<nat>)
    requires |sub| > 0 && i + |sub| <= |s| && rest != []
    requires NoneSkipped(s[i + |sub|..], sub, rest)
    ensures forall j :: rest[|rest| - 1] + i + |sub| + |sub| <= j ==> !OccursAt(s, sub, j)
  {
    var d := i + |sub|;
    forall j | rest[|rest| - 1] + d + |sub| <= j
      ensures !OccursAt(s, sub, j)
    {
      OccursShift(s, sub, d, j - d);
    }
  }

  /** The positions `str.count` counts, as many as it counts. */
  function Occurrences(s: string, sub: string): (ps: seq<nat>)
    requires |sub| > 0
    ensures |ps| == Count(s, sub)
    ensures Counted(s, sub, ps)
    decreases |s|
  {
    match Find(s, sub)
    case None => []
    case Some(i) =>
      var rest := Occurrences(s[i + |sub|..], sub);
      SpacedCons(s, sub, i, rest);
      NoneSkippedCons(s, sub, i, rest);
      [i] + Shift(rest, i + |sub|)
  }

  // ---------------------------------------------------------------------------
  // strip
  // ---------------------------------------------------------------------------

  /** `str.lstrip()`: drop leading whitespace. */
  function LStrip(s: string): (r: string)
    ensures |r| <= |s| && r == s[|s| - |r|..]
    ensures r == [] || !IsSpace(r[0])
    ensures forall i :: 0 <= i < |s| - |r| ==> IsSpace(s[i])
  {
    if |s| > 0 && IsSpace(s[0]) then LStrip(s[1..]) else s
  }

  /** `str.rstrip()`: drop trailing whitespace. */
  function RStrip(s: string): (r: string)
    ensures |r| <= |s| && r == s[..|r|]
    ensures r == [] || !IsSpace(r[|r| - 1])
    ensures forall i :: |r| <= i < |s| ==> IsSpace(s[i])
  {
    if |s| > 0 && IsSpace(s[|s| - 1]) then RStrip(s[..|s| - 1]) else s
  }

  /** `str.strip()`: whitespace dropped from both ends. */
  function Strip(s: string): (r: string)
    ensures |r| <= |s|
    ensures r == [] || (!IsSpace(r[0]) && !IsSpace(r[|r| - 1]))
    ensures InfixAt(r, s, Indent(s))
    ensures forall k :: 0 <= k < Indent(s) ==> IsSpace(s[k])
    ensures forall k :: Indent(s) + |r| <= k < |s| ==> IsSpace(s[k])
  {
    StripInfix(s);
    RStrip(LStrip(s))
  }

  /** `r` is the part of `s` that starts at index `i`. */
  predicate InfixAt(r: string, s: string, i: nat) {
    i + |r| <= |s| && r == s[i..i + |r|]
  }

  /** The number of leading whitespace characters. */
  function Indent(s: string): (i: nat)
    ensures i <= |s|
  {
    |s| - |LStrip(s)|
  }

  lemma StripInfix(s: string)
    ensures var r := RStrip(LStrip(s));
      && InfixAt(r, s, Indent(s))
      && (forall k :: 0 <= k < Indent(s) ==> IsSpace(s[k]))
      && (forall k :: Indent(s) + |r| <= k < |s| ==> IsSpace(s[k]))
  {
    var t := LStrip(s);
    var i := Indent(s);
    var r := RStrip(t);
    assert t == s[i..];
    StripInfixAt(s, t, i, r);
    StripTrailing(s, t, i, r);
  }

  lemma StripInfixAt(s: string, t: string, i: nat, r: string)
    requires i <= |s| && t == s[i..] && |r| <= |t| && r == t[..|r|]
    ensures InfixAt(r, s, i)
  {
    assert s[i..][..|r|] == s[i..i + |r|];
  }

  lemma StripTrailing(s: string, t: string, i: nat, r: string)
    requires i <= |s| && t == s[i..] && |r| <= |t|
    requires forall k :: |r| <= k < |t| ==> IsSpace(t[k])
    ensures forall k :: i + |r| <= k < |s| ==> IsSpace(s[k])
  {
    forall k | i + |r| <= k < |s|
      ensures IsSpace(s[k])
    {
      assert s[k] == t[k - i];
    }
  }

  lemma LStripOfNonSpace(s: string)
    requires |s| > 0 && !IsSpace(s[0])
    ensures LStrip(s) == s
  {
  }

  lemma RStripOfNonSpace(s: string)
    requires |s| > 0 && !IsSpace(s[|s| - 1])
    ensures RStrip(s) == s
  {
  }

  /** Leading whitespace in front of a non-space character is all that
      `lstrip` removes: the rest of the text is untouched. */
  lemma {:induction false} LStripAppend(a: string, b: string)
    requires |b| > 0 && !IsSpace(b[0])
    ensures LStrip(a + b) == LStrip(a) + b
    decreases |a|
  {
    if |a| == 0 {
      assert a + b == b;
    } else if IsSpace(a[0]) {
      assert (a + b)[1..] == a[1..] + b;
      LStripAppend(a[1..], b);
    } else {
      assert (a + b)[0] == a[0];
    }
  }

  lemma {:induction false} RStripPrepend(a: string, b: string)
    requires |a| > 0 && !IsSpace(a[|a| - 1])
    ensures RStrip(a + b) == a + RStrip(b)
    decreases |b|
  {
    if |b| == 0 {
      assert a + b == a;
    } else if IsSpace(b[|b| - 1]) {
      assert (a + b)[..|a + b| - 1] == a + b[..|b| - 1];
      RStripPrepend(a, b[..|b| - 1]);
    } else {
      assert (a + b)[|a + b| - 1] == b[|b| - 1];
    }
  }

  /** Stripping a text around a non-space character strips the part
      before it on the left only and the part after it on the right only. */
  lemma StripAround(x: string, c: char, y: string)
    requires !IsSpace(c)
    ensures Strip(x + [c] + y) == LStrip(x) + [c] + RStrip(y)
  {
    Assoc(x, [c], y);
    LStripAppend(x, [c] + y);
    Assoc(LStrip(x), [c], y);
    RStripPrepend(LStrip(x) + [c], y);
  }

  /** Stripping removes whitespace only: a non-space character is in the
      stripped text exactly when it is in the text. */
  lemma StripKeepsNonSpace(s: string, c: char)
    requires !IsSpace(c)
    ensures c in Strip(s) <==> c in s
  {
    LStripKeepsNonSpace(s, c);
    RStripKeepsNonSpace(LStrip(s), c);
  }

  lemma LStripKeepsNonSpace(s: string, c: char)
    requires !IsSpace(c)
    ensures c in LStrip(s) <==> c in s
  {
    var l := LStrip(s);
    var off := |s| - |l|;
    assert l == s[off..];
    if c in s {
      var i :| 0 <= i < |s| && s[i] == c;
      assert off <= i;
      assert s[off..][i - off] == c;
    }
    if c in l {
      InSuffix(s, off, c);
    }
  }

  lemma RStripKeepsNonSpace(s: string, c: char)
    requires !IsSpace(c)
    ensures c in RStrip(s) <==> c in s
  {
    var r := RStrip(s);
    assert r == s[..|r|];
    if c in s {
      var i :| 0 <= i < |s| && s[i] == c;
      assert s[..|r|][i] == c;
    }
  }

  lemma LStripIdempotent(s: string)
    ensures LStrip(LStrip(s)) == LStrip(s)
  {
  }

  lemma RStripIdempotent(s: string)
    ensures RStrip(RStrip(s)) == RStrip(s)
  {
  }

  /** Stripping after a left strip, or after a right strip, is stripping. */
  lemma StripAfterLStrip(s: string)
    ensures Strip(LStrip(s)) == Strip(s)
  {
    LStripIdempotent(s);
  }

  /** Right-stripping keeps the first character unless everything after
      it strips away and it is whitespace too. */
  lemma {:induction false} RStripCons(s: string)
    requires |s| > 0
    ensures RStrip(s) == if RStrip(s[1..]) == [] && IsSpace(s[0]) then [] else [s[0]] + RStrip(s[1..])
    decreases |s|
  {
    if |s| == 1 {
      assert s == [s[0]];
    } else if IsSpace(s[|s| - 1]) {
      var u := s[..|s| - 1];
      RStripCons(u);
      assert u[1..] == s[1..][..|s[1..]| - 1];
    } else {
      assert s == [s[0]] + s[1..];
    }
  }

  lemma {:induction false} LStripOfRStrip(s: string)
    ensures LStrip(RStrip(s)) == RStrip(LStrip(s))
    decreases |s|
  {
    if |s| > 0 {
      if IsSpace(s[0]) {
        var r := RStrip(s[1..]);
        assert LStrip(s) == LStrip(s[1..]);
        LStripOfRStrip(s[1..]);
        RStripCons(s);
        if r != [] {
          assert LStrip([s[0]] + r) == LStrip(r) by {
            assert ([s[0]] + r)[1..] == r;
          }
        }
      } else {
        LStripOfNonSpace(s);
        var r := RStrip(s);
        if r != [] {
          assert r[0] == s[0];
          LStripOfNonSpace(r);
        }
      }
    }
  }

  lemma StripAfterRStrip(s: string)
    ensures Strip(RStrip(s)) == Strip(s)
  {
    LStripOfRStrip(s);
    RStripIdempotent(LStrip(s));
  }

  // ---------------------------------------------------------------------------
  // split / join
  // ---------------------------------------------------------------------------

  /** `sep.join(parts)`. */
  function Join(parts: seq<string>, sep: string): string
    decreases |parts|
  {
    if |parts| == 0 then []
    else if |parts| == 1 then parts[0]
    else parts[0] + sep + Join(parts[1..], sep)
  }

  /** `s.split(sep)` for a non-empty separator: the pieces between
      consecutive occurrences found left to right, none of which contains
      the separator, and which join back into `s`. */
  function Split(s: string, sep: string): (parts: seq<string>)
    requires |sep| > 0
    ensures |parts| >= 1
    ensures forall i :: 0 <= i < |parts| ==> !Contains(parts[i], sep)
    ensures Join(parts, sep) == s
    ensures forall i :: 0 <= i < |parts| - 1 ==> Find(parts[i] + sep, sep) == Some(|parts[i]|)
    decreases |s|
  {
    match Find(s, sep)
    case None => [s]
    case Some(i) =>
      assert !Contains(s[..i], sep) by {
        forall j | OccursAt(s[..i], sep, j)
          ensures false
        {
          OccursInPrefix(s, sep, i, j);
        }
      }
      var rest := Split(s[i + |sep|..], sep);
      assert s == s[..i] + sep + s[i + |sep|..];
      FirstSeparator(s, sep, i);
      [s[..i]] + rest
  }

  /** The separator that `Find` reports first is also the first one in the
      text cut off right after it. */
  lemma FirstSeparator(s: string, sep: string, i: nat)
    requires Find(s, sep) == Some(i)
    ensures Find(s[..i] + sep, sep) == Some(i)
  {
    var t := s[..i] + sep;
    assert t == s[..i + |sep|];
    assert OccursAt(t, sep, i);
    forall j | 0 <= j < i
      ensures !OccursAt(t, sep, j)
    {
      if OccursAt(t, sep, j) {
        OccursInPrefix(s, sep, i + |sep|, j);
      }
    }
  }

  /** An occurrence that ends within a prefix occurs in that prefix. */
  lemma OccursWithinPrefix(s: string, sub: string, n: nat, j: nat)
    requires j + |sub| <= n <= |s| && OccursAt(s, sub, j)
    ensures OccursAt(s[..n], sub, j)
  {
    assert s[..n][j..j + |sub|] == s[j..j + |sub|];
  }

  /** The pieces are fixed: any pieces free of the separator that join
      into `s`, each one's separator being the first in it plus that
      separator, are `s.split(sep)`. */
  lemma {:induction false} SplitUnique(s: string, sep: string, parts: seq<string>)
    requires |sep| > 0 && |parts| >= 1
    requires forall i :: 0 <= i < |parts| ==> !Contains(parts[i], sep)
    requires Join(parts, sep) == s
    requires forall i :: 0 <= i < |parts| - 1 ==> Find(parts[i] + sep, sep) == Some(|parts[i]|)
    ensures Split(s, sep) == parts
    decreases |parts|
  {
    if |parts| == 1 {
      assert s == parts[0];
    } else {
      var p := parts[0];
      var rest := Join(parts[1..], sep);
      assert s == p + sep + rest;
      assert s[..|p| + |sep|] == p + sep;
      assert OccursAt(s, sep, |p|);
      assert Find(p + sep, sep) == Some(|p|);
      forall j | 0 <= j < |p| && OccursAt(s, sep, j)
        ensures false
      {
        OccursWithinPrefix(s, sep, |p| + |sep|, j);
      }
      assert Find(s, sep) == Some(|p|);
      assert s[|p| + |sep|..] == rest;
      assert s[..|p|] == p;
      SplitUnique(rest, sep, parts[1..]);
    }
  }

  /** `s.split(sep)` has one more piece than `s` has occurrences of `sep`. */
  lemma {:induction false} SplitCountsSeparators(s: string, sep: string)
    requires |sep| > 0
    ensures |Split(s, sep)| == Count(s, sep) + 1
    decreases |s|
  {
    match Find(s, sep)
    case None =>
    case Some(i) =>
      SplitCountsSeparators(s[i + |sep|..], sep);
  }

  /** Splitting at the first separator when the text before it holds none,
      and no occurrence can straddle the boundary because the separator's
      last character occurs nowhere else in it. */
  lemma FindAfterPrefix(a: string, sep: string, rest: string)
    requires |sep| > 0
    requires !Contains(a, sep)
    requires forall k :: 0 <= k < |sep| - 1 ==> sep[k] != sep[|sep| - 1]
    ensures Find(a + sep + rest, sep) == Some(|a|)
  {
    var s := a + sep + rest;
    assert s[|a|..|a| + |sep|] == sep;
    assert OccursAt(s, sep, |a|);
    forall j | 0 <= j < |a|
      ensures !OccursAt(s, sep, j)
    {
      if j + |sep| <= |a| {
        assert a[j..j + |sep|] == s[j..j + |sep|];
        assert !OccursAt(a, sep, j);
      } else {
        var k := j + |sep| - 1 - |a|;
        assert s[j + |sep| - 1] == sep[k];
      }
    }
  }

  /** The first separator comes right after a piece that lacks the
      separator's second character and does not end in its first. */
  lemma FindAfterPiece(x: string, sep: string, rest: string)
    requires |sep| >= 2
    requires forall i :: 0 <= i < |x| ==> x[i] != sep[1]
    requires |x| > 0 ==> x[|x| - 1] != sep[0]
    ensures Find(x + sep + rest, sep) == Some(|x|)
  {
    var s := x + sep + rest;
    assert s[|x|..|x| + |sep|] == sep;
    assert OccursAt(s, sep, |x|);
    forall j | 0 <= j < |x|
      ensures !OccursAt(s, sep, j)
    {
      assert s[j] == x[j];
      if j + 1 < |x| {
        assert s[j + 1] == x[j + 1];
      }
    }
  }

  /** Join and split are inverse when no piece contains the separator's
      second character and none ends in its first. */
  lemma {:induction false} SplitJoin(parts: seq<string>, sep: string)
    requires |sep| >= 2 && |parts| >= 1
    requires forall p, i :: p in parts && 0 <= i < |p| ==> p[i] != sep[1]
    requires forall p :: p in parts && |p| > 0 ==> p[|p| - 1] != sep[0]
    ensures Split(Join(parts, sep), sep) == parts
    decreases |parts|
  {
    if |parts| == 1 {
      MissingCharNotContained(parts[0], sep, 1);
    } else {
      var x := parts[0];
      var rest := Join(parts[1..], sep);
      var s := x + sep + rest;
      assert Join(parts, sep) == s;
      FindAfterPiece(x, sep, rest);
      assert s[..|x|] == x;
      assert s[|x| + |sep|..] == rest;
      assert Split(s, sep) == [x] + Split(rest, sep);
      SplitJoin(parts[1..], sep);
      HeadTail(parts);
    }
  }

  /** Split undoes join when no piece contains the separator and the
      separator's last character occurs nowhere else in it (so that no
      occurrence can straddle a piece and the separator after it). */
  lemma {:induction false} SplitJoinUnique(parts: seq<string>, sep: string)
    requires |sep| > 0 && |parts| >= 1
    requires forall k :: 0 <= k < |sep| - 1 ==> sep[k] != sep[|sep| - 1]
    requires forall p :: p in parts ==> !Contains(p, sep)
    ensures Split(Join(parts, sep), sep) == parts
    decreases |parts|
  {
    assert parts[0] in parts;
    if |parts| > 1 {
      var x := parts[0];
      var rest := Join(parts[1..], sep);
      var s := x + sep + rest;
      assert Join(parts, sep) == s;
      FindAfterPrefix(x, sep, rest);
      assert s[..|x|] == x;
      assert s[|x| + |sep|..] == rest;
      assert Split(s, sep) == [x] + Split(rest, sep);
      SplitJoinUnique(parts[1..], sep);
      HeadTail(parts);
    }
  }

  /** A joined text holds each of its pieces. */
  lemma {:induction false} JoinHoldsPieces(parts: seq<string>, sep: string, k: nat)
    requires k < |parts|
    ensures Contains(Join(parts, sep), parts[k])
    decreases |parts|
  {
    if |parts| == 1 {
      ContainsMiddle([], parts[0], []);
      assert [] + parts[0] + [] == parts[0];
    } else {
      var rest := Join(parts[1..], sep);
      Assoc(parts[0], sep, rest);
      if k == 0 {
        ContainsMiddle([], parts[0], sep + rest);
        assert [] + parts[0] + (sep + rest) == parts[0] + (sep + rest);
      } else {
        JoinHoldsPieces(parts[1..], sep, k - 1);
        ContainsMiddle(parts[0] + sep, rest, []);
        assert parts[0] + sep + rest + [] == parts[0] + sep + rest;
        ContainsTransitive(Join(parts, sep), rest, parts[k]);
      }
    }
  }

  /** `t.split(c, 1)` for a `t` holding `c`: the text before the first `c`
      and the text after it. */
  function SplitOnce(t: string, c: char): (r: Option<(string, string)>)
    ensures r.None? <==> c !in t
    ensures r.Some? ==> t == r.value.0 + [c] + r.value.1 && c !in r.value.0
    decreases |t|
  {
    if |t| == 0 then None
    else if t[0] == c then Some(([], t[1..]))
    else
      match SplitOnce(t[1..], c)
      case None => None
      case Some(p) => Some(([t[0]] + p.0, p.1))
  }

  /** A text glued from a `c`-free part, `c` and anything splits back into
      those two parts. */
  lemma {:induction false} SplitOnceGlue(a: string, c: char, b: string)
    requires c !in a
    ensures SplitOnce(a + [c] + b, c) == Some((a, b))
    decreases |a|
  {
    var t := a + [c] + b;
    if |a| == 0 {
      assert t[1..] == b;
    } else {
      assert t[1..] == a[1..] + [c] + b;
      SplitOnceGlue(a[1..], c, b);
      HeadTail(a);
    }
  }

  /** Python's `str.split()` with no argument: the maximal runs of
      non-whitespace characters, in order. */
  function SplitWhitespace(s: string): (words: seq<string>)
    ensures forall i :: 0 <= i < |words| ==> |words[i]| > 0 && NoSpace(words[i])
    decreases |s|
  {
    if |s| == 0 then []
    else if IsSpace(s[0]) then SplitWhitespace(s[1..])
    else
      var n := WordLength(s, 0);
      WordIsWord(s, n);
      [s[..n]] + SplitWhitespace(s[n..])
  }

  /** Only whitespace characters. */
  predicate AllSpace(s: string) {
    forall i :: 0 <= i < |s| ==> IsSpace(s[i])
  }

  /** The text made of the gaps with the words between them:
      `gaps[0] + words[0] + gaps[1] + ... + words[n-1] + gaps[n]`. */
  function Interleave(gaps: seq<string>, words: seq<string>): string
    requires |gaps| == |words| + 1
    decreases |words|
  {
    if words == [] then gaps[0] else gaps[0] + words[0] + Interleave(gaps[1..], words[1..])
  }

  /** Whitespace in front changes no words. */
  lemma {:induction false} SplitWhitespaceAfterSpace(g: string, t: string)
    requires AllSpace(g)
    ensures SplitWhitespace(g + t) == SplitWhitespace(t)
    decreases |g|
  {
    if |g| > 0 {
      assert (g + t)[1..] == g[1..] + t;
      SplitWhitespaceAfterSpace(g[1..], t);
    } else {
      assert g + t == t;
    }
  }

  /** A word followed by whitespace or by nothing is the first word. */
  lemma SplitWhitespaceWord(w: string, t: string)
    requires |w| > 0 && NoSpace(w)
    requires t == [] || IsSpace(t[0])
    ensures SplitWhitespace(w + t) == [w] + SplitWhitespace(t)
  {
    var s := w + t;
    WordLengthOfWord(w, t, 0);
    assert s[..|w|] == w;
    assert s[|w|..] == t;
  }

  lemma {:induction false} WordLengthOfWord(w: string, t: string, i: nat)
    requires i <= |w| && NoSpace(w)
    requires t == [] || IsSpace(t[0])
    ensures WordLength(w + t, i) == |w|
    decreases |w| - i
  {
    if i < |w| {
      assert (w + t)[i] == w[i];
      WordLengthOfWord(w, t, i + 1);
    }
  }

  /** `str.split()` gives back the words of any text built from words
      separated by non-empty whitespace, whatever whitespace surrounds
      them; since every text is built so, this fixes the words of every
      text. */
  lemma {:induction false} SplitWhitespaceInterleave(gaps: seq<string>, words: seq<string>)
    requires |gaps| == |words| + 1
    requires forall i :: 0 <= i < |gaps| ==> AllSpace(gaps[i])
    requires forall i :: 0 < i < |words| ==> |gaps[i]| > 0
    requires forall i :: 0 <= i < |words| ==> |words[i]| > 0 && NoSpace(words[i])
    ensures SplitWhitespace(Interleave(gaps, words)) == words
    decreases |words|
  {
    if words == [] {
      SplitWhitespaceAfterSpace(gaps[0], []);
      assert gaps[0] + [] == gaps[0];
    } else {
      var gs, ws := gaps[1..], words[1..];
      var rest := Interleave(gs, ws);
      SplitWhitespaceInterleave(gs, ws);
      InterleaveStart(gs, ws);
      SplitWhitespaceWord(words[0], rest);
      SplitWhitespaceAfterSpace(gaps[0], words[0] + rest);
      InterleaveCons(gaps, words);
      assert [words[0]] + ws == words;
    }
  }

  lemma InterleaveCons(gaps: seq<string>, words: seq<string>)
    requires |gaps| == |words| + 1 && words != []
    ensures Interleave(gaps, words) == gaps[0] + (words[0] + Interleave(gaps[1..], words[1..]))
  {
  }

  /** Built from whitespace gaps, a text starts with whitespace unless it
      is empty, as long as a word does not come first. */
  lemma InterleaveStart(gaps: seq<string>, words: seq<string>)
    requires |gaps| == |words| + 1 && AllSpace(gaps[0])
    requires words != [] ==> |gaps[0]| > 0
    ensures var r := Interleave(gaps, words); r == [] || IsSpace(r[0])
  {
    if words != [] {
      var r := Interleave(gaps, words);
      assert r == gaps[0] + (words[0] + Interleave(gaps[1..], words[1..]));
      assert r[0] == gaps[0][0];
    }
  }

  /** Whitespace put in front of the first gap is put in front of the
      whole text. */
  lemma InterleaveFront(c: string, gaps: seq<string>, words: seq<string>)
    requires |gaps| == |words| + 1
    ensures Interleave([c + gaps[0]] + gaps[1..], words) == c + Interleave(gaps, words)
  {
    var gs := [c + gaps[0]] + gaps[1..];
    assert gs[1..] == gaps[1..];
  }

  /** The whitespace runs around the words of `s`: every text is its words
      put between these gaps, so `SplitWhitespaceInterleave` covers every
      text. */
  function WhitespaceGaps(s: string): (gaps: seq<string>)
    ensures |gaps| == |SplitWhitespace(s)| + 1
    ensures forall i :: 0 <= i < |gaps| ==> AllSpace(gaps[i])
    ensures forall i :: 0 < i < |gaps| - 1 ==> |gaps[i]| > 0
    ensures |s| > 0 && IsSpace(s[0]) ==> |gaps[0]| > 0
    ensures Interleave(gaps, SplitWhitespace(s)) == s
    decreases |s|
  {
    if |s| == 0 then [""]
    else if IsSpace(s[0]) then
      var g := WhitespaceGaps(s[1..]);
      GapsAfterSpace(s[0], g);
      assert SplitWhitespace(s) == SplitWhitespace(s[1..]);
      InterleaveFront([s[0]], g, SplitWhitespace(s[1..]));
      assert [s[0]] + s[1..] == s;
      [[s[0]] + g[0]] + g[1..]
    else
      var n := WordLength(s, 0);
      var g := WhitespaceGaps(s[n..]);
      WordIsWord(s, n);
      InterleaveWord(s, n, g);
      [""] + g
  }

  /** A leading whitespace character joins the first gap. */
  lemma GapsAfterSpace(c: char, g: seq<string>)
    requires IsSpace(c) && |g| > 0
    requires forall i :: 0 <= i < |g| ==> AllSpace(g[i])
    requires forall i :: 0 < i < |g| - 1 ==> |g[i]| > 0
    ensures var gaps := [[c] + g[0]] + g[1..];
      && |gaps| == |g|
      && (forall i :: 0 <= i < |gaps| ==> AllSpace(gaps[i]))
      && (forall i :: 0 < i < |gaps| - 1 ==> |gaps[i]| > 0)
      && |gaps[0]| > 0
  {
    var gaps := [[c] + g[0]] + g[1..];
    assert forall i :: 0 < i < |gaps| ==> gaps[i] == g[i];
    AllSpaceCons(c, g[0]);
  }

  lemma AllSpaceCons(c: char, g: string)
    requires IsSpace(c) && AllSpace(g)
    ensures AllSpace([c] + g)
  {
    assert forall i :: 0 < i < |[c] + g| ==> ([c] + g)[i] == g[i - 1];
  }

  /** A leading word put in front of the words and gaps of the rest. */
  lemma InterleaveWord(s: string, n: nat, g: seq<string>)
    requires 0 < n <= |s| && !IsSpace(s[0]) && n == WordLength(s, 0)
    requires |g| == |SplitWhitespace(s[n..])| + 1
    requires Interleave(g, SplitWhitespace(s[n..])) == s[n..]
    ensures |SplitWhitespace(s)| == |SplitWhitespace(s[n..])| + 1
    ensures Interleave([""] + g, SplitWhitespace(s)) == s
  {
    var words := SplitWhitespace(s);
    var gaps := [""] + g;
    WordIsWord(s, n);
    assert s[..n] + s[n..] == s;
    SplitWhitespaceWord(s[..n], s[n..]);
    assert words[1..] == SplitWhitespace(s[n..]);
    assert gaps[1..] == g;
    InterleaveCons(gaps, words);
  }

  /** Leading whitespace does not change the words. */
  lemma {:induction false} SplitWhitespaceLStrip(s: string)
    ensures SplitWhitespace(LStrip(s)) == SplitWhitespace(s)
    decreases |s|
  {
    if |s| > 0 && IsSpace(s[0]) {
      SplitWhitespaceLStrip(s[1..]);
    }
  }

  lemma WordIsWord(t: string, n: nat)
    requires 0 < n <= |t|
    requires forall k :: 0 <= k < n ==> !IsSpace(t[k])
    ensures |t[..n]| > 0 && NoSpace(t[..n])
  {
  }

  /** The length of the run of non-space characters of `t` from index `i`. */
  function WordLength(t: string, i: nat): (n: nat)
    requires i <= |t|
    ensures i <= n <= |t|
    ensures n == |t| || IsSpace(t[n])
    ensures forall k :: i <= k < n ==> !IsSpace(t[k])
    decreases |t| - i
  {
    if i == |t| || IsSpace(t[i]) then i else WordLength(t, i + 1)
  }

  // ---------------------------------------------------------------------------
  // Decimal rendering
  // ---------------------------------------------------------------------------

  function DigitChar(d: nat): char
    requires d < 10
  {
    "0123456789"[d]
  }

  function DigitValue(c: char): nat {
    if '0' <= c <= '9' then c as int - '0' as int else 0
  }

  /** `str(n)` for a natural number. */
  function NatToString(n: nat): (r: string)
    ensures |r| >= 1
    ensures forall i :: 0 <= i < |r| ==> '0' <= r[i] <= '9'
    decreases n
  {
    if n < 10 then [DigitChar(n)] else NatToString(n / 10) + [DigitChar(n % 10)]
  }

  /** Reads a string of decimal digits back as a number. */
  function ParseDecimal(s: string): nat
    decreases |s|
  {
    if |s| == 0 then 0 else 10 * ParseDecimal(s[..|s| - 1]) + DigitValue(s[|s| - 1])
  }

  /** Rendering a number and reading it back gives the number. */
  lemma {:induction false} ParseNatToString(n: nat)
    ensures ParseDecimal(NatToString(n)) == n
    decreases n
  {
    var s := NatToString(n);
    if n < 10 {
      assert s[..|s| - 1] == [];
    } else {
      ParseNatToString(n / 10);
      assert s[..|s| - 1] == NatToString(n / 10);
    }
  }

  /** Distinct numbers render as distinct strings. */
  lemma NatToStringInjective(a: nat, b: nat)
    requires NatToString(a) == NatToString(b)
    ensures a == b
  {
    ParseNatToString(a);
    ParseNatToString(b);
  }

  /** A prefix followed by distinct numbers gives distinct strings. */
  lemma PrefixedNatInjective(prefix: string, a: nat, b: nat)
    requires prefix + NatToString(a) == prefix + NatToString(b)
    ensures a == b
  {
    var x := prefix + NatToString(a);
    assert x[|prefix|..] == NatToString(a);
    assert (prefix + NatToString(b))[|prefix|..] == NatToString(b);
    NatToStringInjective(a, b);
  }
}

=== FILE: task_service.dfy ===
/** Task records: creation (which also registers the task with its
    project), partial update, document registration and status change,
    over the store's `tasks` container.

    The store keys a task by its project id (see `MockDatabase.TaskKey`),
    while the lookups below use the id they are given; the model keeps
    both as written. */
module TaskService {
  import opened Wrappers
  import opened Models
  import opened MockDatabase
  import ProjectService

  /** `create_task`: a task with the id `"task-" + uid` (the first eight hex
      digits of a fresh uuid) and status "Not Started", copying the create
      record, stored under its key and then added to its project's task
      list when that project exists. */
  function CreateTask(db: Store, data: TaskCreate, uid: string): (r: (Store, Task))
    requires db.Valid()
    ensures r.0.Valid()
    ensures r.1.taskId == "task-" + uid && r.1.status == NotStarted
    ensures && r.1.projectId == data.projectId && r.1.assignedTo == data.assignedTo
            && r.1.client == data.client && r.1.taxForm == data.taxForm
            && r.1.documents == data.documents && r.1.description == data.description
            && r.1.dueDate == data.dueDate
    ensures GetById(r.0.tasks, data.projectId) == Some(r.1)
    ensures forall k :: k != data.projectId ==> GetById(r.0.tasks, k) == GetById(db.tasks, k)
    ensures data.projectId in db.projects.entries ==>
      GetById(r.0.projects, data.projectId) ==
        Some(db.projects.entries[data.projectId].(tasks := ProjectService.AppendOnce(db.projects.entries[data.projectId].tasks, r.1.taskId)))
    ensures data.projectId !in db.projects.entries ==> r.0.projects == db.projects
    ensures forall k :: k != data.projectId ==> GetById(r.0.projects, k) == GetById(db.projects, k)
    ensures r.0.documents == db.documents
  {
    var t := Task("task-" + uid, data.projectId, data.assignedTo, data.client, data.taxForm,
                  data.documents, NotStarted, data.description, data.dueDate);
    TaskKey(t);
    var db1 := db.(tasks := Create(db.tasks, t, t.Fields()).value);
    (ProjectService.AddTaskToProject(db1, data.projectId, t.taskId).0, t)
  }

  /** `update_task`: `None` for an id with no stored task; otherwise the
      stored task with the update's set fields written over it. */
  function UpdateTask(db: Store, taskId: string, u: TaskUpdate): (r: (Store, Option<Task>))
    requires db.Valid()
    ensures r.0.Valid()
    ensures r.1.None? <==> taskId !in db.tasks.entries
    ensures r.1.None? ==> r.0 == db
    ensures r.1.Some? ==> r.1.value == db.tasks.entries[taskId].With(u)
    ensures r.1.Some? ==> GetById(r.0.tasks, taskId) == r.1
    ensures forall k :: k != taskId ==> GetById(r.0.tasks, k) == GetById(db.tasks, k)
    ensures r.0.projects == db.projects && r.0.documents == db.documents
  {
    match GetById(db.tasks, taskId)
    case None => (db, None)
    case Some(current) =>
      var updated := current.With(u);
      (db.(tasks := Update(db.tasks, taskId, updated).value), Some(updated))
  }

  /** `add_document_to_task`. */
  function AddDocumentToTask(db: Store, taskId: string, documentId: string): (r: (Store, Option<Task>))
    requires db.Valid()
    ensures r.0.Valid()
    ensures r.1.None? <==> taskId !in db.tasks.entries
    ensures r.1.None? ==> r.0 == db
    ensures r.1.Some? ==> r.1.value == db.tasks.entries[taskId].(documents := ProjectService.AppendOnce(db.tasks.entries[taskId].documents, documentId))
    ensures r.1.Some? ==> GetById(r.0.tasks, taskId) == r.1
    ensures forall k :: k != taskId ==> GetById(r.0.tasks, k) == GetById(db.tasks, k)
    ensures r.0.projects == db.projects && r.0.documents == db.documents
  {
    match GetById(db.tasks, taskId)
    case None => (db, None)
    case Some(task) =>
      if documentId !in task.documents then
        var updated := task.(documents := task.documents + [documentId]);
        (db.(tasks := Update(db.tasks, taskId, updated).value), Some(updated))
      else (db, Some(task))
  }

  /** Adding the same document twice is adding it once. */
  lemma AddDocumentToTaskIdempotent(db: Store, taskId: string, documentId: string)
    requires db.Valid()
    ensures var (db1, t1) := AddDocumentToTask(db, taskId, documentId);
      AddDocumentToTask(db1, taskId, documentId) == (db1, t1)
  {
    var (db1, t1) := AddDocumentToTask(db, taskId, documentId);
    if t1.Some? {
      assert GetById(db1.tasks, taskId) == t1;
      ProjectService.AppendOnceIdempotent(db.tasks.entries[taskId].documents, documentId);
    }
  }

  /** `update_task_status`: the stored task with only its status replaced. */
  function UpdateTaskStatus(db: Store, taskId: string, status: TaskStatus): (r: (Store, Option<Task>))
    requires db.Valid()
    ensures r.0.Valid()
    ensures r.1.None? <==> taskId !in db.tasks.entries
    ensures r.1.Some? ==> r.1.value == db.tasks.entries[taskId].(status := status)
    ensures r.1.Some? ==> GetById(r.0.tasks, taskId) == r.1
    ensures forall k :: k != taskId ==> GetById(r.0.tasks, k) == GetById(db.tasks, k)
    ensures r.0.projects == db.projects && r.0.documents == db.documents
  {
    match GetById(db.tasks, taskId)
    case None => (db, None)
    case Some(task) =>
      var updated := task.(status := status);
      (db.(tasks := Update(db.tasks, taskId, updated).value), Some(updated))
  }

  /** Changing the status is the partial update that sets only the status. */
  lemma StatusIsPartialUpdate(db: Store, taskId: string, status: TaskStatus)
    requires db.Valid()
    ensures UpdateTaskStatus(db, taskId, status) == UpdateTask(db, taskId, StatusOnly(status))
  {
    if taskId in db.tasks.entries {
      StatusOnlyChangesStatus(db.tasks.entries[taskId], status);
    }
  }

  /** A task created in a store with no task stored under its project id is
      not found by its own id, unless its id happens to equal the project
      id: `get_by_id(task_id)` looks under the key the store did not use. */
  lemma CreatedTaskNotFoundById(db: Store, data: TaskCreate, uid: string)
    requires db.Valid()
    requires "task-" + uid != data.projectId
    requires "task-" + uid !in db.tasks.entries
    ensures GetById(CreateTask(db, data, uid).0.tasks, "task-" + uid) == None
  {
  }
}

=== FILE: text_utils.dfy ===
/** Text helpers for document content and model replies: whitespace
    clean-up with truncation, recognising suggested actions in a reply, and
    cutting keyword excerpts out of a document. The regular expressions of
    `extract_actions_from_response` are written out as explicit scanners,
    each with a declarative description of what a match is. */
module TextUtils {
  import opened Wrappers
  import opened Strings
  import opened Seqs

  // ---------------------------------------------------------------------------
  // Whitespace clean-up
  // ---------------------------------------------------------------------------

  /** Every whitespace character is a plain space and no two whitespace
      characters are adjacent. */
  ghost predicate Collapsed(s: string) {
    forall i :: 0 <= i < |s| && IsSpace(s[i]) ==> s[i] == ' ' && (i + 1 < |s| ==> !IsSpace(s[i + 1]))
  }

  /** `re.sub(r'\s+', ' ', s)`: each maximal run of whitespace becomes a
      single space. */
  function Collapse(s: string): (r: string)
    ensures |r| <= |s|
    ensures |s| > 0 <==> |r| > 0
    ensures |s| > 0 ==> r[0] == if IsSpace(s[0]) then ' ' else s[0]
  {
    CollapseAfter(s, false)
  }

  /** The substitution scanned one character at a time; `inRun` says that
      the whitespace just before `s` has already been replaced by its
      space, so whitespace at the front of `s` is dropped. */
  function CollapseAfter(s: string, inRun: bool): (r: string)
    ensures |r| <= |s|
    ensures |s| > 0 && !inRun ==> |r| > 0 && r[0] == if IsSpace(s[0]) then ' ' else s[0]
    decreases |s|
  {
    if |s| == 0 then []
    else if !IsSpace(s[0]) then [s[0]] + CollapseAfter(s[1..], false)
    else if inRun then CollapseAfter(s[1..], true)
    else " " + CollapseAfter(s[1..], true)
  }

  /** The result of `Collapse` has no whitespace but single spaces, and
      inside a run nothing starts with whitespace. */
  lemma {:induction false} CollapseAfterIsCollapsed(s: string, inRun: bool)
    ensures Collapsed(CollapseAfter(s, inRun))
    ensures inRun ==> CollapseAfter(s, inRun) == [] || !IsSpace(CollapseAfter(s, inRun)[0])
    decreases |s|
  {
    if |s| > 0 {
      if !IsSpace(s[0]) {
        CollapseAfterIsCollapsed(s[1..], false);
        ConsCollapsed(s[0], CollapseAfter(s[1..], false));
      } else {
        CollapseAfterIsCollapsed(s[1..], true);
        if !inRun {
          ConsCollapsed(' ', CollapseAfter(s[1..], true));
        }
      }
    }
  }

  lemma CollapseIsCollapsed(s: string)
    ensures Collapsed(Collapse(s))
  {
    CollapseAfterIsCollapsed(s, false);
  }

  /** A character put in front of a collapsed string keeps it collapsed,
      provided a whitespace character is a space followed by no other. */
  lemma ConsCollapsed(c: char, x: string)
    requires Collapsed(x)
    requires IsSpace(c) ==> c == ' ' && (x == [] || !IsSpace(x[0]))
    ensures Collapsed([c] + x)
  {
    var y := [c] + x;
    forall i | 0 <= i < |y| && IsSpace(y[i])
      ensures y[i] == ' ' && (i + 1 < |y| ==> !IsSpace(y[i + 1]))
    {
      if i > 0 {
        assert y[i] == x[i - 1];
      }
      if i + 1 < |y| {
        assert y[i + 1] == x[i];
      }
    }
  }

  /** A string that is already collapsed is left alone. */
  lemma {:induction false} CollapseAfterFixpoint(s: string, inRun: bool)
    requires Collapsed(s)
    requires inRun ==> s == [] || !IsSpace(s[0])
    ensures CollapseAfter(s, inRun) == s
    decreases |s|
  {
    if |s| > 0 {
      CollapsedTail(s);
      var after := IsSpace(s[0]);
      assert after ==> |s[1..]| == 0 || !IsSpace(s[1..][0]);
      CollapseAfterFixpoint(s[1..], after);
      HeadTail(s);
    }
  }

  lemma CollapseFixpoint(s: string)
    requires Collapsed(s)
    ensures Collapse(s) == s
  {
    CollapseAfterFixpoint(s, false);
  }

  lemma CollapsedTail(s: string)
    requires Collapsed(s) && |s| > 0
    ensures Collapsed(s[1..])
  {
    forall i | 0 <= i < |s[1..]| && IsSpace(s[1..][i])
      ensures s[1..][i] == ' ' && (i + 1 < |s[1..]| ==> !IsSpace(s[1..][i + 1]))
    {
      assert s[1..][i] == s[i + 1];
    }
  }

  lemma CollapseIdempotent(s: string)
    ensures Collapse(Collapse(s)) == Collapse(s)
  {
    CollapseIsCollapsed(s);
    CollapseFixpoint(Collapse(s));
  }

  /** A run of non-space characters at the front is copied unchanged. */
  lemma {:induction false} CollapseWord(s: string, n: nat)
    requires 0 < n <= |s|
    requires forall k :: 0 <= k < n ==> !IsSpace(s[k])
    ensures CollapseAfter(s, false) == s[..n] + CollapseAfter(s[n..], false)
    decreases n
  {
    var c := s[0];
    var t := s[1..];
    assert CollapseAfter(s, false) == [c] + CollapseAfter(t, false);
    if n == 1 {
      assert s[..1] == [c];
      assert t == s[1..];
    } else {
      CollapseWord(t, n - 1);
      assert t[n - 1..] == s[n..];
      assert s[..n] == [c] + t[..n - 1];
      Assoc([c], t[..n - 1], CollapseAfter(s[n..], false));
    }
  }

  /** Splitting a string that starts with a whole word. */
  lemma SplitAfterWord(w: string, rest: string)
    requires |w| > 0 && NoSpace(w)
    requires rest == [] || IsSpace(rest[0])
    ensures SplitWhitespace(w + rest) == [w] + SplitWhitespace(rest)
  {
    var s := w + rest;
    assert forall k :: 0 <= k < |w| ==> s[k] == w[k];
    assert rest != [] ==> s[|w|] == rest[0];
    var n := WordLength(s, 0);
    assert s[..n] == w;
    assert s[n..] == rest;
  }

  /** Collapsing whitespace keeps the words `str.split()` finds. */
  lemma {:induction false} CollapseAfterKeepsWords(s: string, inRun: bool)
    ensures SplitWhitespace(CollapseAfter(s, inRun)) == SplitWhitespace(s)
    decreases |s|
  {
    if |s| > 0 {
      if IsSpace(s[0]) {
        var x := CollapseAfter(s[1..], true);
        CollapseAfterKeepsWords(s[1..], true);
        if !inRun {
          assert (" " + x)[1..] == x;
        }
      } else {
        var n := WordLength(s, 0);
        var rest := CollapseAfter(s[n..], false);
        assert CollapseAfter(s, inRun) == CollapseAfter(s, false);
        CollapseWord(s, n);
        CollapseAfterKeepsWords(s[n..], false);
        WordIsWord(s, n);
        SplitAfterWord(s[..n], rest);
      }
    }
  }

  lemma CollapseKeepsWords(s: string)
    ensures SplitWhitespace(Collapse(s)) == SplitWhitespace(s)
  {
    CollapseAfterKeepsWords(s, false);
  }

  /** A prefix of a collapsed text with "..." after it is still collapsed:
      the dots are not whitespace. */
  lemma CutCollapsed(text: string, n: nat)
    requires Collapsed(text) && n <= |text|
    ensures Collapsed(text[..n] + "...")
  {
    var r := text[..n] + "...";
    forall i | 0 <= i < |r| && IsSpace(r[i])
      ensures r[i] == ' ' && (i + 1 < |r| ==> !IsSpace(r[i + 1]))
    {
      assert i < n;
      assert r[i] == text[i];
      if i + 1 < n {
        assert r[i + 1] == text[i + 1];
      }
    }
  }

  /** `extract_text_from_content`: empty content gives the empty string;
      otherwise whitespace runs are collapsed and a result longer than
      `maxLength` is cut to `text[:maxLength]` followed by "...". */
  function ExtractTextFromContent(content: string, maxLength: int): (r: string)
    ensures r == [] <==> content == []
    ensures Collapsed(r)
    ensures 0 <= maxLength ==> |r| <= maxLength + 3
    ensures content != [] && |Collapse(content)| <= maxLength ==>
      && r == Collapse(content)
      && SplitWhitespace(r) == SplitWhitespace(content)
    ensures content != [] && |Collapse(content)| > maxLength ==>
      && 3 <= |r| <= |Collapse(content)| + 3
      && r[|r| - 3..] == "..."
      && r[..|r| - 3] == Collapse(content)[..|r| - 3]
    ensures 0 <= maxLength && content != [] && |Collapse(content)| > maxLength ==>
      |r| == maxLength + 3
  {
    if content == [] then []
    else
      var text := Collapse(content);
      CollapseKeepsWords(content);
      CollapseIsCollapsed(content);
      if |text| > maxLength then
        var p := PyPrefix(text, maxLength);
        CutCollapsed(text, |p|);
        p + "..."
      else text
  }

  /** Cleaning an already cleaned text again changes nothing. */
  lemma ExtractTextIdempotent(content: string, maxLength: int)
    requires 0 <= maxLength
    ensures ExtractTextFromContent(ExtractTextFromContent(content, maxLength), maxLength)
      == ExtractTextFromContent(content, maxLength)
  {
    var r := ExtractTextFromContent(content, maxLength);
    if content != [] {
      var text := Collapse(content);
      if |text| > maxLength {
        CollapseFixpoint(r);
        assert r[..maxLength] == text[..maxLength];
      } else {
        CollapseIdempotent(content);
      }
    }
  }

  // ---------------------------------------------------------------------------
  // Suggested actions
  // ---------------------------------------------------------------------------

  /** The four actions the assistant can recommend. */
  datatype ActionId = GenerateMissingInfo | TriggerRiskReview | GenerateClientSummary | SendToTaxReview
  {
    function Name(): string {
      match this
      case GenerateMissingInfo => "generate_missing_info"
      case TriggerRiskReview => "trigger_risk_review"
      case GenerateClientSummary => "generate_client_summary"
      case SendToTaxReview => "send_to_tax_review"
    }
  }

  const AllActionIds: set<ActionId> :=
    {GenerateMissingInfo, TriggerRiskReview, GenerateClientSummary, SendToTaxReview}

  lemma AllActionIdsComplete(a: ActionId)
    ensures a in AllActionIds && |AllActionIds| == 4
  {
  }

  /** An action recognised in a reply; its parameters are always empty. */
  datatype SuggestedAction = SuggestedAction(actionId: ActionId, actionName: string, description: string)

  /** The keyword test for each action, on a lower-cased phrase. */
  predicate Mentions(l: string, id: ActionId) {
    match id
    case GenerateMissingInfo => Contains(l, "missing") && (Contains(l, "info") || Contains(l, "letter"))
    case TriggerRiskReview => Contains(l, "risk") && Contains(l, "review")
    case GenerateClientSummary => Contains(l, "summary")
    case SendToTaxReview => Contains(l, "tax review")
  }

  /** The order in which the tests are tried. */
  const Priority: seq<ActionId> := [GenerateMissingInfo, TriggerRiskReview, GenerateClientSummary, SendToTaxReview]

  /** The first action of `ids` whose test the phrase passes. */
  function FirstMentioned(l: string, ids: seq<ActionId>): (r: Option<ActionId>)
    ensures r.Some? ==> r.value in ids && Mentions(l, r.value)
    ensures r.None? <==> forall k :: 0 <= k < |ids| ==> !Mentions(l, ids[k])
    decreases |ids|
  {
    if |ids| == 0 then None
    else if Mentions(l, ids[0]) then Some(ids[0])
    else
      var r := FirstMentioned(l, ids[1..]);
      assert forall k :: 1 <= k < |ids| ==> ids[k] == ids[1..][k - 1];
      r
  }

  /** Maps a phrase to an action by the keywords it mentions (ASCII case
      ignored), trying the actions in priority order. */
  function Classify(phrase: string): (r: Option<ActionId>)
    ensures r.Some? ==> Mentions(Lower(phrase), r.value)
    ensures r.None? <==> forall id: ActionId :: !Mentions(Lower(phrase), id)
  {
    var r := FirstMentioned(Lower(phrase), Priority);
    assert forall id: ActionId :: id in Priority by {
      forall id: ActionId ensures id in Priority {
        assert id == Priority[0] || id == Priority[1] || id == Priority[2] || id == Priority[3];
      }
    }
    r
  }

  /** An action is chosen only when no action earlier in the priority order
      is mentioned. */
  lemma {:induction false} FirstMentionedIsFirst(l: string, ids: seq<ActionId>, k: nat)
    requires k < |ids| && FirstMentioned(l, ids) == Some(ids[k])
    requires forall i, j :: 0 <= i < j < |ids| ==> ids[i] != ids[j]
    ensures forall j :: 0 <= j < k ==> !Mentions(l, ids[j])
    decreases |ids|
  {
    if k > 0 && !Mentions(l, ids[0]) {
      assert ids[1..][k - 1] == ids[k];
      FirstMentionedIsFirst(l, ids[1..], k - 1);
      forall j | 1 <= j < k ensures !Mentions(l, ids[j]) {
        assert ids[1..][j - 1] == ids[j];
      }
    }
  }

  lemma LowerIdempotent(s: string)
    ensures Lower(Lower(s)) == Lower(s)
  {
  }

  /** The classification ignores ASCII case. */
  lemma ClassifyIgnoresCase(phrase: string)
    ensures Classify(Lower(phrase)) == Classify(phrase)
  {
    LowerIdempotent(phrase);
  }

  /** "tax review" mentions "review", so a phrase that also mentions risk is
      taken as a risk review: sending to tax review is chosen only for a
      phrase that mentions neither risk nor a summary. */
  lemma TaxReviewShadowed(phrase: string)
    requires Classify(phrase) == Some(SendToTaxReview)
    ensures Contains(Lower(phrase), "tax review")
    ensures !Contains(Lower(phrase), "risk") && !Contains(Lower(phrase), "summary")
  {
    var l := Lower(phrase);
    assert Priority[3] == SendToTaxReview;
    FirstMentionedIsFirst(l, Priority, 3);
    assert !Mentions(l, Priority[1]) && !Mentions(l, Priority[2]);
    assert Contains("tax review", "review") by {
      assert OccursAt("tax review", "review", 4);
      ContainsIff("tax review", "review");
    }
    ContainsTransitive(l, "tax review", "review");
  }

  // --- Pattern 1: "<lead> <verb> <article> <object>." ---------------------

  /** The word groups of the recommendation pattern, in order: a lead
      phrase, a verb and an article. Each group is an alternation tried in
      order, matched ignoring ASCII case and followed by one space. */
  const Leads: seq<string> := ["i recommend", "you could", "consider", "you may want to"]
  const Verbs: seq<string> := ["generating", "creating", "sending", "triggering"]
  const Articles: seq<string> := ["a", "the"]
  const Recommendation: seq<seq<string>> := [Leads, Verbs, Articles]

  /** `s` holds the lower-case word `w` at index `i`, ignoring ASCII case. */
  predicate LowerAt(s: string, i: nat, w: string) {
    i + |w| <= |s| && forall k :: 0 <= k < |w| ==> LowerChar(s[i + k]) == w[k]
  }

  /** Any two alternatives differ at some index both have, so no text
      holds two of them at once. */
  ghost predicate Exclusive(alts: seq<string>) {
    forall a, b :: 0 <= a < b < |alts| ==> exists k :: Differ(alts[a], alts[b], k)
  }

  ghost predicate Differ(v: string, w: string, k: int) {
    0 <= k < |v| && k < |w| && v[k] != w[k]
  }

  /** Every group of the pattern is exclusive. */
  ghost predicate ExclusiveGroups(groups: seq<seq<string>>) {
    forall g :: 0 <= g < |groups| ==> Exclusive(groups[g])
  }

  lemma LeadsExclusive()
    ensures Exclusive(Leads)
  {
    var L := Leads;
    assert Differ(L[0], L[1], 0) && Differ(L[0], L[2], 0) && Differ(L[0], L[3], 0);
    assert Differ(L[1], L[2], 0) && Differ(L[1], L[3], 4) && Differ(L[2], L[3], 0);
  }

  lemma VerbsExclusive()
    ensures Exclusive(Verbs)
  {
    var V := Verbs;
    assert Differ(V[0], V[1], 0) && Differ(V[0], V[2], 0) && Differ(V[0], V[3], 0);
    assert Differ(V[1], V[2], 0) && Differ(V[1], V[3], 0) && Differ(V[2], V[3], 0);
  }

  lemma ArticlesExclusive()
    ensures Exclusive(Articles)
  {
    assert Differ(Articles[0], Articles[1], 0);
  }

  /** No two alternatives of a group of the recommendation pattern can
      both match at one place, so the pattern never backtracks. */
  lemma RecommendationExclusive()
    ensures ExclusiveGroups(Recommendation)
  {
    LeadsExclusive();
    VerbsExclusive();
    ArticlesExclusive();
  }

  /** Which alternative, tried in order, is found at `i`. */
  function FirstAlternative(s: string, i: nat, alts: seq<string>): (r: Option<nat>)
    ensures r.Some? ==> r.value < |alts|
    decreases |alts|
  {
    if |alts| == 0 then None
    else if LowerAt(s, i, alts[0]) then Some(0)
    else
      var r := FirstAlternative(s, i, alts[1..]);
      if r.Some? then Some(r.value + 1) else None
  }

  /** The alternative found is present, and none before it is; when none
      is found, no alternative is present. */
  lemma {:induction false} FirstAlternativeSound(s: string, i: nat, alts: seq<string>)
    ensures var r := FirstAlternative(s, i, alts);
      && (r.Some? ==> LowerAt(s, i, alts[r.value]))
      && (r.Some? ==> forall k :: 0 <= k < r.value ==> !LowerAt(s, i, alts[k]))
      && (r.None? ==> forall k :: 0 <= k < |alts| ==> !LowerAt(s, i, alts[k]))
    decreases |alts|
  {
    if |alts| > 0 && !LowerAt(s, i, alts[0]) {
      FirstAlternativeSound(s, i, alts[1..]);
      assert forall k :: 1 <= k < |alts| ==> alts[k] == alts[1..][k - 1];
    }
  }

  /** Alternative `a` of `alts` at `i`, followed by a space. */
  ghost predicate WordThenSpace(s: string, i: nat, alts: seq<string>, a: nat) {
    a < |alts| && LowerAt(s, i, alts[a]) && i + |alts[a]| < |s| && s[i + |alts[a]|] == ' '
  }

  /** The first alternative at `i`, provided a space follows it. */
  function WordStep(s: string, i: nat, alts: seq<string>): (r: Option<nat>)
    ensures r.Some? ==> r.value < |alts| && i + |alts[r.value]| < |s|
  {
    var o := FirstAlternative(s, i, alts);
    if o.Some? && i + |alts[o.value]| < |s| && s[i + |alts[o.value]|] == ' ' then o else None
  }

  /** A step that succeeds found its word followed by a space. */
  lemma WordStepSound(s: string, i: nat, alts: seq<string>)
    ensures var r := WordStep(s, i, alts); r.Some? ==> WordThenSpace(s, i, alts, r.value)
  {
    FirstAlternativeSound(s, i, alts);
  }

  /** At most one alternative of an exclusive group is present at an index,
      so trying them in order never has to backtrack. */
  lemma AlternativesExclusive(s: string, i: nat, alts: seq<string>, a: nat, b: nat)
    requires Exclusive(alts)
    requires a < |alts| && b < |alts|
    requires LowerAt(s, i, alts[a]) && LowerAt(s, i, alts[b])
    ensures a == b
  {
    forall k | 0 <= k < |alts[a]| && k < |alts[b]|
      ensures alts[a][k] == alts[b][k]
    {
      assert LowerChar(s[i + k]) == alts[a][k];
      assert LowerChar(s[i + k]) == alts[b][k];
    }
  }

  lemma WordStepComplete(s: string, i: nat, alts: seq<string>, a: nat)
    requires Exclusive(alts)
    requires WordThenSpace(s, i, alts, a)
    ensures WordStep(s, i, alts) == Some(a)
  {
    FirstAlternativeSound(s, i, alts);
    var o := FirstAlternative(s, i, alts);
    AlternativesExclusive(s, i, alts, a, o.value);
  }

  /** Which alternative each group matched, and where the last group's
      space ends. */
  datatype WordsMatch = WordsMatch(choices: seq<nat>, end: nat)

  /** The groups matched one after the other from `i`. */
  function Words(s: string, i: nat, groups: seq<seq<string>>): (r: Option<WordsMatch>)
    ensures r.Some? ==> |r.value.choices| == |groups| && i <= r.value.end
    decreases |groups|
  {
    if |groups| == 0 then Some(WordsMatch([], i))
    else
      match WordStep(s, i, groups[0])
      case None => None
      case Some(a) =>
        match Words(s, i + |groups[0][a]| + 1, groups[1..])
        case None => None
        case Some(w) => Some(WordsMatch([a] + w.choices, w.end))
  }

  /** The groups hold the chosen alternatives one after the other from `i`,
      each followed by a space, up to `end`. */
  ghost predicate IsWords(s: string, i: nat, groups: seq<seq<string>>, choices: seq<nat>, end: nat)
    decreases |groups|
  {
    && |choices| == |groups|
    && (if |groups| == 0 then end == i
        else
          && WordThenSpace(s, i, groups[0], choices[0])
          && IsWords(s, i + |groups[0][choices[0]]| + 1, groups[1..], choices[1..], end))
  }

  lemma {:induction false} WordsSound(s: string, i: nat, groups: seq<seq<string>>)
    ensures var r := Words(s, i, groups); r.Some? ==> IsWords(s, i, groups, r.value.choices, r.value.end)
    decreases |groups|
  {
    if |groups| > 0 {
      WordStepSound(s, i, groups[0]);
      var o := WordStep(s, i, groups[0]);
      if o.Some? {
        WordsSound(s, i + |groups[0][o.value]| + 1, groups[1..]);
      }
    }
  }

  lemma {:induction false} WordsComplete(s: string, i: nat, groups: seq<seq<string>>, choices: seq<nat>, end: nat)
    requires ExclusiveGroups(groups)
    requires IsWords(s, i, groups, choices, end)
    ensures Words(s, i, groups) == Some(WordsMatch(choices, end))
    decreases |groups|
  {
    if |groups| > 0 {
      WordStepComplete(s, i, groups[0], choices[0]);
      assert ExclusiveGroups(groups[1..]) by {
        assert forall g :: 1 <= g < |groups| ==> groups[1..][g - 1] == groups[g];
      }
      WordsComplete(s, i + |groups[0][choices[0]]| + 1, groups[1..], choices[1..], end);
      assert choices == [choices[0]] + choices[1..];
    }
  }

  /** The characters that end a recommended object: a full stop or a line
      break. */
  predicate IsStop(c: char) {
    c == '.' || c == '\n'
  }

  /** The first index at or after `i` holding a full stop or a line break. */
  function Terminator(s: string, i: nat): (r: Option<nat>)
    ensures r.Some? ==> i <= r.value < |s|
    decreases |s| - i
  {
    if i >= |s| then None
    else if IsStop(s[i]) then Some(i)
    else Terminator(s, i + 1)
  }

  /** `s[from..end]` is free of full stops and line breaks, and `s[end]` is
      one. */
  ghost predicate ObjectUntil(s: string, from: nat, end: nat) {
    from <= end < |s| && IsStop(s[end]) && forall k :: from <= k < end ==> !IsStop(s[k])
  }

  /** The terminator found ends the object; none found means there is no
      full stop or line break from `i` on. */
  lemma {:induction false} TerminatorSound(s: string, i: nat)
    ensures var r := Terminator(s, i);
      && (r.Some? ==> ObjectUntil(s, i, r.value))
      && (r.None? ==> forall k :: i <= k < |s| ==> !IsStop(s[k]))
    decreases |s| - i
  {
    if i < |s| && !IsStop(s[i]) {
      TerminatorSound(s, i + 1);
    }
  }

  lemma TerminatorComplete(s: string, from: nat, end: nat)
    requires ObjectUntil(s, from, end)
    ensures Terminator(s, from) == Some(end)
  {
    TerminatorSound(s, from);
  }

  /** A match of the recommendation pattern: the alternative each group
      matched, the whole match `s[start..objEnd + 1]` and the object group
      `s[objStart..objEnd]`. */
  datatype RecommendMatch = RecommendMatch(start: nat, choices: seq<nat>, objStart: nat, objEnd: nat)

  /** What the recommendation pattern matches, stated without the scanner:
      the groups' chosen words, each followed by a single space, then the
      shortest object that reaches a full stop or a line break. */
  ghost predicate IsRecommendMatch(s: string, groups: seq<seq<string>>, m: RecommendMatch) {
    IsWords(s, m.start, groups, m.choices, m.objStart) && ObjectUntil(s, m.objStart, m.objEnd)
  }

  /** The object group lies after the start and ends inside `s`. */
  predicate Placed(s: string, m: RecommendMatch) {
    m.start <= m.objStart <= m.objEnd < |s|
  }

  /** The recommendation pattern tried at index `i`. */
  function RecommendAt(s: string, groups: seq<seq<string>>, i: nat): (r: Option<RecommendMatch>)
    ensures r.Some? ==> r.value.start == i && Placed(s, r.value)
  {
    match Words(s, i, groups)
    case None => None
    case Some(w) =>
      match Terminator(s, w.end)
      case None => None
      case Some(e) => Some(RecommendMatch(i, w.choices, w.end, e))
  }

  /** Whatever the scanner finds at `i` is a match of the pattern. */
  lemma RecommendAtSound(s: string, groups: seq<seq<string>>, i: nat)
    ensures var r := RecommendAt(s, groups, i); r.Some? ==> IsRecommendMatch(s, groups, r.value)
  {
    WordsSound(s, i, groups);
    var w := Words(s, i, groups);
    if w.Some? {
      TerminatorSound(s, w.value.end);
    }
  }

  /** With exclusive groups, the scanner finds every match of the pattern
      at its start. */
  lemma RecommendAtComplete(s: string, groups: seq<seq<string>>, m: RecommendMatch)
    requires ExclusiveGroups(groups)
    requires IsRecommendMatch(s, groups, m)
    ensures RecommendAt(s, groups, m.start) == Some(m)
  {
    WordsComplete(s, m.start, groups, m.choices, m.objStart);
    TerminatorComplete(s, m.objStart, m.objEnd);
  }

  /** Some match of the pattern starts at `q`. */
  ghost predicate MatchStartsAt(s: string, groups: seq<seq<string>>, q: nat) {
    exists m: RecommendMatch :: m.start == q && IsRecommendMatch(s, groups, m)
  }

  lemma NoMatchAt(s: string, groups: seq<seq<string>>, q: nat)
    requires ExclusiveGroups(groups) && RecommendAt(s, groups, q).None?
    ensures !MatchStartsAt(s, groups, q)
  {
    forall m: RecommendMatch | m.start == q ensures !IsRecommendMatch(s, groups, m) {
      if IsRecommendMatch(s, groups, m) {
        RecommendAtComplete(s, groups, m);
      }
    }
  }

  /** `re.finditer` with the recommendation pattern from index `i`: matches
      left to right, each search resuming where the previous match ended. */
  function RecommendMatches(s: string, groups: seq<seq<string>>, i: nat): (r: seq<RecommendMatch>)
    requires i <= |s|
    ensures forall k :: 0 <= k < |r| ==> i <= r[k].start && Placed(s, r[k])
    ensures forall k :: 0 <= k < |r| - 1 ==> r[k].objEnd < r[k + 1].start
    decreases |s| - i
  {
    match RecommendAt(s, groups, i)
    case Some(m) => [m] + RecommendMatches(s, groups, m.objEnd + 1)
    case None => if i == |s| then [] else RecommendMatches(s, groups, i + 1)
  }

  /** Every match found is a match of the pattern. */
  lemma {:induction false} RecommendMatchesSound(s: string, groups: seq<seq<string>>, i: nat)
    requires i <= |s|
    ensures forall m :: m in RecommendMatches(s, groups, i) ==> IsRecommendMatch(s, groups, m)
    decreases |s| - i
  {
    var o := RecommendAt(s, groups, i);
    if o.Some? {
      RecommendAtSound(s, groups, i);
      RecommendMatchesSound(s, groups, o.value.objEnd + 1);
    } else if i < |s| {
      RecommendMatchesSound(s, groups, i + 1);
    }
  }

  /** The search skips no match: nothing matches between `i` and the first
      match found (or the end, when none is found). */
  lemma {:induction false} RecommendMatchesLeftmost(s: string, groups: seq<seq<string>>, i: nat, q: nat)
    requires i <= |s| && ExclusiveGroups(groups)
    requires var r := RecommendMatches(s, groups, i); i <= q <= |s| && (|r| == 0 || q < r[0].start)
    ensures !MatchStartsAt(s, groups, q)
    decreases |s| - i
  {
    if RecommendAt(s, groups, i).None? {
      if q == i {
        NoMatchAt(s, groups, q);
      } else {
        RecommendMatchesLeftmost(s, groups, i + 1, q);
      }
    }
  }

  /** The actions the recommendation matches name, in order. */
  function RecommendCandidates(s: string, ms: seq<RecommendMatch>): (r: seq<SuggestedAction>)
    requires forall k :: 0 <= k < |ms| ==> Placed(s, ms[k])
    ensures |r| <= |ms|
    decreases |ms|
  {
    if |ms| == 0 then []
    else
      var rest := RecommendCandidates(s, ms[1..]);
      match RecommendAction(s, ms[0])
      case Some(a) => [a] + rest
      case None => rest
  }

  /** The action one recommendation names, if its stripped object
      classifies; the description quotes the whole matched sentence. */
  function RecommendAction(s: string, m: RecommendMatch): Option<SuggestedAction>
    requires Placed(s, m)
  {
    var obj := Strip(s[m.objStart..m.objEnd]);
    match Classify(obj)
    case Some(id) => Some(SuggestedAction(id, obj, "AI suggested: " + s[m.start..m.objEnd + 1]))
    case None => None
  }

  /** Each action from a recommendation is named by the stripped object,
      which classifies as that action, and described by the whole sentence
      that matched. */
  lemma {:induction false} RecommendCandidatesClassified(s: string, ms: seq<RecommendMatch>)
    requires forall k :: 0 <= k < |ms| ==> Placed(s, ms[k])
    ensures forall a :: a in RecommendCandidates(s, ms) ==>
      StartsWith(a.description, "AI suggested: ") && Classify(a.actionName) == Some(a.actionId)
    decreases |ms|
  {
    if |ms| > 0 {
      RecommendCandidatesClassified(s, ms[1..]);
    }
  }

  // --- Pattern 2: "Action: <text>" up to the end of the line -------------

  const ActionMarker: string := "Action:"

  /** A match of the action-line pattern: the marker at `start`, the text
      group `s[textStart..textEnd]`, and the match ending after the line
      break at `textEnd` (or at the end of `s`). */
  datatype LineMatch = LineMatch(start: nat, textStart: nat, textEnd: nat)

  /** What the action-line pattern matches, stated without the scanner:
      the marker, then all the whitespace that follows it (line breaks
      included), then the rest of that line. */
  ghost predicate IsActionLine(s: string, marker: string, m: LineMatch) {
    && OccursAt(s, marker, m.start)
    && m.start + |marker| <= m.textStart <= m.textEnd <= |s|
    && (forall k :: m.start + |marker| <= k < m.textStart ==> IsSpace(s[k]))
    && (m.textStart == |s| || !IsSpace(s[m.textStart]))
    && (forall k :: m.textStart <= k < m.textEnd ==> s[k] != '\n')
    && (m.textEnd == |s| || s[m.textEnd] == '\n')
  }

  /** The index of the first non-space character at or after `i`. */
  function SkipSpace(s: string, i: nat): (j: nat)
    requires i <= |s|
    ensures i <= j <= |s|
    decreases |s| - i
  {
    if i == |s| || !IsSpace(s[i]) then i else SkipSpace(s, i + 1)
  }

  lemma {:induction false} SkipSpaceSound(s: string, i: nat)
    requires i <= |s|
    ensures var j := SkipSpace(s, i);
      && (forall k :: i <= k < j ==> IsSpace(s[k]))
      && (j == |s| || !IsSpace(s[j]))
    decreases |s| - i
  {
    if i < |s| && IsSpace(s[i]) {
      SkipSpaceSound(s, i + 1);
    }
  }

  /** The index of the first line break at or after `i`, or `|s|`. */
  function LineEnd(s: string, i: nat): (j: nat)
    requires i <= |s|
    ensures i <= j <= |s|
    decreases |s| - i
  {
    if i == |s| || s[i] == '\n' then i else LineEnd(s, i + 1)
  }

  lemma {:induction false} LineEndSound(s: string, i: nat)
    requires i <= |s|
    ensures var j := LineEnd(s, i);
      && (forall k :: i <= k < j ==> s[k] != '\n')
      && (j == |s| || s[j] == '\n')
    decreases |s| - i
  {
    if i < |s| && s[i] != '\n' {
      LineEndSound(s, i + 1);
    }
  }

  /** The action line whose marker is at `p`. */
  function ActionLineAt(s: string, marker: string, p: nat): (m: LineMatch)
    requires p + |marker| <= |s|
    ensures m.start == p && p + |marker| <= m.textStart <= m.textEnd <= |s|
  {
    var q := SkipSpace(s, p + |marker|);
    LineMatch(p, q, LineEnd(s, q))
  }

  /** `re.finditer(r"Action:\s*(.*?)(?:\n|$)", s)` from index `i`: each
      search resumes after the line break that ended the previous match,
      and stops once a match reaches the end of `s`. */
  function ActionLines(s: string, marker: string, i: nat): (r: seq<LineMatch>)
    requires i <= |s|
    ensures forall k :: 0 <= k < |r| ==> i <= r[k].start && r[k].textStart <= r[k].textEnd <= |s|
    ensures forall k :: 0 <= k < |r| - 1 ==> r[k].textEnd < r[k + 1].start
    ensures forall k :: 0 <= k < |r| ==>
      OccursAt(s, marker, r[k].start) && ActionLineAt(s, marker, r[k].start) == r[k]
    decreases |s| - i
  {
    match FindFrom(s, marker, i)
    case None => []
    case Some(p) =>
      var m := ActionLineAt(s, marker, p);
      if m.textEnd == |s| then [m]
      else [m] + ActionLines(s, marker, m.textEnd + 1)
  }

  /** Every match found is a match of the pattern. */
  lemma ActionLinesSound(s: string, marker: string, i: nat)
    requires i <= |s|
    ensures forall m :: m in ActionLines(s, marker, i) ==> IsActionLine(s, marker, m)
  {
    var r := ActionLines(s, marker, i);
    forall m | m in r ensures IsActionLine(s, marker, m) {
      ActionLineAtSound(s, marker, m.start);
    }
  }

  /** The action line at an occurrence of the marker is a match. */
  lemma ActionLineAtSound(s: string, marker: string, p: nat)
    requires OccursAt(s, marker, p)
    ensures IsActionLine(s, marker, ActionLineAt(s, marker, p))
  {
    SkipSpaceSound(s, p + |marker|);
    LineEndSound(s, SkipSpace(s, p + |marker|));
  }

  /** No marker is skipped: none occurs between `i` and the first match
      found (or anywhere from `i` on, when none is found). */
  lemma ActionLinesLeftmost(s: string, marker: string, i: nat, p: nat)
    requires i <= |s|
    requires var r := ActionLines(s, marker, i); i <= p && (|r| == 0 || p < r[0].start)
    ensures !OccursAt(s, marker, p)
  {
  }

  function LineCandidates(s: string, ms: seq<LineMatch>): (r: seq<SuggestedAction>)
    requires forall k :: 0 <= k < |ms| ==> ms[k].textStart <= ms[k].textEnd <= |s|
    ensures |r| <= |ms|
    decreases |ms|
  {
    if |ms| == 0 then []
    else
      var text := Strip(s[ms[0].textStart..ms[0].textEnd]);
      var rest := LineCandidates(s, ms[1..]);
      var c := Classify(text);
      if c.None? then rest
      else
        var a := SuggestedAction(c.value, text, "AI suggested: " + text);
        [a] + rest
  }

  /** Each action from an action line is named by the line's text, which
      classifies as that action. */
  lemma {:induction false} LineCandidatesClassified(s: string, ms: seq<LineMatch>)
    requires forall k :: 0 <= k < |ms| ==> ms[k].textStart <= ms[k].textEnd <= |s|
    ensures forall a :: a in LineCandidates(s, ms) ==>
      a.description == "AI suggested: " + a.actionName && Classify(a.actionName) == Some(a.actionId)
    decreases |ms|
  {
    if |ms| > 0 {
      LineCandidatesClassified(s, ms[1..]);
    }
  }

  /** Every recognised action before de-duplication: first those from
      recommendation sentences, then those from action lines. */
  function Candidates(response: string): seq<SuggestedAction> {
    RecommendCandidates(response, RecommendMatches(response, Recommendation, 0))
      + LineCandidates(response, ActionLines(response, ActionMarker, 0))
  }

  function ActionKey(a: SuggestedAction): ActionId {
    a.actionId
  }

  /** The loop that drops repeated actions, keeping the first of each, with
      a set of the action ids already seen. */
  method DedupActions(actions: seq<SuggestedAction>) returns (unique: seq<SuggestedAction>)
    ensures unique == KeepFirst(actions, ActionKey)
  {
    unique := [];
    var seen: set<ActionId> := {};
    var i := 0;
    while i < |actions|
      invariant 0 <= i <= |actions|
      invariant unique == KeepFirst(actions[..i], ActionKey)
      invariant seen == KeySet(unique, ActionKey)
    {
      assert actions[..i + 1] == actions[..i] + [actions[i]];
      assert actions[..i + 1][..i] == actions[..i];
      KeySetSnoc(unique, actions[i], ActionKey);
      if actions[i].actionId !in seen {
        unique := unique + [actions[i]];
        seen := seen + {actions[i].actionId};
      }
      i := i + 1;
    }
    assert actions[..i] == actions;
  }

  /** `extract_actions_from_response`: the candidates with a repeated
      action dropped, keeping the first of each; so at most one action of
      each of the four kinds. */
  method ExtractActionsFromResponse(response: string) returns (unique: seq<SuggestedAction>)
    ensures unique == KeepFirst(Candidates(response), ActionKey)
    ensures |unique| <= 4
    ensures forall i, j :: 0 <= i < j < |unique| ==> unique[i].actionId != unique[j].actionId
    ensures forall i :: 0 <= i < |unique| ==> unique[i] in Candidates(response)
  {
    var actions := Candidates(response);
    unique := DedupActions(actions);
    forall k | 0 <= k < |actions| ensures ActionKey(actions[k]) in AllActionIds {
      AllActionIdsComplete(ActionKey(actions[k]));
    }
    KeepFirstBound(actions, ActionKey, AllActionIds);
    AllActionIdsComplete(GenerateMissingInfo);
  }

  // ---------------------------------------------------------------------------
  // Keyword excerpts
  // ---------------------------------------------------------------------------

  /** `text` holds `kw` at index `p`, ignoring ASCII case. */
  predicate MatchesAt(text: string, kw: string, p: nat) {
    p + |kw| <= |text| && forall k :: 0 <= k < |kw| ==> LowerChar(text[p + k]) == LowerChar(kw[k])
  }

  /** A left-to-right scan of the indices `i..n` for those where `m`
      holds, without overlap: after a hit at `p` the scan resumes at
      `p + step`, the way `re.finditer` resumes after a match. Its
      properties are the lemmas below, one point at a time. */
  function Hits(m: nat -> bool, n: nat, step: nat, i: nat): seq<nat>
    requires step > 0
    decreases n + 1 - i
  {
    if i > n then []
    else if !m(i) then Hits(m, n, step, i + 1)
    else if i + step <= n then [i] + Hits(m, n, step, i + step)
    else [i]
  }

  /** Every reported index is a hit inside the scanned range. */
  lemma {:induction false} HitsSound(m: nat -> bool, n: nat, step: nat, i: nat, k: nat)
    requires step > 0 && k < |Hits(m, n, step, i)|
    ensures i <= Hits(m, n, step, i)[k] <= n && m(Hits(m, n, step, i)[k])
    decreases n + 1 - i
  {
    if !m(i) {
      HitsSound(m, n, step, i + 1, k);
    } else if k > 0 {
      var rest := Hits(m, n, step, i + step);
      assert Hits(m, n, step, i) == [i] + rest;
      HitsSound(m, n, step, i + step, k - 1);
    }
  }

  /** Reported hits are increasing and at least `step` apart. */
  lemma {:induction false} HitsOrdered(m: nat -> bool, n: nat, step: nat, i: nat, a: nat, b: nat)
    requires step > 0 && a < b < |Hits(m, n, step, i)|
    ensures Hits(m, n, step, i)[a] + step <= Hits(m, n, step, i)[b]
    decreases n + 1 - i
  {
    if !m(i) {
      HitsOrdered(m, n, step, i + 1, a, b);
    } else {
      var rest := Hits(m, n, step, i + step);
      assert Hits(m, n, step, i) == [i] + rest;
      if a > 0 {
        HitsOrdered(m, n, step, i + step, a - 1, b - 1);
      } else {
        HitsSound(m, n, step, i + step, b - 1);
      }
    }
  }

  /** No hit comes before the first one reported. */
  lemma {:induction false} HitsFirst(m: nat -> bool, n: nat, step: nat, i: nat, p: nat)
    requires step > 0 && i <= p
    requires if |Hits(m, n, step, i)| == 0 then p <= n else p < Hits(m, n, step, i)[0]
    ensures !m(p)
    decreases n + 1 - i
  {
    if i <= n && !m(i) && p > i {
      HitsFirst(m, n, step, i + 1, p);
    }
  }

  /** No hit lies between the end of one reported hit and the next. */
  lemma {:induction false} HitsGap(m: nat -> bool, n: nat, step: nat, i: nat, k: nat, p: nat)
    requires step > 0 && k + 1 < |Hits(m, n, step, i)|
    requires Hits(m, n, step, i)[k] + step <= p < Hits(m, n, step, i)[k + 1]
    ensures !m(p)
    decreases n + 1 - i
  {
    if !m(i) {
      HitsGap(m, n, step, i + 1, k, p);
    } else {
      var rest := Hits(m, n, step, i + step);
      assert Hits(m, n, step, i) == [i] + rest;
      if k > 0 {
        HitsGap(m, n, step, i + step, k - 1, p);
      } else {
        HitsFirst(m, n, step, i + step, p);
      }
    }
  }

  /** No hit in the scanned range lies after the end of the last one. */
  lemma {:induction false} HitsAfterLast(m: nat -> bool, n: nat, step: nat, i: nat, p: nat)
    requires step > 0 && |Hits(m, n, step, i)| > 0
    requires Hits(m, n, step, i)[|Hits(m, n, step, i)| - 1] + step <= p <= n
    ensures !m(p)
    decreases n + 1 - i
  {
    if !m(i) {
      HitsAfterLast(m, n, step, i + 1, p);
    } else if i + step <= n {
      var rest := Hits(m, n, step, i + step);
      assert Hits(m, n, step, i) == [i] + rest;
      if rest != [] {
        HitsAfterLast(m, n, step, i + step, p);
      } else {
        HitsFirst(m, n, step, i + step, p);
      }
    }
  }

  function MatchAt(text: string, kw: string): nat -> bool {
    (p: nat) => MatchesAt(text, kw, p)
  }

  /** The start of every match of `re.compile(re.escape(kw), re.IGNORECASE)`
      from index `i`: left to right without overlap; the empty keyword
      matches at every index up to and including `|text|`. */
  function KeywordPositions(text: string, kw: string, i: nat): (r: seq<nat>)
    ensures forall k :: 0 <= k < |r| ==> i <= r[k] && MatchesAt(text, kw, r[k])
    ensures forall a, b :: 0 <= a < b < |r| ==> r[a] + Max(|kw|, 1) <= r[b]
    ensures forall p :: i <= p && (|r| == 0 || p < r[0]) ==> !MatchesAt(text, kw, p)
  {
    KeywordPositionsFacts(text, kw, i);
    Hits(MatchAt(text, kw), |text|, Max(|kw|, 1), i)
  }

  /** What `KeywordPositions` promises about its result `r`. */
  ghost predicate PositionsFrom(text: string, kw: string, i: nat, r: seq<nat>) {
    && (forall k :: 0 <= k < |r| ==> i <= r[k] && MatchesAt(text, kw, r[k]))
    && (forall a, b :: 0 <= a < b < |r| ==> r[a] + Max(|kw|, 1) <= r[b])
    && (forall p :: i <= p && (|r| == 0 || p < r[0]) ==> !MatchesAt(text, kw, p))
  }

  lemma KeywordPositionsFacts(text: string, kw: string, i: nat)
    ensures PositionsFrom(text, kw, i, Hits(MatchAt(text, kw), |text|, Max(|kw|, 1), i))
  {
    var m := MatchAt(text, kw);
    var step := Max(|kw|, 1);
    var r := Hits(m, |text|, step, i);
    forall k | 0 <= k < |r| ensures i <= r[k] && MatchesAt(text, kw, r[k]) {
      HitsSound(m, |text|, step, i, k);
    }
    forall a, b | 0 <= a < b < |r| ensures r[a] + step <= r[b] {
      HitsOrdered(m, |text|, step, i, a, b);
    }
    forall p | i <= p && (|r| == 0 || p < r[0]) ensures !MatchesAt(text, kw, p) {
      if p <= |text| {
        if |r| > 0 {
          HitsSound(m, |text|, step, i, 0);
        }
        HitsFirst(m, |text|, step, i, p);
      }
    }
  }

  /** No match of `kw` lies between the end of one position of `r` and the
      next, nor after the end of the last. */
  ghost predicate SkipsNoMatch(text: string, kw: string, r: seq<nat>) {
    && (forall k, p :: 0 <= k < |r| - 1 && r[k] + Max(|kw|, 1) <= p < r[k + 1] ==> !MatchesAt(text, kw, p))
    && (|r| > 0 ==> forall p :: r[|r| - 1] + Max(|kw|, 1) <= p ==> !MatchesAt(text, kw, p))
  }

  /** No match is skipped. */
  lemma KeywordPositionsComplete(text: string, kw: string, i: nat)
    ensures SkipsNoMatch(text, kw, KeywordPositions(text, kw, i))
  {
    var m := MatchAt(text, kw);
    var step := Max(|kw|, 1);
    var r := Hits(m, |text|, step, i);
    forall k, p | 0 <= k < |r| - 1 && r[k] + step <= p < r[k + 1] ensures !MatchesAt(text, kw, p) {
      HitsGap(m, |text|, step, i, k, p);
    }
    forall p | |r| > 0 && r[|r| - 1] + step <= p ensures !MatchesAt(text, kw, p) {
      if p <= |text| {
        HitsAfterLast(m, |text|, step, i, p);
      }
    }
    assert SkipsNoMatch(text, kw, r);
  }

  /** The excerpt around a match of length `len` at `p`: up to `ctx`
      characters on either side, with "..." marking a cut on each side. */
  function Excerpt(text: string, p: nat, len: nat, ctx: int): (chunk: string)
    requires p + len <= |text|
    ensures 0 <= ctx ==>
      var start := Max(0, p - ctx);
      var end := Min(|text|, p + len + ctx);
      && start <= p && p + len <= end
      && chunk == (if start > 0 then "..." else "") + text[start..end] + (if end < |text| then "..." else "")
  {
    var start := Max(0, p - ctx);
    var end := Min(|text|, p + len + ctx);
    var core := PySlice(text, start, end);
    (if start > 0 then "..." else "") + core + (if end < |text| then "..." else "")
  }

  /** With a non-negative context every excerpt contains the matched text. */
  lemma ExcerptHoldsMatch(text: string, p: nat, len: nat, ctx: int)
    requires p + len <= |text| && 0 <= ctx
    ensures Contains(Excerpt(text, p, len, ctx), text[p..p + len])
  {
    var start := Max(0, p - ctx);
    var end := Min(|text|, p + len + ctx);
    var pre := if start > 0 then "..." else "";
    var post := if end < |text| then "..." else "";
    var c := Excerpt(text, p, len, ctx);
    assert c == pre + text[start..end] + post;
    OccursInSlice(text, start, end, p, len);
    OccursInMiddle(pre, text[start..end], post, text[p..p + len], p - start);
    ContainsIff(c, text[p..p + len]);
  }

  function KeywordExcerpts(text: string, kw: string, ps: seq<nat>, ctx: int): (r: seq<string>)
    requires forall k :: 0 <= k < |ps| ==> ps[k] + |kw| <= |text|
    ensures |r| == |ps|
    ensures forall k :: 0 <= k < |ps| ==> r[k] == Excerpt(text, ps[k], |kw|, ctx)
  {
    seq(|ps|, k requires 0 <= k < |ps| => Excerpt(text, ps[k], |kw|, ctx))
  }

  /** Every excerpt, keyword by keyword, in the order they are produced. */
  function AllExcerpts(text: string, keywords: seq<string>, ctx: int): seq<string>
    decreases |keywords|
  {
    if |keywords| == 0 then []
    else
      var ps := KeywordPositions(text, keywords[0], 0);
      KeywordExcerpts(text, keywords[0], ps, ctx) + AllExcerpts(text, keywords[1..], ctx)
  }

  /** An excerpt is produced for every match of every keyword. */
  lemma {:induction false} AllExcerptsCover(text: string, keywords: seq<string>, ctx: int, k: nat, j: nat)
    requires k < |keywords|
    requires j < |KeywordPositions(text, keywords[k], 0)|
    ensures Excerpt(text, KeywordPositions(text, keywords[k], 0)[j], |keywords[k]|, ctx) in AllExcerpts(text, keywords, ctx)
    decreases k
  {
    var ps := KeywordPositions(text, keywords[k], 0);
    var x := Excerpt(text, ps[j], |keywords[k]|, ctx);
    var here := KeywordExcerpts(text, keywords[0], KeywordPositions(text, keywords[0], 0), ctx);
    var rest := AllExcerpts(text, keywords[1..], ctx);
    assert AllExcerpts(text, keywords, ctx) == here + rest;
    if k > 0 {
      assert keywords[1..][k - 1] == keywords[k];
      AllExcerptsCover(text, keywords[1..], ctx, k - 1, j);
      assert x in rest;
    } else {
      assert here[j] == x;
    }
    InEither(here, rest, x);
  }

  function Identity(x: string): string {
    x
  }

  function PositionIn(text: string): string -> int {
    x => FindIndex(text, x)
  }

  /** `extract_key_info`: the distinct excerpts ordered by where they first
      occur in `text` (those that do not occur, because of an added "...",
      first of all). Excerpts at the same position appear in Python's `set`
      iteration order, which depends on string hashing; here the first
      produced comes first. */
  function ExtractKeyInfo(text: string, keywords: seq<string>, ctx: int): (r: seq<string>)
    ensures text == [] || keywords == [] ==> r == []
    ensures Distinct(r)
    ensures forall x :: x in r <==> text != [] && x in AllExcerpts(text, keywords, ctx)
    ensures SortedBy(r, PositionIn(text))
  {
    if text == [] || keywords == [] then []
    else
      var chunks := AllExcerpts(text, keywords, ctx);
      var unique := KeepFirst(chunks, Identity);
      var r := SortBy(unique, PositionIn(text));
      assert Distinct(unique) by {
        forall i, j | 0 <= i < j < |unique| ensures unique[i] != unique[j] {
          assert Identity(unique[i]) != Identity(unique[j]);
        }
      }
      DistinctPermutation(unique, r);
      assert forall x :: x in r <==> x in multiset(unique);
      assert forall x :: x in unique <==> x in KeySet(unique, Identity);
      assert forall x :: x in chunks <==> x in KeySet(chunks, Identity);
      r
  }

  /** Whenever some keyword occurs in a non-empty text, at least one
      excerpt comes back. */
  lemma KeyInfoFound(text: string, keywords: seq<string>, ctx: int, k: nat, p: nat)
    requires text != [] && k < |keywords| && MatchesAt(text, keywords[k], p)
    ensures ExtractKeyInfo(text, keywords, ctx) != []
  {
    var ps := KeywordPositions(text, keywords[k], 0);
    assert |ps| > 0;
    AllExcerptsCover(text, keywords, ctx, k, 0);
  }
}

=== FILE: wrappers.dfy ===
/** Failure-carrying result types shared by every module of the model.
    `Option` stands for Python's `Optional` / `None` returns, `Result` for a
    value that is either produced or replaced by a raised exception. */
module Wrappers {

  datatype Option<+T> = None | Some(value: T) {
    function GetOr(default: T): T {
      match this
      case Some(v) => v
      case None => default
    }
  }

  datatype Result<+T, +E> = Success(value: T) | Failure(error: E)
}
